=== FILE: README.md ===
# nuxt-db in Dafny

A model of the core of **nuxt-db**, a Nuxt module that turns a directory of content files into a queryable in-memory document store. The model has three parts:

- **The client query layer** (`src/runtime/composables/useDB.js`).
  - `useDB(...args)` turns its string arguments into a request path and decides between one record and a directory listing.
  - The `Query` builders (`only`, `without`, `where`, `sortBy`, `limit`, `skip`, `search`) accumulate a query.
  - `resolve` runs the query: filter, search, sort, skip, limit, projection, then single-or-many and the not-found error.
  - `compile`, `equals` and the `operations` table define the filter language.
- **The builder** (`src/builder/index.js`).
  - `normalizePath` turns a file path into a record path.
  - `parseFile` shapes parsed values into records, each carrying `slug`, `dir`, `path`, `extension`, `createdAt` and `updatedAt`.
  - The entry test of `walk` decides which directory entries are skipped.
  - `insertFile`, `updateFile` and `removeFile` change the store, and `refresh` dispatches a watcher event to one of them.
- **The markdown parser's output** (`src/builder/parsers/markdown/index.js`).
  - `cleanHTML` trims rendered HTML, deletes word comments and joins tags separated by newlines.
  - `toJSON` builds the record as `excerpt`, `body`, then the frontmatter's own fields.

JavaScript values are `Json.Value`:

- `undefined`, `null`, booleans, numbers (as `real`, plus `NaN`), strings, arrays, and plain objects as ordered field lists (key order is observable in projection and spreads).
- Date objects as millisecond counts.

Throwing is `Results.Result` with an `Error`, which is one of:

- `TypeError`: a property read of `null`/`undefined`, or a missing method;
- `Coercion`: a JavaScript coercion the model does not carry out;
- `NotFound(message)`: the `"<path> not found"` error of `resolve`.

The store (PicoDB) is a sequence of records in insertion order, plus the builder's list of directories.

Modules, one per file:

- `Results`, `Seqs`, `Text` and `Json` hold the shared vocabulary.
- `Filter` holds `equals`, `operations` and `compile`.
- `Queries` holds the `Query` class and `resolve`.
- `UseDb` holds `useDB` and its fetch functions.
- `Paths` holds `normalizePath`, `path.extname` and the walk skip test.
- `Records` holds `parseFile`.
- `Store` holds the store operations, `insertFile`, `updateFile`, `removeFile` and `refresh`.
- `Markdown` holds `cleanHTML` and `toJSON`.

Behaviour worth noting:

- **List item paths.** A list file's item without a truthy `slug` has no positional path. In `list.json` holding `[{slug: "x"}, {}]`, the second value is stored at `/list` in directory `/`, not at `/list/2` (`Records.ListFileLocations`).
- **Reserved keys.** A parsed value's own `slug` overrides the computed one. The object literal spreads the value after `slug`, so only `dir`, `path`, `extension`, `createdAt` and `updatedAt` are reserved (`Records.Merge`). As a consequence `path == dir + "/" + slug` does not hold for a single-value file whose value has its own `slug`.
- **Markdown output.** `body` and `excerpt` are cleaned HTML strings. There is no node tree and no plain-text `description` field (`Markdown.ToJson`).
- **Updating a file.** `updateFile` upserts record by record; it does not delete and re-insert. It prunes old records only when the file now yields more than one record. So a list file that shrinks to a single value leaves its old item records in the store (`Store.Refit`).
- **Directory list.** The directory list holds the walked directories and the paths of list files. `removeFile` never removes an entry from it (`Store.RemoveFile`).

## Model

| member | source | states |
|---|---|---|
| Json.Spread | src/runtime/composables/useDB.js:80 | the keys of `{...a, ...b}` are exactly those of `a` and `b`, with `a`'s first in their order; a key of `b` takes `b`'s value, any other keeps `a`'s; distinct keys stay distinct |
| Json.Put | src/runtime/composables/useDB.js:143 | assigning a key sets that key only; an existing key keeps its place and a new key is appended |
| Filter.EqualsReflexive | src/runtime/composables/useDB.js:167-196 | every value without Date objects equals itself |
| Filter.UndefinedEqualsNoJson | src/runtime/composables/useDB.js:167-196 | `undefined` equals no JSON value |
| Filter.EqualsIsSameJson | src/runtime/composables/useDB.js:167-196 | on JSON data, `equals` holds iff the values are structurally equal with objects compared as key-to-value maps regardless of key order, in both directions |
| Filter.EqualsAsymmetric | src/runtime/composables/useDB.js:182-193 | `equals` is not symmetric: an expected key holding `undefined` matches an object lacking that key, but not the other way round |
| Filter.Eval | src/runtime/composables/useDB.js:220-244 | a compiled filter only raises a type or coercion error, never the not-found error |
| Filter.Apply | src/runtime/composables/useDB.js:198-218 | an operator only raises a type or coercion error, never the not-found error |
| Filter.EvalFieldsIsEvery | src/runtime/composables/useDB.js:235-240 | testing an object filter is `every` over the outcomes of its properties, from any position on |
| Filter.EvalAllIsEvery | src/runtime/composables/useDB.js:210 | the `$and` loop is `every` over the sub-filter outcomes |
| Filter.EvalAnyIsAnyOf | src/runtime/composables/useDB.js:211 | the `$or` loop is `some` over the sub-filter outcomes |
| Filter.EveryHolds | src/runtime/composables/useDB.js:235 | `every` holds iff each outcome holds, and is their conjunction when none throws |
| Filter.AnyOfHolds | src/runtime/composables/useDB.js:211 | `some` fails iff each outcome fails, and is their disjunction when none throws |
| Filter.ObjectFilterIsConjunction | src/runtime/composables/useDB.js:229-241 | an object filter holds iff every property test holds; it does not throw when no property test throws; the empty filter holds of everything |
| Filter.OperatorsStartWithDollar | src/runtime/composables/useDB.js:198-218 | every operator name starts with `$` |
| Filter.MissingParentFails | src/runtime/composables/useDB.js:236-238 | a non-empty filter made only of field names is false, without throwing, on `undefined` |
| Filter.ArrayIndexKeys | src/runtime/composables/useDB.js:239 | a field name `"0"`/`"1"` reads the array element at that index |
| Filter.BetweenInclusive | src/runtime/composables/useDB.js:205 | `$between` on numbers holds iff `lo <= x <= hi` |
| Filter.BetweenInclusiveStrings | src/runtime/composables/useDB.js:205 | `$between` on strings is inclusive at both bounds in character-code order |
| Filter.InNinComplement | src/runtime/composables/useDB.js:207-208 | `$nin` is the negation of `$in` and throws exactly when `$in` throws, with the same error |
| Filter.InPrimitive | src/runtime/composables/useDB.js:207 | `$in` with an array and a primitive value is membership |
| Filter.InNeverHoldsForObjects | src/runtime/composables/useDB.js:207 | `$in` with an array never holds for an array, object or date value |
| Filter.ExistsTestsPresence | src/runtime/composables/useDB.js:212 | `$exists: f` tests definedness when `f` is truthy and absence otherwise |
| Filter.NotNegates | src/runtime/composables/useDB.js:209 | `$not` throws iff the sub-filter throws and otherwise negates it |
| Filter.AndIsEvery | src/runtime/composables/useDB.js:210 | `$and` holds iff every sub-filter holds, and is their conjunction when none throws |
| Filter.OrIsSome | src/runtime/composables/useDB.js:211 | `$or` fails iff every sub-filter fails, and is their disjunction when none throws |
| Filter.SizeNeedsSequence | src/runtime/composables/useDB.js:213 | `$size` is false for anything but an array or a string |
| Filter.ArrayOperatorsNeedArray | src/runtime/composables/useDB.js:214-215 | `$all` and `$elemMatch` are false for anything but an array |
| Filter.StringOperatorsNeedString | src/runtime/composables/useDB.js:216-217 | `$startsWith` and `$endsWith` are false for anything but a string |
| Filter.RegexNeverMatches | src/runtime/composables/useDB.js:206 | `$regex` raises a type error on a string, because it calls `test` on the string, and is false on any other value |
| Filter.SingleProperty | src/runtime/composables/useDB.js:229-241 | a one-property filter is that property's test |
| Filter.FieldProperty | src/runtime/composables/useDB.js:239 | a field-name property tests the field's value, with the field name as context |
| Filter.OperatorProperty | src/runtime/composables/useDB.js:221-223 | an operator property applies the operator to the value itself |
| Filter.PrimitiveConditionIsEquality | src/runtime/composables/useDB.js:243 | a primitive condition on a field holds iff the field has that value |
| Filter.GreaterThanExample | src/runtime/composables/useDB.js:201 | `{k: {$gt: t}}` holds of a numeric field iff it exceeds `t`, and is false when the field is missing |
| Filter.OrExample | src/runtime/composables/useDB.js:211 | `{$or: [{a: x}, {b: y}]}` holds iff field `a` is `x` or field `b` is `y` |
| Queries.SpreadArgs | src/runtime/composables/useDB.js:70 | `...keys \|\| []` adds nothing for a falsy argument, an array's elements, a string's characters, and throws for any other value |
| Queries.Only | src/runtime/composables/useDB.js:69-72 | `only` appends its keys to the projection list and changes nothing else |
| Queries.Without | src/runtime/composables/useDB.js:74-77 | `without` appends its keys to the exclusion list and changes nothing else |
| Queries.Where | src/runtime/composables/useDB.js:79-82 | `where` keeps the old keys, adds the new ones, lets the new values win and changes nothing else |
| Json.LessThan | src/runtime/composables/useDB.js:201-205 | `a < b` compares two strings by character code and two number-convertible values as numbers; `undefined` or NaN on either side gives the undefined outcome; exactly the remaining mixes (an array or object, or one string against a non-string) give the `Coercion` error |
| Queries.SortBy | src/runtime/composables/useDB.js:84-87 | `sortBy` appends `-key` for `'desc'` and `key` for any other string or no direction, and gives the `Coercion` error for array, object and date directions, whose conversion to a string is not modelled |
| Queries.Limit | src/runtime/composables/useDB.js:89-92 | `limit` sets only the limit |
| Queries.Skip | src/runtime/composables/useDB.js:94-97 | `skip` sets only the skip |
| Queries.Search | src/runtime/composables/useDB.js:99-106 | `search` stores the term and a config whose `keys` default to `slug`, `name`, `title` unless the options give their own |
| Queries.FilterWith | src/runtime/composables/useDB.js:113 | `Array.prototype.filter` with a callback that may throw: it throws iff the callback throws on some element, and then with the error of the first such element, every earlier element having passed or failed |
| Queries.FilterWithKeeps | src/runtime/composables/useDB.js:113 | when no callback throws, `filter` keeps a subsequence of the input holding each element the callback accepts, as many times as the input holds it, and nothing else |
| Queries.FilterRecords | src/runtime/composables/useDB.js:113 | the filtered records are exactly the matching ones, in input order, each as many times as the input holds it; it throws iff the filter throws on some record, and then with the error of the first such record and never the not-found error |
| Queries.ToInteger | src/runtime/composables/useDB.js:124 | a numeric index truncates toward zero; strings, arrays and objects give the `Coercion` error, their conversion not being modelled |
| Queries.RelativeIndex | src/runtime/composables/useDB.js:124 | a slice index counts from the end when negative and is clamped to the sequence |
| Queries.SkipRecords | src/runtime/composables/useDB.js:123-125 | skipping leaves a suffix, the whole list for a falsy skip, and drops `floor(n)` records for a number `n >= 0` |
| Queries.LimitRecords | src/runtime/composables/useDB.js:127-129 | limiting leaves a prefix, the whole list for a falsy limit, and at most `n` records for a number `n > 0` |
| Queries.Window | src/runtime/composables/useDB.js:123-129 | skip-then-limit leaves a subsequence, bounded by a positive limit |
| Queries.SkipBeforeLimit | src/runtime/composables/useDB.js:123-129 | with natural `s` and `l`, the window is `xs[s..][..l]` (clamped) |
| Queries.KeptKeys | src/runtime/composables/useDB.js:132-142 | a key is kept iff it is in `only` (or `only` is empty) and not in `without`, in key order |
| Queries.Assign | src/runtime/composables/useDB.js:143 | the reduce's result has exactly the accumulated keys and the assigned ones |
| Queries.AssignFields | src/runtime/composables/useDB.js:143 | assigning a subsequence of an object's fields in order onto fresh keys appends exactly those fields |
| Queries.Project | src/runtime/composables/useDB.js:140-144 | projecting throws iff the record is `null` or `undefined`; otherwise the result's keys are exactly the record's kept keys |
| Queries.ProjectAll | src/runtime/composables/useDB.js:140-144 | the map succeeds iff no record is `null`/`undefined`, and then projects each record in place |
| Queries.KeptFields | src/runtime/composables/useDB.js:141-142 | the reference projection: the fields whose keys pass the test, in order |
| Queries.KeptKeysOfFields | src/runtime/composables/useDB.js:141-142 | the keys of the reference projection are the kept keys |
| Queries.ProjectObject | src/runtime/composables/useDB.js:140-144 | projecting an object with distinct keys gives exactly its kept fields in their order |
| Queries.Select | src/runtime/composables/useDB.js:111-129 | the selection never exceeds a positive limit and never raises the not-found error |
| Queries.NotFoundMessage | src/runtime/composables/useDB.js:152 | the message is the path followed by `" not found"` |
| Queries.Resolve | src/runtime/composables/useDB.js:108-156 | the answer is single iff `find` is truthy; the not-found error comes only with `find` and `raise` and carries the path's message; a many-answer respects a positive limit |
| Queries.ResolveKeepsInputOrder | src/runtime/composables/useDB.js:113-129 | without search, sort or projection the answer is a subsequence of the data, all matching; without skip and limit it is all matching records |
| Queries.SelectIgnoresStoredLimit | src/runtime/composables/useDB.js:109-111 | selection reads the limit it is given, not the one stored before `find` overrides it |
| Queries.FindIsFirstOfMany | src/runtime/composables/useDB.js:109-153 | with `find`, the answer is the first record of the same query with limit 1, or `undefined`, or the not-found error when `raise` is set; errors carry over |
| Queries.ManyNeverRaises | src/runtime/composables/useDB.js:147-153 | without `find` the answer is a list and never the not-found error |
| Queries.ResolveProjects | src/runtime/composables/useDB.js:113-145 | with a projection (and no `find`), the i-th answered record is the projection of the i-th record of the filtered, sorted, skipped and limited page, and for an object with distinct keys it is exactly that object's kept fields in their order |
| UseDb.CollapseSlashes | src/runtime/composables/useDB.js:25 | collapsing slashes keeps every other character, leaves one slash for each maximal run of slashes and so no double slash, keeps a leading slash and changes nothing already collapsed |
| UseDb.RequestPath | src/runtime/composables/useDB.js:25 | the request path is `/` followed by the arguments joined with `/`, with characters only deleted from that string; it keeps every character other than a slash, has no double slash, and keeps exactly one slash for each run: the leading slash merges with a run at the start of the joined arguments |
| UseDb.CollapseSlashesExample | src/runtime/composables/useDB.js:25 | `a//b` collapses to `a/b` |
| UseDb.RequestPathExample | src/runtime/composables/useDB.js:25 | `useDB('posts', 'a')` requests `/posts/a` |
| UseDb.Paths | src/runtime/composables/useDB.js:17-23 | the paths are taken from the string arguments, at most one per argument, and there is one iff some argument is a string; a single argument gives its string or nothing |
| UseDb.PathsConcat | src/runtime/composables/useDB.js:17-19 | the paths of two argument lists in a row are those of the first, then those of the second; with the single-argument case this makes them the string arguments in order |
| UseDb.OptionsOf | src/runtime/composables/useDB.js:17-23 | the options are `{}` when no argument has type `object`, and otherwise the last argument of type `object`, since each such argument overwrites the previous one |
| UseDb.UseDB | src/runtime/composables/useDB.js:17-34 | the handle lists many iff its path is a known directory, and then queries by `dir`, otherwise by `path`; no string arguments give the empty query |
| UseDb.FetchOptions | src/runtime/composables/useDB.js:41-45 | the options passed to `resolve` carry the request path and every other field of the call's config |
| UseDb.FetchOne | src/runtime/composables/useDB.js:48 | `fetchOne` answers one record, and raises `"<path> not found"` only with `raise` absent or truthy |
| UseDb.Fetch | src/runtime/composables/useDB.js:49 | `fetch` answers one record iff the path is not a directory, and raises only then |
| UseDb.FetchMany | src/runtime/composables/useDB.js:50 | `fetchMany` answers a list and never raises the not-found error |
| UseDb.FetchOneIsFirstMatch | src/runtime/composables/useDB.js:48 | `fetchOne` is the first record of `fetchMany` with limit 1; it raises exactly when none is found and raising is on |
| UseDb.ResolveReadsFind | src/runtime/composables/useDB.js:147-153 | without `find`, the options other than `find` do not change the answer |
| Paths.Extensions | src/builder/index.js:35-36 | the extensions hold every built-in one and every custom parser's key, and nothing else |
| Paths.Extname | src/builder/index.js:155 | the extension is the last component's suffix from its last dot; it is empty exactly when the component has no dot, is `..`, or has its only dot first |
| Paths.ExtnameOfFile | src/builder/index.js:155 | the extension of `dir/name.ext` is `.ext`, whatever dots the name holds |
| Paths.BasenameOfFile | src/builder/index.js:155 | the last component of `dir/base` is `base` |
| Paths.StripLastExtension | src/builder/index.js:228 | removing the extension cuts the string at its last dot when characters follow that dot; a string without a dot, or ending in its last dot, is unchanged |
| Paths.StripOfFile | src/builder/index.js:228 | the extension removal of `dir/name.ext` gives `dir/name`, whatever dots the name holds |
| Paths.MultiDotExample | src/builder/index.js:155-228 | `/blog/post.en.md` has extension `.md` and loses only that |
| Text.RemoveFirst | src/builder/index.js:224 | when the pattern occurs, exactly its first occurrence is cut out; otherwise nothing changes |
| Text.ReplaceAll | src/builder/index.js:231 | replacing a character changes exactly its occurrences |
| Paths.NormalizePath | src/builder/index.js:223-232 | a normalized path has no backslash and is no longer than the input |
| Paths.NormalizeUnderRoot | src/builder/index.js:223-232 | under the root, the extension is removed when registered or when the relative path starts with a dot, then backslashes become slashes |
| Paths.NormalizeRegistered | src/builder/index.js:223-232 | a file `root + dir/name.ext` with a registered extension normalizes to `dir/name`, also when the name holds dots |
| Paths.NormalizeMultiDotExample | src/builder/index.js:223-232 | under root `/c` with `.md` registered, `/c/blog/post.en.md` is served under `/blog/post.en` |
| Paths.NormalizeUnregistered | src/builder/index.js:223-232 | with an unregistered extension the relative path is kept, backslashes aside |
| Paths.SearchDotCorrect | src/builder/index.js:85 | the scan for `(^\|/)\.[^/.]` finds a match iff some component starts with a dot followed by neither `/` nor `.` |
| Paths.Skipped | src/builder/index.js:85 | an entry is skipped iff its name contains `node_modules` or has such a dot component |
| Paths.SkippedExamples | src/builder/index.js:85 | `.git`, `.env` and `a/.cache` are skipped; `..`, `./a` and `a.b` have no dot component |
| Text.JoinSplit | src/builder/index.js:195-203 | joining the parts of a split with its separator gives back the string |
| Records.Locate | src/builder/index.js:194-203 | locating fails, with the `Coercion` error, exactly when a list value has a truthy `slug` outside the primitives whose string form the model defines; the directory is never empty |
| Records.PartsOfFile | src/builder/index.js:195 | the parts of `dir/name` are those of `dir` and then `name` |
| Records.LocateFile | src/builder/index.js:195-203 | a value not appended to the path lives at `dir/name`, in `dir` (or `/`), with slug `name` |
| Records.LocateListItem | src/builder/index.js:195-203 | a list value with slug `x` lives at `np/x` in `np` |
| Records.ListFileLocations | src/builder/index.js:195-203 | in a list file, the value with a slug lives under the file's path, and the value without one at the file's path in its parent directory |
| Records.PathIsDirSlashName | src/builder/index.js:201-203 | a record path is its directory, a slash and its last part |
| Records.DateOr | src/builder/index.js:205-209 | a date is the value's own valid date, and otherwise the file's time |
| Records.ComputedFields | src/builder/index.js:211-219 | the computed fields are `dir`, `path`, `extension`, `createdAt`, `updatedAt`, with the given values |
| Records.Merge | src/builder/index.js:211-219 | a record starts with `slug`; the computed fields always win; the value's own `slug` overrides the computed one; every other key keeps the value's field; no other key appears |
| Records.BuildRecord | src/builder/index.js:194-220 | building throws a type error for `null`/`undefined` values and otherwise exactly when locating fails; a record is an object |
| Records.RecordOfValue | src/builder/index.js:194-220 | a record carries the located path and directory, the extension, the dates, the value's or the computed slug, and the value's other fields |
| Records.BuildRecords | src/builder/index.js:194-220 | the map gives one record per value in order, or the error of a value that fails |
| Records.BuildRecordsAllOk | src/builder/index.js:194-220 | when every value builds, the map succeeds with each value's record in place |
| Records.AsList | src/builder/index.js:185 | an array's elements, or the single value as a one-element list |
| Records.ParseFile | src/builder/index.js:154-221 | no records for an unregistered extension or a parser that throws; otherwise the built records of the parsed values, listed iff there are several |
| Store.CountWith | src/builder/index.js:129 | `count` is at most the store size and is zero iff no record has that property value |
| Store.WithProp | src/builder/index.js:116 | `find` returns the records with that property value, as a subsequence of the store (store order) holding each such record as often as the store does, and no other |
| Store.DeleteOne | src/builder/index.js:120 | `deleteOne` removes one matching record when there is one and keeps every other record |
| Store.DeletesFirstMatch | src/builder/index.js:120 | the record `deleteOne` removes is the first match: the result is the records before it, then those after it |
| Store.DeleteMany | src/builder/index.js:148 | `deleteMany` removes exactly the matching records |
| Store.ReplaceFirst | src/builder/index.js:132 | `updateOne` keeps the size, puts the new record in when something matched, and keeps every non-matching record |
| Store.ReplacesFirstMatch | src/builder/index.js:132 | the record `updateOne` replaces is the first match: the result is the records before it, the new record, then those after it |
| Store.Upsert | src/builder/index.js:125-136 | one upsert step stores the item, keeps records at other paths, and keeps paths unique |
| Store.UpsertAll | src/builder/index.js:125-136 | the upsert loop stores every parsed record (when their paths are distinct), keeps records at paths no parsed record has, and keeps paths unique |
| Store.PruneStep | src/builder/index.js:118-122 | one pruning step deletes the record at a path no parsed record has and keeps every other record |
| Store.Prune | src/builder/index.js:113-123 | pruning keeps every record whose path is not stale |
| Store.PruneRemovesStale | src/builder/index.js:113-123 | with unique paths, pruning leaves no record at a stale path |
| Store.Refit | src/builder/index.js:113-136 | an update keeps only old or parsed records, stores every parsed record, and for a single-record file deletes nothing else |
| Store.RefitScoped | src/builder/index.js:113-136 | with unique paths, an update keeps them unique, leaves in the pruned directory only parsed paths, and keeps records outside it |
| Store.InsertFile | src/builder/index.js:98-109 | `insertFile` appends the parsed records in order and adds the file's path to the directories iff it gave several records |
| Store.UpdateFileAsWritten | src/builder/index.js:111-139 | `updateFile` as written keeps the directories, stores every parsed record and adds nothing else; a single-record file deletes nothing else; a path-keyed store stays path-keyed and keeps every record outside the first parsed record's directory that is not re-parsed |
| Store.UpdateFile | src/builder/index.js:111-139 | the corrected `updateFile`: the same guarantees, and in addition the only records it deletes are in the file's own directory |
| Store.SiblingPruned | src/builder/index.js:113-123 | a stored record in the directory of the first parsed record is deleted as written, and kept by the corrected update |
| Store.RecordPlace | src/builder/index.js:211-219 | a built record is stored under its located path and directory |
| Store.ListRecords | src/builder/index.js:194-203 | a list file with an unslugged then a slugged value gives records at `dir/name` in `dir`, and at `dir/name/x` in `dir/name` |
| Store.UpdateDeletesSibling | src/builder/index.js:113-123 | updating such a list file deletes an unrelated record of `dir` as written, and keeps it in the corrected update |
| Store.UpdateDeletesSiblingExample | src/builder/index.js:113-123 | for `/posts/list.json` holding `[{}, {slug: "b"}]`, the stored record `/posts/a` is deleted as written and kept by the corrected update |
| Store.RemoveFile | src/builder/index.js:141-152 | `removeFile` deletes the record at the path when there is one, and otherwise every record of that directory; it keeps the directories |
| Store.Refresh | src/builder/index.js:245-261 | `add` appends the parsed records and adds the path to the directories iff several; `change` (through `updateFile` as written) stores every parsed record when their paths are distinct, adds nothing else, deletes nothing else for a single-record file, keeps the directories and a path-keyed store path-keyed; `unlink` deletes the record at the path, or else every record of the directory of that name; other events change nothing; only a parse of `add` or `change` fails, with its error; every event gives the `{event, path}` notice |
| Store.RefreshCorrected | src/builder/index.js:245-261 | `refresh` with the corrected `updateFile`: identical to `refresh` except on `change`, which keeps the directories, stores every parsed record, adds nothing else, keeps a path-keyed store path-keyed and keeps every stored record that is neither re-parsed nor in the directory named by the file's own path |
| Markdown.Trim | src/builder/parsers/markdown/index.js:5 | the trimmed text sits right after the leading white space, only white space surrounds it, and it neither starts nor ends with white space |
| Markdown.TrimUnique | src/builder/parsers/markdown/index.js:5 | any text framed by white space, not itself starting or ending with white space, is the trim |
| Markdown.TrimIdempotent | src/builder/parsers/markdown/index.js:5 | trimming twice trims once |
| Markdown.CommentAt | src/builder/parsers/markdown/index.js:6 | a comment match is at least eight characters long and lies inside the text |
| Markdown.CommentAtMatches | src/builder/parsers/markdown/index.js:6 | the scanner matches a prefix iff the prefix is `<!--`, an optional white space character, a word, an optional white space character, `-->` |
| Markdown.StripComments | src/builder/parsers/markdown/index.js:6 | comment removal only deletes characters |
| Markdown.StripCommentsPlain | src/builder/parsers/markdown/index.js:6 | text without `<!--` is unchanged |
| Markdown.StripSplit | src/builder/parsers/markdown/index.js:6 | text before a `<` and the text from it on lose their comments independently: no match spans the split |
| Markdown.StripCommentsAround | src/builder/parsers/markdown/index.js:6 | a comment anywhere is deleted, and the text on its two sides loses its comments as if the other side were absent |
| Markdown.StripCommentAfter | src/builder/parsers/markdown/index.js:6 | a comment after text without `<` is deleted and the text before it kept |
| Markdown.CollapseNewlines | src/builder/parsers/markdown/index.js:7 | joining tags only deletes characters, and only newlines |
| Markdown.CollapsePlain | src/builder/parsers/markdown/index.js:7 | text in which no `>` precedes a newline is unchanged |
| Markdown.CollapsePrefix | src/builder/parsers/markdown/index.js:7 | text holding no `>` is kept as it is in front of whatever follows, and the rest is joined on its own |
| Markdown.CollapseGap | src/builder/parsers/markdown/index.js:7 | a `>`, newlines, `<` gap at the start becomes `><` whatever follows it, and the rest is joined on its own |
| Markdown.CollapseGapFree | src/builder/parsers/markdown/index.js:7 | afterwards no `>` is followed by newlines and then `<` |
| Markdown.CollapseGapFreeFixed | src/builder/parsers/markdown/index.js:7 | text with no such gap is unchanged |
| Markdown.CollapseIdempotent | src/builder/parsers/markdown/index.js:7 | joining tags twice joins once |
| Markdown.CleanHtml | src/builder/parsers/markdown/index.js:4-8 | the cleaned HTML only deletes characters and has no tag gap left |
| Markdown.CleanPlain | src/builder/parsers/markdown/index.js:4-8 | HTML without comments or tag gaps comes back just trimmed |
| Markdown.OrEmpty | src/builder/parsers/markdown/index.js:28-29 | an absent text renders as the empty string |
| Markdown.ToJson | src/builder/parsers/markdown/index.js:31-35 | the record's keys start with `excerpt` and `body`, the others come from the frontmatter, and no key repeats |
| Markdown.ToJsonFields | src/builder/parsers/markdown/index.js:28-35 | frontmatter fields win; otherwise `excerpt` and `body` are the cleaned renders of the excerpt and the content |

## Left out

- Function-valued filters (`compile` with a function) are left out: they call code the model cannot see.
- `$regex` matching is left out. On a string the operator calls `test` on the string, which strings lack, so the model raises a type error there. On other values it is false.
- JavaScript coercions of mixed-type comparisons (a string against a non-string, or an array or object against anything other than `undefined` or NaN) raise the `Coercion` error instead of computing a result. So does converting a non-integral number, an array, an object or a Date to a string. This happens in `$in`/`$nin` when the filter value is a string and the tested value is one of those, because `f.includes(v)` then converts `v`. It also happens in `$startsWith`/`$endsWith` when the field is a string and the filter value is one of those. `includes` on a filter value that is neither an array nor a string is a type error, as JavaScript has it. Loose `==` is modelled as strict equality on the values that reach it.
- Prototype properties, integer-like key ordering in objects, UTF-16 code units, `-0` and the infinities are left out. Strings are sequences of characters and numbers are reals.
- Array and object identity is left out: two composite values are never `===`, as for two distinct objects.
- `fuzzysort.go` and `sort-on` are host functions passed in `Queries.Host`. The model states nothing about how they rank or order.
- Queries.Resolve: `resolve` with `find` sets the stored limit to 1 (`limit mutation`). The model passes the limit to `Queries.Select` instead of changing the query, so the later state of the query object is not modelled.
- Fetch caching (`database`, `nuxtDB.fetch()`, `fetchAt`) is left out. The data is a parameter.
- The builder's hooks (`file:beforeParse`, `file:beforeInsert`) are left out. `file:updated` is the `notice` of `Store.Refresh`.
- Logging, `init`, `save`, `close` and `watch` are left out, as is the walk's directory reading, `stat`, recursion and concurrency. `dirs.push` for walked directories is not modelled; `Paths.Skipped` models the entry test.
- File contents and the format parsers (markdown-it, gray-matter, YAML, CSV, XML, JSON, JSON5) are left out. A parser's outcome is the `Records.Parsed` parameter: a value or a throw. `Markdown.ToJson` takes gray-matter's output as `Markdown.Matter` and markdown-it's `render` as a function. The markdown options are not modelled.
- Date parsing (`new Date(v)` and its validity) is the function `newDate` of `Records.Builder`. File times are millisecond counts.
- PicoDB's `_id` field, its storage order beyond insertion order, and `updateOne`'s merge semantics are left out. `updateOne` is taken to replace the first matching record (`Store.ReplaceFirst`, `Store.ReplacesFirstMatch`).
- `path.join` is modelled as concatenation with `/`. Paths are taken to be normalized already.
- `module.js` and the runtime plugins are not part of this model.
- Store.CountWith: PicoDB's query matching is modelled as equality of the stored property with the queried value.
- Records.Locate: the string form of a non-string `slug` that `join` computes is modelled for the truthy primitives `true` and integral numbers; a non-integral number, an array, an object or a Date gives the `Coercion` error instead of the string JavaScript would produce.
- Queries.ToInteger: `slice` converts a string, array or object `skip` or `limit` with ToNumber; the model gives the `Coercion` error for those instead of the number.
- Queries.SortBy: the key is a string. JavaScript's `sortBy` takes any value, and `sort-on` reads the keys as property paths; non-string keys are not modelled.
- Filter.Eval and Filter.Apply: their own contracts state only the kind of error they raise. Their behaviour is stated by the lemmas in the `Filter` rows above.

## Findings

| source | as written | input that shows it | evidently intended | confidence | as-written member | corrected member |
|---|---|---|---|---|---|---|
| src/builder/index.js:113-123 | `updateFile` prunes the stored records in the directory of the first parsed record (`items[0].dir`); when that record has no `slug`, this is the list file's parent directory | updating `/posts/list.json` holding `[{}, {slug: "b"}]` while `/posts/a` is stored: `/posts/a` is not among the parsed paths `/posts/list` and `/posts/list/b`, so it is deleted | prune only the directory named by the list file's own normalized path, where its slugged items live | not executed; high for the input shown | Store.UpdateDeletesSiblingExample | Store.UpdateFile, Store.RefreshCorrected |

=== FILE: filter.dfy ===
/** The filter language of the query engine: the hand-written deep `equals`, the operator
    table and `compile`, which turns a filter object into a test on a record. A compiled
    filter applied to a value is modelled as `Eval`, whose result is the boolean the closure
    returns or the error it throws. */
module Filter {

  import opened Results
  import opened Text
  import opened Json

  /** `equals(x, e)`: deep equality of an actual value `x` against an expected value `e`.
      Arrays compare element by element in order; plain objects need the same number of keys
      and equal values at the expected object's keys; NaN equals NaN. */
  predicate Equals(x: Value, e: Value)
    decreases e
  {
    if StrictEq(e, x) then true
    else if e.Arr? && x.Arr? then
      |e.items| == |x.items| &&
      forall i | 0 <= i < |e.items| :: Equals(x.items[i], e.items[i])
    else if e.Obj? && x.Obj? then
      |e.fields| == |x.fields| &&
      forall j | 0 <= j < |e.fields| :: Equals(Lookup(x.fields, e.fields[j].key), e.fields[j].value)
    else e.NaN? && x.NaN?
  }

  /** Structural equality of JSON data, objects compared as key-to-value maps regardless of
      key order: the equality `equals` is meant to decide. */
  predicate SameJson(x: Value, e: Value)
    decreases e
  {
    if e.Arr? && x.Arr? then
      |x.items| == |e.items| &&
      forall i | 0 <= i < |e.items| :: SameJson(x.items[i], e.items[i])
    else if e.Obj? && x.Obj? then
      KeySet(x.fields) == KeySet(e.fields) &&
      forall j | 0 <= j < |e.fields| :: SameJson(Lookup(x.fields, e.fields[j].key), e.fields[j].value)
    else x == e
  }

  /** `equals` is reflexive on every value without Date objects (two Date objects are never
      the same object, and `equals` does not look inside them). */
  lemma {:induction false} EqualsReflexive(v: Value)
    requires Plain(v)
    ensures Equals(v, v)
    decreases v
  {
    match v
    case Arr(xs) =>
      forall i | 0 <= i < |xs|
        ensures Equals(xs[i], xs[i])
      {
        EqualsReflexive(xs[i]);
      }
    case Obj(fs) =>
      forall j | 0 <= j < |fs|
        ensures Equals(Lookup(fs, fs[j].key), fs[j].value)
      {
        LookupAt(fs, j);
        EqualsReflexive(fs[j].value);
      }
    case _ =>
  }

  lemma SubsetSameSize(a: set<string>, b: set<string>)
    requires a <= b && |a| == |b|
    ensures a == b
  {
    assert b == a + (b - a);
    assert a * (b - a) == {};
    assert |b| == |a| + |b - a|;
    assert b - a == {};
  }

  /** `undefined` equals no JSON value. */
  lemma UndefinedEqualsNoJson(e: Value)
    requires IsJson(e)
    ensures !Equals(Undefined, e)
  {
  }

  /** On JSON data `equals` decides exactly structural equality with objects compared as maps:
      both directions hold. */
  lemma {:induction false} EqualsIsSameJson(x: Value, e: Value)
    requires IsJson(x) && IsJson(e)
    ensures Equals(x, e) <==> SameJson(x, e)
    decreases e
  {
    if e.Arr? && x.Arr? {
      forall i | 0 <= i < |e.items| && i < |x.items|
        ensures Equals(x.items[i], e.items[i]) <==> SameJson(x.items[i], e.items[i])
      {
        EqualsIsSameJson(x.items[i], e.items[i]);
      }
    } else if e.Obj? && x.Obj? {
      var xf, ef := x.fields, e.fields;
      KeySetSize(xf);
      KeySetSize(ef);
      if Equals(x, e) {
        assert !StrictEq(e, x);
        forall j | 0 <= j < |ef|
          ensures ef[j].key in Keys(xf)
          ensures SameJson(Lookup(xf, ef[j].key), ef[j].value)
        {
          assert IsJson(ef[j].value);
          UndefinedEqualsNoJson(ef[j].value);
          LookupJson(xf, ef[j].key);
          EqualsIsSameJson(Lookup(xf, ef[j].key), ef[j].value);
        }
        assert KeySet(ef) <= KeySet(xf) by {
          forall k | k in KeySet(ef) ensures k in KeySet(xf) {
            var j := LookupPresent(ef, k);
          }
        }
        SubsetSameSize(KeySet(ef), KeySet(xf));
      }
      if SameJson(x, e) {
        forall j | 0 <= j < |ef|
          ensures Equals(Lookup(xf, ef[j].key), ef[j].value)
        {
          assert ef[j].key in KeySet(ef);
          LookupJson(xf, ef[j].key);
          EqualsIsSameJson(Lookup(xf, ef[j].key), ef[j].value);
        }
      }
    } else {
      match e
      case Arr(_) =>
      case Obj(_) =>
      case _ =>
    }
  }

  /** `equals` is not symmetric: an expected key holding `undefined` is satisfied by a
      missing key, so `equals({b: 1}, {a: undefined})` holds but not the converse. */
  lemma EqualsAsymmetric()
    ensures Equals(Obj([Field("b", Num(1.0))]), Obj([Field("a", Undefined)]))
    ensures !Equals(Obj([Field("a", Undefined)]), Obj([Field("b", Num(1.0))]))
  {
    assert Lookup([Field("b", Num(1.0))], "a") == Undefined;
    assert Lookup([Field("a", Undefined)], "b") == Undefined;
  }

  /** The operators of the `operations` table. */
  datatype Op =
    | Eq | Ne | Gt | Gte | Lt | Lte | Between | Regex | In | Nin
    | Not | And | Or | Exists | Size | All | ElemMatch | StartsWith | EndsWith

  /** The `operations` entry a key names, if any. */
  function OperatorOf(k: string): Option<Op>
  {
    if k == "$eq" then Some(Eq)
    else if k == "$ne" then Some(Ne)
    else if k == "$gt" then Some(Gt)
    else if k == "$gte" then Some(Gte)
    else if k == "$lt" then Some(Lt)
    else if k == "$lte" then Some(Lte)
    else if k == "$between" then Some(Between)
    else if k == "$regex" then Some(Regex)
    else if k == "$in" then Some(In)
    else if k == "$nin" then Some(Nin)
    else if k == "$not" then Some(Not)
    else if k == "$and" then Some(And)
    else if k == "$or" then Some(Or)
    else if k == "$exists" then Some(Exists)
    else if k == "$size" then Some(Size)
    else if k == "$all" then Some(All)
    else if k == "$elemMatch" then Some(ElemMatch)
    else if k == "$startsWith" then Some(StartsWith)
    else if k == "$endsWith" then Some(EndsWith)
    else None
  }

  /** `compile(filter, ctx)(v)`. With an operator as context, the operator is applied to the
      filter value; a plain object is the conjunction of its properties; anything else is
      compared with `equals`. */
  function Eval(filter: Value, ctx: Option<string>, v: Value): (r: Result<bool>)
    ensures r.Err? ==> !r.error.NotFound?
    decreases filter, if ctx.Some? && OperatorOf(ctx.value).Some? then 3 else 1, 0
  {
    if ctx.Some? && OperatorOf(ctx.value).Some? then Apply(OperatorOf(ctx.value).value, filter, v)
    else if filter.Obj? then EvalFields(filter, 0, v)
    else Ok(Equals(v, filter))
  }

  /** The `every` over the properties of an object filter, from the `i`-th on: stops at the
      first property that fails or throws. */
  function EvalFields(filter: Value, i: nat, v: Value): (r: Result<bool>)
    requires filter.Obj? && i <= |filter.fields|
    ensures r.Err? ==> !r.error.NotFound?
    decreases filter, 0, |filter.fields| - i
  {
    if i == |filter.fields| then Ok(true)
    else
      match Check(filter.fields[i].key, filter.fields[i].value, v)
      case Err(err) => Err(err)
      case Ok(b) => if b then EvalFields(filter, i + 1, v) else Ok(false)
  }

  /** One property `prop: cond` of an object filter tested against `v`: a `$` key tests `v`
      itself, any other key tests `v[prop]`, and is false when `v` is `undefined`. */
  function Check(prop: string, cond: Value, v: Value): (r: Result<bool>)
    ensures r.Err? ==> !r.error.NotFound?
    decreases cond, 4, 0
  {
    var isOp := Text.StartsWith(prop, "$");
    if !isOp && v.Undefined? then Ok(false)
    else if !isOp && v.Null? then Err(TypeError)
    else Eval(cond, Some(prop), if isOp then v else Index(v, prop))
  }

  /** `f.includes(v)`: membership for an array, substring search for a string; other values
      have no `includes` method. */
  function InArg(f: Value, v: Value): (r: Result<bool>)
    ensures r.Err? ==> !r.error.NotFound?
  {
    if f.Arr? then Ok(Includes(f.items, v))
    else if f.Str? then
      match StringOf(v)
      case Err(err) => Err(err)
      case Ok(t) => Ok(Contains(f.s, t))
    else Err(TypeError)
  }

  function Negate(res: Result<bool>): (r: Result<bool>)
    ensures r.Err? <==> res.Err?
    ensures r.Err? ==> r.error == res.error
  {
    match res
    case Err(err) => Err(err)
    case Ok(b) => Ok(!b)
  }

  /** `operations[op](f, v)` */
  function Apply(op: Op, f: Value, v: Value): (r: Result<bool>)
    ensures r.Err? ==> !r.error.NotFound?
    decreases f, 2, 0
  {
    match op
    case Eq => Ok(Equals(v, f))
    case Ne => Ok(!Equals(v, f))
    case Gt => Below(f, v)
    case Gte => AtLeast(v, f)
    case Lt => Below(v, f)
    case Lte => AtLeast(f, v)
    case Between =>
      if f.Undefined? || f.Null? then Err(TypeError)
      else
        (match AtLeast(v, Index(f, "0"))
         case Err(err) => Err(err)
         case Ok(lo) => if lo then AtLeast(Index(f, "1"), v) else Ok(false))
    case Regex => if v.Str? then Err(TypeError) else Ok(false)
    case In => InArg(f, v)
    case Nin => Negate(InArg(f, v))
    case Not => Negate(Eval(f, None, v))
    case And => if f.Arr? then EvalAll(f, 0, v) else Err(TypeError)
    case Or => if f.Arr? then EvalAny(f, 0, v) else Err(TypeError)
    case Exists => Ok(if Truthy(f) then !v.Undefined? else v.Undefined?)
    case Size => Ok((v.Arr? || v.Str?) && StrictEq(Index(v, "length"), f))
    case All =>
      if !v.Arr? then Ok(false)
      else if f.Arr? then Ok(forall i | 0 <= i < |f.items| :: Includes(v.items, f.items[i]))
      else Err(TypeError)
    case ElemMatch => if v.Arr? then SomeElement(f, v.items, 0) else Ok(false)
    case StartsWith =>
      if !v.Str? then Ok(false)
      else
        (match StringOf(f)
         case Err(err) => Err(err)
         case Ok(p) => Ok(Text.StartsWith(v.s, p)))
    case EndsWith =>
      if !v.Str? then Ok(false)
      else
        (match StringOf(f)
         case Err(err) => Err(err)
         case Ok(p) => Ok(Text.EndsWith(v.s, p)))
  }

  /** `f.every(c => compile(c)(v))` from the `i`-th sub-filter on. */
  function EvalAll(f: Value, i: nat, v: Value): (r: Result<bool>)
    requires f.Arr? && i <= |f.items|
    ensures r.Err? ==> !r.error.NotFound?
    decreases f, 1, |f.items| - i
  {
    if i == |f.items| then Ok(true)
    else
      match Eval(f.items[i], None, v)
      case Err(err) => Err(err)
      case Ok(b) => if b then EvalAll(f, i + 1, v) else Ok(false)
  }

  /** `f.some(c => compile(c)(v))` from the `i`-th sub-filter on. */
  function EvalAny(f: Value, i: nat, v: Value): (r: Result<bool>)
    requires f.Arr? && i <= |f.items|
    ensures r.Err? ==> !r.error.NotFound?
    decreases f, 1, |f.items| - i
  {
    if i == |f.items| then Ok(false)
    else
      match Eval(f.items[i], None, v)
      case Err(err) => Err(err)
      case Ok(b) => if b then Ok(true) else EvalAny(f, i + 1, v)
  }

  /** `xs.some(compile(f))` from the `i`-th element on. */
  function SomeElement(f: Value, xs: seq<Value>, i: nat): (r: Result<bool>)
    requires i <= |xs|
    ensures r.Err? ==> !r.error.NotFound?
    decreases f, 1, |xs| - i
  {
    if i == |xs| then Ok(false)
    else
      match Eval(f, None, xs[i])
      case Err(err) => Err(err)
      case Ok(b) => if b then Ok(true) else SomeElement(f, xs, i + 1)
  }

  // ---------------------------------------------------------------------------------------
  // Properties of compiled filters

  /** `every` over a list of test outcomes: the first throw or failure decides. */
  function Every(rs: seq<Result<bool>>): Result<bool>
  {
    if |rs| == 0 then Ok(true)
    else
      match rs[0]
      case Err(err) => Err(err)
      case Ok(b) => if b then Every(rs[1..]) else Ok(false)
  }

  /** `some` over a list of test outcomes: the first throw or success decides. */
  function AnyOf(rs: seq<Result<bool>>): Result<bool>
  {
    if |rs| == 0 then Ok(false)
    else
      match rs[0]
      case Err(err) => Err(err)
      case Ok(b) => if b then Ok(true) else AnyOf(rs[1..])
  }

  /** `every` holds iff every test holds, and is their conjunction when none throws. */
  lemma {:induction false} EveryHolds(rs: seq<Result<bool>>)
    ensures Every(rs) == Ok(true) <==> forall j | 0 <= j < |rs| :: rs[j] == Ok(true)
    ensures (forall j | 0 <= j < |rs| :: rs[j].Ok?) ==>
      Every(rs) == Ok(forall j | 0 <= j < |rs| :: rs[j].value)
  {
    if |rs| > 0 {
      EveryHolds(rs[1..]);
      assert forall j | 1 <= j < |rs| :: rs[j] == rs[1..][j - 1];
    }
  }

  /** `some` fails iff every test fails, and is their disjunction when none throws. */
  lemma {:induction false} AnyOfHolds(rs: seq<Result<bool>>)
    ensures AnyOf(rs) == Ok(false) <==> forall j | 0 <= j < |rs| :: rs[j] == Ok(false)
    ensures (forall j | 0 <= j < |rs| :: rs[j].Ok?) ==>
      AnyOf(rs) == Ok(exists j | 0 <= j < |rs| :: rs[j].value)
  {
    if |rs| > 0 {
      AnyOfHolds(rs[1..]);
      assert forall j | 1 <= j < |rs| :: rs[j] == rs[1..][j - 1];
      if (forall j | 0 <= j < |rs| :: rs[j].Ok?) && !rs[0].value {
        assert (exists j | 0 <= j < |rs| :: rs[j].value) ==
          (exists j | 0 <= j < |rs[1..]| :: rs[1..][j].value);
      }
    }
  }

  /** The outcomes of the properties of an object filter, from the `i`-th on. */
  function FieldChecks(filter: Value, i: nat, v: Value): (rs: seq<Result<bool>>)
    requires filter.Obj? && i <= |filter.fields|
    ensures |rs| == |filter.fields| - i
  {
    seq(|filter.fields| - i, j requires 0 <= j < |filter.fields| - i =>
      Check(filter.fields[i + j].key, filter.fields[i + j].value, v))
  }

  /** The outcomes of the sub-filters of an `$and`/`$or` argument, from the `i`-th on. */
  function SubChecks(f: Value, i: nat, v: Value): (rs: seq<Result<bool>>)
    requires f.Arr? && i <= |f.items|
    ensures |rs| == |f.items| - i
  {
    seq(|f.items| - i, j requires 0 <= j < |f.items| - i => Eval(f.items[i + j], None, v))
  }

  /** `every` over outcomes is decided by the first one unless it is a success. */
  lemma EveryFirst(rs: seq<Result<bool>>, first: Result<bool>, rest: seq<Result<bool>>)
    requires |rs| > 0 && rs[0] == first && rs[1..] == rest
    ensures Every(rs) == match first
      case Err(err) => Err(err)
      case Ok(b) => if b then Every(rest) else Ok(false)
  {
  }

  lemma {:induction false} EvalFieldsIsEvery(filter: Value, i: nat, v: Value)
    requires filter.Obj? && i <= |filter.fields|
    ensures EvalFields(filter, i, v) == Every(FieldChecks(filter, i, v))
    decreases |filter.fields| - i
  {
    if i < |filter.fields| {
      var f := filter.fields[i];
      var rs := FieldChecks(filter, i, v);
      EvalFieldsIsEvery(filter, i + 1, v);
      EveryFirst(rs, Check(f.key, f.value, v), FieldChecks(filter, i + 1, v));
    }
  }

  lemma {:induction false} EvalAllIsEvery(f: Value, i: nat, v: Value)
    requires f.Arr? && i <= |f.items|
    ensures EvalAll(f, i, v) == Every(SubChecks(f, i, v))
    decreases |f.items| - i
  {
    if i < |f.items| {
      EvalAllIsEvery(f, i + 1, v);
      assert SubChecks(f, i, v)[1..] == SubChecks(f, i + 1, v);
    }
  }

  lemma {:induction false} EvalAnyIsAnyOf(f: Value, i: nat, v: Value)
    requires f.Arr? && i <= |f.items|
    ensures EvalAny(f, i, v) == AnyOf(SubChecks(f, i, v))
    decreases |f.items| - i
  {
    if i < |f.items| {
      EvalAnyIsAnyOf(f, i + 1, v);
      assert SubChecks(f, i, v)[1..] == SubChecks(f, i + 1, v);
    }
  }

  /** An object filter is the conjunction of its properties: it holds exactly when every
      property holds, it never throws when no property throws, and the empty filter holds of
      every value. */
  lemma ObjectFilterIsConjunction(fs: seq<Field>, v: Value)
    ensures Eval(Obj(fs), None, v) == Ok(true) <==>
      forall j | 0 <= j < |fs| :: Check(fs[j].key, fs[j].value, v) == Ok(true)
    ensures (forall j | 0 <= j < |fs| :: Check(fs[j].key, fs[j].value, v).Ok?) ==>
      Eval(Obj(fs), None, v).Ok?
    ensures |fs| == 0 ==> Eval(Obj(fs), None, v) == Ok(true)
  {
    var rs := FieldChecks(Obj(fs), 0, v);
    EvalFieldsIsEvery(Obj(fs), 0, v);
    EveryHolds(rs);
    assert forall j | 0 <= j < |fs| :: rs[j] == Check(fs[j].key, fs[j].value, v);
  }

  /** Every operator name starts with `$`. */
  lemma OperatorsStartWithDollar(k: string)
    requires OperatorOf(k).Some?
    ensures Text.StartsWith(k, "$")
  {
  }

  /** A filter whose keys are all field names never matches `undefined`: a nested condition
      on a missing parent field fails, whatever the condition. */
  lemma MissingParentFails(fs: seq<Field>)
    requires |fs| > 0
    requires forall j | 0 <= j < |fs| :: !Text.StartsWith(fs[j].key, "$")
    ensures Eval(Obj(fs), None, Undefined) == Ok(false)
  {
    var rs := FieldChecks(Obj(fs), 0, Undefined);
    EvalFieldsIsEvery(Obj(fs), 0, Undefined);
    assert rs[0] == Ok(false);
  }

  lemma ArrayIndexKeys(a: Value, b: Value)
    ensures Index(Arr([a, b]), "0") == a
    ensures Index(Arr([a, b]), "1") == b
  {
    var es := OwnEntries(Arr([a, b]));
    assert NatToString(0) == "0";
    assert NatToString(1) == "1";
    assert es == [Field("0", a), Field("1", b)];
    assert es[1..] == [Field("1", b)];
    assert "1" != "0" && "1" != "length";
    assert Lookup(es, "1") == Lookup(es[1..], "1") == b;
  }

  /** `$between` is inclusive at both bounds. */
  lemma BetweenInclusive(lo: real, hi: real, x: real)
    ensures Apply(Between, Arr([Num(lo), Num(hi)]), Num(x)) == Ok(lo <= x && x <= hi)
  {
    ArrayIndexKeys(Num(lo), Num(hi));
  }

  /** The same for strings, in character-code order. */
  lemma BetweenInclusiveStrings(lo: string, hi: string, x: string)
    ensures Apply(Between, Arr([Str(lo), Str(hi)]), Str(x)) ==
      Ok(!StrLess(x, lo) && !StrLess(hi, x))
  {
    ArrayIndexKeys(Str(lo), Str(hi));
  }

  /** `$in` and `$nin` are exact complements, and throw on the same arguments. */
  lemma InNinComplement(f: Value, v: Value)
    ensures Apply(In, f, v).Ok? <==> Apply(Nin, f, v).Ok?
    ensures Apply(In, f, v).Ok? ==> Apply(Nin, f, v).value == !Apply(In, f, v).value
    ensures Apply(In, f, v).Err? ==> Apply(Nin, f, v) == Apply(In, f, v)
  {
  }

  /** `$in` with an array tests membership for primitive values, ... */
  lemma InPrimitive(xs: seq<Value>, v: Value)
    requires v.Null? || v.Bool? || v.Num? || v.Str?
    ensures Apply(In, Arr(xs), v) == Ok(v in xs)
  {
    if v in xs {
      var i :| 0 <= i < |xs| && xs[i] == v;
      assert SameValueZero(xs[i], v);
    }
  }

  /** ... but never holds for an array or object value, which are compared by reference. */
  lemma InNeverHoldsForObjects(xs: seq<Value>, v: Value)
    requires v.Arr? || v.Obj? || v.Date?
    ensures Apply(In, Arr(xs), v) == Ok(false)
  {
  }

  /** `$exists: f` holds iff the value is defined when `f` is truthy, and iff it is
      `undefined` otherwise. */
  lemma ExistsTestsPresence(f: Value, v: Value)
    ensures Truthy(f) ==> Apply(Exists, f, v) == Ok(!v.Undefined?)
    ensures !Truthy(f) ==> Apply(Exists, f, v) == Ok(v.Undefined?)
  {
  }

  /** `$not` negates the compiled sub-filter and throws when it does. */
  lemma NotNegates(f: Value, v: Value)
    ensures Apply(Not, f, v).Ok? <==> Eval(f, None, v).Ok?
    ensures Eval(f, None, v).Ok? ==> Apply(Not, f, v) == Ok(!Eval(f, None, v).value)
  {
  }

  /** `$and` is `every` over its sub-filters: it holds iff all hold, and when none throws
      its value is their conjunction. */
  lemma AndIsEvery(cs: seq<Value>, v: Value)
    ensures Apply(And, Arr(cs), v) == Ok(true) <==>
      forall j | 0 <= j < |cs| :: Eval(cs[j], None, v) == Ok(true)
    ensures (forall j | 0 <= j < |cs| :: Eval(cs[j], None, v).Ok?) ==>
      Apply(And, Arr(cs), v) == Ok(forall j | 0 <= j < |cs| :: Eval(cs[j], None, v).value)
  {
    var rs := SubChecks(Arr(cs), 0, v);
    EvalAllIsEvery(Arr(cs), 0, v);
    EveryHolds(rs);
    assert forall j | 0 <= j < |cs| :: rs[j] == Eval(cs[j], None, v);
  }

  /** `$or` is `some` over its sub-filters: it fails iff all fail, and when none throws its
      value is their disjunction. */
  lemma OrIsSome(cs: seq<Value>, v: Value)
    ensures Apply(Or, Arr(cs), v) == Ok(false) <==>
      forall j | 0 <= j < |cs| :: Eval(cs[j], None, v) == Ok(false)
    ensures (forall j | 0 <= j < |cs| :: Eval(cs[j], None, v).Ok?) ==>
      Apply(Or, Arr(cs), v) == Ok(exists j | 0 <= j < |cs| :: Eval(cs[j], None, v).value)
  {
    var rs := SubChecks(Arr(cs), 0, v);
    EvalAnyIsAnyOf(Arr(cs), 0, v);
    AnyOfHolds(rs);
    assert forall j | 0 <= j < |cs| :: rs[j] == Eval(cs[j], None, v);
  }

  /** `$size` is false for anything but an array or a string. */
  lemma SizeNeedsSequence(f: Value, v: Value)
    ensures !(v.Arr? || v.Str?) ==> Apply(Size, f, v) == Ok(false)
  {
  }

  /** `$all` and `$elemMatch` are false for anything but an array. */
  lemma ArrayOperatorsNeedArray(f: Value, v: Value)
    ensures !v.Arr? ==> Apply(All, f, v) == Ok(false)
    ensures !v.Arr? ==> Apply(ElemMatch, f, v) == Ok(false)
  {
  }

  /** `$startsWith` and `$endsWith` are false for anything but a string. */
  lemma StringOperatorsNeedString(f: Value, v: Value)
    ensures !v.Str? ==> Apply(StartsWith, f, v) == Ok(false)
    ensures !v.Str? ==> Apply(EndsWith, f, v) == Ok(false)
  {
  }

  /** `$regex` calls `test` on the stored value, which strings do not have: on a string it
      raises instead of matching, and on any other value it is false. */
  lemma RegexNeverMatches(f: Value, v: Value)
    ensures v.Str? ==> Apply(Regex, f, v) == Err(TypeError)
    ensures !v.Str? ==> Apply(Regex, f, v) == Ok(false)
  {
  }

  /** A filter with a single property is that property's test. */
  lemma SingleProperty(k: string, c: Value, v: Value)
    ensures Eval(Obj([Field(k, c)]), None, v) == Check(k, c, v)
  {
    EvalFieldsIsEvery(Obj([Field(k, c)]), 0, v);
    assert FieldChecks(Obj([Field(k, c)]), 0, v) == [Check(k, c, v)];
  }

  /** A field-name property of a filter tests the field's value against its condition. */
  lemma FieldProperty(prop: string, cond: Value, fs: seq<Field>)
    requires !Text.StartsWith(prop, "$")
    ensures OperatorOf(prop).None?
    ensures Check(prop, cond, Obj(fs)) == Eval(cond, Some(prop), Lookup(fs, prop))
  {
    if OperatorOf(prop).Some? {
      OperatorsStartWithDollar(prop);
    }
  }

  /** An operator property of a filter applies the operator to the value itself. */
  lemma OperatorProperty(op: string, f: Value, v: Value)
    requires OperatorOf(op).Some?
    ensures Check(op, f, v) == Apply(OperatorOf(op).value, f, v)
  {
    OperatorsStartWithDollar(op);
  }

  /** A plain value as a condition is an `equals` test; for a primitive condition other than
      NaN that is plain equality. */
  lemma PrimitiveConditionIsEquality(prop: string, cond: Value, fs: seq<Field>)
    requires !Text.StartsWith(prop, "$")
    requires cond.Null? || cond.Bool? || cond.Num? || cond.Str?
    ensures Check(prop, cond, Obj(fs)) == Ok(Lookup(fs, prop) == cond)
  {
    FieldProperty(prop, cond, fs);
    var x := Lookup(fs, prop);
    assert Eval(cond, Some(prop), x) == Ok(Equals(x, cond));
    assert Equals(x, cond) <==> x == cond by {
      assert !cond.Arr? && !cond.Obj? && !cond.NaN?;
    }
  }

  /** `{k: {$gt: t}}`, as in `{age: {$gt: 10}}`, holds exactly of records whose field `k`
      is a number above `t`, and of no record without that field. */
  lemma GreaterThanExample(k: string, t: real, fs: seq<Field>)
    requires !Text.StartsWith(k, "$")
    ensures Lookup(fs, k).Num? ==>
      Eval(Obj([Field(k, Obj([Field("$gt", Num(t))]))]), None, Obj(fs)) ==
        Ok(Lookup(fs, k).n > t)
    ensures Lookup(fs, k).Undefined? ==>
      Eval(Obj([Field(k, Obj([Field("$gt", Num(t))]))]), None, Obj(fs)) == Ok(false)
  {
    var inner := Obj([Field("$gt", Num(t))]);
    var a := Lookup(fs, k);
    var gt := Check("$gt", Num(t), a);
    assert Eval(Obj([Field(k, inner)]), None, Obj(fs)) == Eval(inner, Some(k), a) by {
      SingleProperty(k, inner, Obj(fs));
      FieldProperty(k, inner, fs);
    }
    assert Eval(inner, Some(k), a) == Every([gt]) by {
      FieldProperty(k, inner, fs);
      EvalFieldsIsEvery(inner, 0, a);
      assert FieldChecks(inner, 0, a) == [gt];
    }
    assert gt == Apply(Gt, Num(t), a) by {
      KnownOperators();
      OperatorProperty("$gt", Num(t), a);
    }
    EverySingle(gt);
    GreaterThan(t, a);
  }

  /** `v > t` for a number `t`: a number compares by value, `undefined` is never greater. */
  lemma GreaterThan(t: real, v: Value)
    ensures v.Num? ==> Apply(Gt, Num(t), v) == Ok(v.n > t)
    ensures v.Undefined? ==> Apply(Gt, Num(t), v) == Ok(false)
  {
  }

  /** The operator names the examples use. */
  lemma KnownOperators()
    ensures OperatorOf("$gt") == Some(Gt)
    ensures OperatorOf("$or") == Some(Or)
  {
  }

  /** `every` over one outcome is that outcome. */
  lemma EverySingle(r: Result<bool>)
    ensures Every([r]) == r
  {
    assert [r][1..] == [];
  }

  /** `{$or: [{a: x}, {b: y}]}` for primitive `x` and `y` holds exactly of records whose
      field `a` is `x` or whose field `b` is `y`. */
  lemma OrExample(a: string, x: Value, b: string, y: Value, fs: seq<Field>)
    requires !Text.StartsWith(a, "$") && !Text.StartsWith(b, "$")
    requires x.Null? || x.Bool? || x.Num? || x.Str?
    requires y.Null? || y.Bool? || y.Num? || y.Str?
    ensures Eval(Obj([Field("$or", Arr([Obj([Field(a, x)]), Obj([Field(b, y)])]))]), None, Obj(fs)) ==
      Ok(Lookup(fs, a) == x || Lookup(fs, b) == y)
  {
    var c1 := Obj([Field(a, x)]);
    var c2 := Obj([Field(b, y)]);
    var v := Obj(fs);
    assert Eval(c1, None, v) == Ok(Lookup(fs, a) == x) by {
      SingleProperty(a, x, v);
      PrimitiveConditionIsEquality(a, x, fs);
    }
    assert Eval(c2, None, v) == Ok(Lookup(fs, b) == y) by {
      SingleProperty(b, y, v);
      PrimitiveConditionIsEquality(b, y, fs);
    }
    var cs := [c1, c2];
    assert Apply(Or, Arr(cs), v) == Ok(Lookup(fs, a) == x || Lookup(fs, b) == y) by {
      OrIsSome(cs, v);
      assert cs[0] == c1 && cs[1] == c2;
    }
    assert Eval(Obj([Field("$or", Arr(cs))]), None, v) == Apply(Or, Arr(cs), v) by {
      SingleProperty("$or", Arr(cs), v);
      KnownOperators();
      OperatorProperty("$or", Arr(cs), v);
    }
  }
}

=== FILE: json.dfy ===
/** JavaScript values as the query engine and the record builder handle them, with the few
    pieces of JavaScript semantics both rely on: ordered plain objects, property reads,
    truthiness, strict equality and relational comparison. */
module Json {

  import opened Results
  import opened Text

  /** A JavaScript value. Arrays, plain objects and Date objects are always distinct objects:
      the model has no references, so two of them are never `===`. */
  datatype Value =
    | Undefined
    | Null
    | Bool(b: bool)
      /** a finite number (JSON has no infinities) */
    | Num(n: real)
    | NaN
    | Str(s: string)
    | Arr(items: seq<Value>)
      /** a plain object, its own enumerable properties in property order */
    | Obj(fields: seq<Field>)
      /** a valid Date object, as milliseconds since the epoch */
    | Date(time: int)

  datatype Field = Field(key: string, value: Value)

  /** `Object.keys` of a plain object. */
  function Keys(fs: seq<Field>): (ks: seq<string>)
    ensures |ks| == |fs|
    ensures forall i | 0 <= i < |fs| :: ks[i] == fs[i].key
  {
    if |fs| == 0 then [] else [fs[0].key] + Keys(fs[1..])
  }

  /** No key occurs twice, as in every JavaScript object. */
  predicate DistinctKeys(fs: seq<Field>) {
    |fs| == 0 || (fs[0].key !in Keys(fs[1..]) && DistinctKeys(fs[1..]))
  }

  /** `o[k]` for a plain object: the property's value, or `undefined` when it is absent. */
  function Lookup(fs: seq<Field>, k: string): (v: Value)
    ensures k !in Keys(fs) ==> v == Undefined
  {
    if |fs| == 0 then Undefined
    else if fs[0].key == k then fs[0].value
    else Lookup(fs[1..], k)
  }

  /** Fields whose keys differ pairwise have distinct keys. */
  lemma {:induction false} DistinctByIndex(fs: seq<Field>)
    requires forall i, j | 0 <= i < j < |fs| :: fs[i].key != fs[j].key
    ensures DistinctKeys(fs)
  {
    if |fs| > 0 {
      DistinctByIndex(fs[1..]);
    }
  }

  /** In an object, reading a key gives the value stored under it. */
  lemma {:induction false} LookupAt(fs: seq<Field>, i: nat)
    requires DistinctKeys(fs) && i < |fs|
    ensures Lookup(fs, fs[i].key) == fs[i].value
  {
    if i > 0 {
      assert fs[i].key == Keys(fs[1..])[i - 1];
      LookupAt(fs[1..], i - 1);
    }
  }

  /** A key that is present is read from one of the fields. */
  lemma {:induction false} LookupPresent(fs: seq<Field>, k: string) returns (i: nat)
    requires k in Keys(fs)
    ensures i < |fs| && fs[i].key == k && Lookup(fs, k) == fs[i].value
  {
    if fs[0].key == k {
      i := 0;
    } else {
      var j := LookupPresent(fs[1..], k);
      i := j + 1;
    }
  }

  /** Property assignment `o[k] = v`: an existing key keeps its position, a new key goes last. */
  function Put(fs: seq<Field>, k: string, v: Value): (r: seq<Field>)
    ensures Lookup(r, k) == v
    ensures forall j :: j != k ==> Lookup(r, j) == Lookup(fs, j)
    ensures Keys(r) == if k in Keys(fs) then Keys(fs) else Keys(fs) + [k]
    ensures DistinctKeys(fs) ==> DistinctKeys(r)
  {
    if |fs| == 0 then [Field(k, v)]
    else
      assert fs == [fs[0]] + fs[1..];
      ConsFields(fs[0], fs[1..]);
      if fs[0].key == k then
        ConsFields(Field(k, v), fs[1..]);
        [Field(k, v)] + fs[1..]
      else
        var rest := Put(fs[1..], k, v);
        ConsFields(fs[0], rest);
        [fs[0]] + rest
  }

  /** How keys, reads and distinctness of an object unfold at its first field. */
  lemma ConsFields(f: Field, rest: seq<Field>)
    ensures Keys([f] + rest) == [f.key] + Keys(rest)
    ensures Lookup([f] + rest, f.key) == f.value
    ensures forall j | j != f.key :: Lookup([f] + rest, j) == Lookup(rest, j)
    ensures DistinctKeys([f] + rest) <==> f.key !in Keys(rest) && DistinctKeys(rest)
  {
    assert ([f] + rest)[1..] == rest;
  }

  /** Object spread `{...fs, ...gs}`: every property of `gs` is assigned in order. */
  function Spread(fs: seq<Field>, gs: seq<Field>): (r: seq<Field>)
    ensures forall k :: k in Keys(r) <==> k in Keys(fs) || k in Keys(gs)
    ensures Keys(fs) <= Keys(r)
    ensures DistinctKeys(fs) ==> DistinctKeys(r)
    ensures DistinctKeys(gs) ==>
      forall k :: Lookup(r, k) == if k in Keys(gs) then Lookup(gs, k) else Lookup(fs, k)
    decreases |gs|
  {
    if |gs| == 0 then fs
    else Spread(Put(fs, gs[0].key, gs[0].value), gs[1..])
  }

  /** JavaScript truthiness. */
  predicate Truthy(v: Value) {
    match v
    case Undefined => false
    case Null => false
    case Bool(b) => b
    case Num(n) => n != 0.0
    case NaN => false
    case Str(s) => |s| > 0
    case _ => true
  }

  /** `a === b`. */
  predicate StrictEq(a: Value, b: Value) {
    match (a, b)
    case (Undefined, Undefined) => true
    case (Null, Null) => true
    case (Bool(x), Bool(y)) => x == y
    case (Num(x), Num(y)) => x == y
    case (Str(x), Str(y)) => x == y
    case _ => false
  }

  /** The SameValueZero comparison `Array.prototype.includes` uses: `===`, except that NaN
      equals NaN. */
  predicate SameValueZero(a: Value, b: Value) {
    StrictEq(a, b) || (a.NaN? && b.NaN?)
  }

  /** `xs.includes(v)` */
  predicate Includes(xs: seq<Value>, v: Value) {
    exists i | 0 <= i < |xs| :: SameValueZero(xs[i], v)
  }

  function Digit(d: nat): char
    requires d < 10
  {
    "0123456789"[d]
  }

  /** The decimal text of a natural number, as array indices are written as keys. */
  function NatToString(n: nat): (s: string)
    ensures |s| >= 1
    decreases n
  {
    if n < 10 then [Digit(n)] else NatToString(n / 10) + [Digit(n % 10)]
  }

  /** The own enumerable properties that spreading or `Object.keys` sees: the fields of an
      object, the indices of an array or string, nothing for other values. */
  function OwnEntries(v: Value): seq<Field>
  {
    match v
    case Obj(fs) => fs
    case Arr(xs) => seq(|xs|, i requires 0 <= i < |xs| => Field(NatToString(i), xs[i]))
    case Str(s) => seq(|s|, i requires 0 <= i < |s| => Field(NatToString(i), Str([s[i]])))
    case _ => []
  }

  /** `v[k]` for a value that is neither `null` nor `undefined` (reading a property of those
      throws a TypeError, which the callers model). Methods inherited from prototypes are not
      part of the model and read as `undefined`. */
  function Index(v: Value, k: string): Value
    requires !v.Undefined? && !v.Null?
  {
    if k == "length" && v.Arr? then Num(|v.items| as real)
    else if k == "length" && v.Str? then Num(|v.s| as real)
    else Lookup(OwnEntries(v), k)
  }

  /** Lexicographic order of strings by character code. */
  predicate StrLess(s: string, t: string)
    decreases |s|
  {
    if |t| == 0 then false
    else if |s| == 0 then true
    else if s[0] != t[0] then s[0] < t[0]
    else StrLess(s[1..], t[1..])
  }

  /** ToNumber of a value that is not a string, array or object; `None` stands for NaN. */
  function NumberOf(v: Value): Option<real>
  {
    match v
    case Null => Some(0.0)
    case Bool(b) => Some(if b then 1.0 else 0.0)
    case Num(n) => Some(n)
    case Date(t) => Some(t as real)
    case _ => None
  }

  /** JavaScript's abstract relational comparison `a < b`: `Some(true)`, `Some(false)`, or
      `None` for its `undefined` outcome. Two strings compare by character code; otherwise
      both sides are converted to numbers, and `undefined` or NaN on either side converts to
      NaN, whatever the other side is, so the outcome is `undefined`. The model defines the
      other conversions for everything but strings, arrays and plain objects. */
  function LessThan(a: Value, b: Value): (r: Result<Option<bool>>)
    ensures r.Err? ==> r.error == Coercion
    ensures a.Undefined? || a.NaN? || b.Undefined? || b.NaN? ==> r == Ok(None)
    ensures a.Str? && b.Str? ==> r == Ok(Some(StrLess(a.s, b.s)))
    ensures NumberOf(a).Some? && NumberOf(b).Some? ==> r == Ok(Some(NumberOf(a).value < NumberOf(b).value))
    ensures r.Err? <==>
      (!(a.Undefined? || a.NaN? || b.Undefined? || b.NaN?) &&
       (a.Arr? || a.Obj? || b.Arr? || b.Obj? || a.Str? != b.Str?))
  {
    if a.Undefined? || a.NaN? || b.Undefined? || b.NaN? then Ok(None)
    else if a.Arr? || a.Obj? || b.Arr? || b.Obj? then Err(Coercion)
    else if a.Str? && b.Str? then Ok(Some(StrLess(a.s, b.s)))
    else if a.Str? || b.Str? then Err(Coercion)
    else
      var x := NumberOf(a);
      var y := NumberOf(b);
      if x.None? || y.None? then Ok(None) else Ok(Some(x.value < y.value))
  }

  /** `a < b` */
  function Below(a: Value, b: Value): (r: Result<bool>)
    ensures r.Err? ==> r.error == Coercion
  {
    match LessThan(a, b)
    case Err(e) => Err(e)
    case Ok(r) => Ok(r == Some(true))
  }

  /** `a >= b`, which JavaScript evaluates as "not `a < b`", false when that is undefined. */
  function AtLeast(a: Value, b: Value): (r: Result<bool>)
    ensures r.Err? ==> r.error == Coercion
  {
    match LessThan(a, b)
    case Err(e) => Err(e)
    case Ok(r) => Ok(r == Some(false))
  }

  /** ToString of a primitive, where the model defines it (not for non-integral numbers, arrays,
      objects or dates). */
  function StringOf(v: Value): (r: Result<string>)
    ensures r.Err? ==> r.error == Coercion
  {
    match v
    case Undefined => Ok("undefined")
    case Null => Ok("null")
    case Bool(b) => Ok(if b then "true" else "false")
    case NaN => Ok("NaN")
    case Str(s) => Ok(s)
    case Num(n) =>
      if n == n.Floor as real then
        Ok(if n < 0.0 then "-" + NatToString(-n.Floor) else NatToString(n.Floor))
      else Err(Coercion)
    case _ => Err(Coercion)
  }

  /** What `JSON.parse` produces: no `undefined`, NaN or Date anywhere, and distinct keys in
      every object. Records fetched by the query engine are such values. */
  predicate IsJson(v: Value)
    decreases v
  {
    match v
    case Undefined => false
    case NaN => false
    case Date(_) => false
    case Arr(xs) => forall i | 0 <= i < |xs| :: IsJson(xs[i])
    case Obj(fs) => DistinctKeys(fs) && forall i | 0 <= i < |fs| :: IsJson(fs[i].value)
    case _ => true
  }

  /** Values on which the query engine's deep equality is reflexive: distinct keys in every
      object and no Date object anywhere. */
  predicate Plain(v: Value)
    decreases v
  {
    match v
    case Date(_) => false
    case Arr(xs) => forall i | 0 <= i < |xs| :: Plain(xs[i])
    case Obj(fs) => DistinctKeys(fs) && forall i | 0 <= i < |fs| :: Plain(fs[i].value)
    case _ => true
  }

  /** The set of keys of an object. */
  function KeySet(fs: seq<Field>): set<string>
  {
    set k | k in Keys(fs)
  }

  /** Distinct keys: the key set is as large as the object. */
  lemma {:induction false} KeySetSize(fs: seq<Field>)
    requires DistinctKeys(fs)
    ensures |KeySet(fs)| == |fs|
  {
    if |fs| > 0 {
      KeySetSize(fs[1..]);
      assert KeySet(fs) == {fs[0].key} + KeySet(fs[1..]);
    }
  }

  /** A value stored in a JSON object is JSON. */
  lemma LookupJson(fs: seq<Field>, k: string)
    requires IsJson(Obj(fs)) && k in Keys(fs)
    ensures IsJson(Lookup(fs, k))
  {
    var i := LookupPresent(fs, k);
  }
}

=== FILE: markdown.dfy ===
/** The Markdown parser's own logic: `cleanHTML`, which tidies the HTML that markdown-it
    renders, and the shape of the record `toJSON` returns. Rendering and frontmatter
    extraction are library calls and appear here as a parameter and a datatype. */
module Markdown {

  import opened Results
  import opened Seqs
  import opened Text
  import opened Json

  /** `\s` in a JavaScript regular expression, which is also what `String.prototype.trim`
      removes: the ECMAScript white space and line terminator characters. */
  predicate IsSpace(c: char) {
    c == '\t' || c == '\n' || c == '\U{000B}' || c == '\U{000C}' || c == '\r' || c == ' ' ||
    c == '\U{00A0}' || c == '\U{1680}' || ('\U{2000}' <= c <= '\U{200A}') ||
    c == '\U{2028}' || c == '\U{2029}' || c == '\U{202F}' || c == '\U{205F}' ||
    c == '\U{3000}' || c == '\U{FEFF}'
  }

  /** `\w`: the ASCII letters and digits and `_`. */
  predicate IsWord(c: char) {
    ('a' <= c <= 'z') || ('A' <= c <= 'Z') || ('0' <= c <= '9') || c == '_'
  }

  // ---------------------------------------------------------------------------------------
  // String.prototype.trim

  /** The number of white space characters `s` starts with. */
  function LeadingSpace(s: string): (n: nat)
    ensures n <= |s|
    ensures forall k | 0 <= k < n :: IsSpace(s[k])
    ensures n < |s| ==> !IsSpace(s[n])
  {
    if |s| > 0 && IsSpace(s[0]) then
      assert forall k | 1 <= k < |s| :: s[k] == s[1..][k - 1];
      1 + LeadingSpace(s[1..])
    else 0
  }

  /** The number of white space characters `s` ends with. */
  function TrailingSpace(s: string): (n: nat)
    ensures n <= |s|
    ensures forall k | |s| - n <= k < |s| :: IsSpace(s[k])
    ensures n < |s| ==> !IsSpace(s[|s| - n - 1])
  {
    if |s| > 0 && IsSpace(s[|s| - 1]) then
      assert forall k | 0 <= k < |s| - 1 :: s[k] == s[..|s| - 1][k];
      1 + TrailingSpace(s[..|s| - 1])
    else 0
  }

  /** `s.trim()`: the part of `s` between its leading and its trailing white space. */
  function Trim(s: string): (r: string)
    ensures OccursAt(s, r, LeadingSpace(s))
    ensures forall k | 0 <= k < LeadingSpace(s) :: IsSpace(s[k])
    ensures forall k | LeadingSpace(s) + |r| <= k < |s| :: IsSpace(s[k])
    ensures |r| > 0 ==> !IsSpace(r[0]) && !IsSpace(r[|r| - 1])
  {
    var i := LeadingSpace(s);
    var t := s[i..];
    TrimShape(s, i, t);
    t[..|t| - TrailingSpace(t)]
  }

  /** What the trimmed part is, given where the leading white space ends. */
  lemma TrimShape(s: string, i: nat, t: string)
    requires i == LeadingSpace(s) && t == s[i..]
    ensures var r := t[..|t| - TrailingSpace(t)];
      OccursAt(s, r, i) &&
      (forall k | i + |r| <= k < |s| :: IsSpace(s[k])) &&
      (|r| > 0 ==> !IsSpace(r[0]) && !IsSpace(r[|r| - 1]))
  {
    var n := TrailingSpace(t);
    var r := t[..|t| - n];
    assert r == s[i..i + |r|] by {
      assert forall k | 0 <= k < |r| :: r[k] == t[k] == s[i + k];
    }
    forall k | i + |r| <= k < |s|
      ensures IsSpace(s[k])
    {
      assert s[k] == t[k - i];
    }
    if |r| > 0 {
      assert r[0] == t[0] && r[|r| - 1] == t[|t| - n - 1];
    }
  }

  /** A string is its trim, framed by white space on both sides, however the white space is
      split between the frame and the rest. */
  lemma TrimUnique(a: string, m: string, z: string)
    requires forall k | 0 <= k < |a| :: IsSpace(a[k])
    requires forall k | 0 <= k < |z| :: IsSpace(z[k])
    requires |m| > 0 ==> !IsSpace(m[0]) && !IsSpace(m[|m| - 1])
    ensures Trim(a + m + z) == m
  {
    var s := a + m + z;
    var i := LeadingSpace(s);
    var r := Trim(s);
    assert forall k | 0 <= k < |a| :: s[k] == a[k];
    assert forall k | 0 <= k < |m| :: s[|a| + k] == m[k];
    assert forall k | 0 <= k < |z| :: s[|a| + |m| + k] == z[k];
    assert r == s[i..i + |r|];
    if |m| > 0 {
      assert i == |a|;
      assert |r| == |m|;
      assert r == s[|a|..|a| + |m|];
    } else {
      assert |r| == 0;
    }
  }

  /** Trimming twice trims once. */
  lemma TrimIdempotent(s: string)
    ensures Trim(Trim(s)) == Trim(s)
  {
    TrimUnique("", Trim(s), "");
    assert "" + Trim(s) + "" == Trim(s);
  }

  // ---------------------------------------------------------------------------------------
  // .replace(/<!--\s?\w+\s?-->/g, '')

  /** The end of the run of word characters starting at `j`. */
  function WordEnd(s: string, j: nat): (e: nat)
    requires j <= |s|
    ensures j <= e <= |s|
    ensures forall k | j <= k < e :: IsWord(s[k])
    ensures e < |s| ==> !IsWord(s[e])
    decreases |s| - j
  {
    if j < |s| && IsWord(s[j]) then WordEnd(s, j + 1) else j
  }

  /** `\s?` at `j`: past the white space character there, if there is one. */
  function SkipSpace(s: string, j: nat): (e: nat)
    requires j <= |s|
    ensures e == j || (e == j + 1 && j < |s| && IsSpace(s[j]))
    ensures e == j ==> j == |s| || !IsSpace(s[j])
  {
    if j < |s| && IsSpace(s[j]) then j + 1 else j
  }

  /** The length of the match of `<!--\s?\w+\s?-->` at the start of `s`, if it matches there.
      Each part can match in one way only, because white space, word characters and `-` are
      disjoint, so no backtracking is needed. */
  function CommentAt(s: string): (e: Option<nat>)
    ensures e.Some? ==> 8 <= e.value <= |s|
  {
    if !StartsWith(s, "<!--") then None
    else
      var a := SkipSpace(s, 4);
      var w := WordEnd(s, a);
      if w == a then None
      else
        var c := SkipSpace(s, w);
        if OccursAt(s, "-->", c) then Some(c + 3) else None
  }

  /** `m` is `a` white space characters, then one or more word characters, then `z` white
      space characters. */
  predicate SpacedWord(m: string, a: nat, z: nat) {
    a + z < |m| &&
    (forall k | 0 <= k < a :: IsSpace(m[k])) &&
    (forall k | |m| - z <= k < |m| :: IsSpace(m[k])) &&
    (forall k | a <= k < |m| - z :: IsWord(m[k]))
  }

  /** `t` is, as a whole, a comment the pattern `<!--\s?\w+\s?-->` describes. */
  predicate IsComment(t: string) {
    |t| >= 8 && t[..4] == "<!--" && t[|t| - 3..] == "-->" &&
    var m := t[4..|t| - 3];
    SpacedWord(m, 0, 0) || SpacedWord(m, 1, 0) || SpacedWord(m, 0, 1) || SpacedWord(m, 1, 1)
  }

  /** The scanner matches exactly the comments: what it matches is one, and a comment at the
      start of `s` is what it matches. */
  lemma {:induction false} CommentAtMatches(s: string, e: nat)
    requires e <= |s|
    ensures CommentAt(s) == Some(e) <==> IsComment(s[..e])
  {
    if CommentAt(s) == Some(e) {
      CommentAtIsComment(s);
    }
    if IsComment(s[..e]) {
      CommentIsMatched(s, e);
    }
  }

  lemma CommentAtIsComment(s: string)
    requires CommentAt(s).Some?
    ensures IsComment(s[..CommentAt(s).value])
  {
    var e := CommentAt(s).value;
    var t := s[..e];
    var a := SkipSpace(s, 4);
    var w := WordEnd(s, a);
    var c := SkipSpace(s, w);
    assert c + 3 == e;
    var m := t[4..|t| - 3];
    assert m == s[4..c];
    assert t[..4] == s[..4];
    assert t[|t| - 3..] == s[c..c + 3];
    assert forall k | 0 <= k < |m| :: m[k] == s[k + 4];
    assert SpacedWord(m, a - 4, c - w);
  }

  lemma CommentIsMatched(s: string, e: nat)
    requires e <= |s| && IsComment(s[..e])
    ensures CommentAt(s) == Some(e)
  {
    var t := s[..e];
    var m := t[4..|t| - 3];
    assert forall k | 0 <= k < |m| :: m[k] == s[k + 4];
    assert StartsWith(s, "<!--") by {
      assert s[..4] == t[..4];
    }
    assert s[e - 3..e] == "-->" by {
      assert s[e - 3..e] == t[|t| - 3..];
    }
    var a0: nat := if SpacedWord(m, 1, 0) || SpacedWord(m, 1, 1) then 1 else 0;
    var z0: nat := if SpacedWord(m, a0, 1) then 1 else 0;
    assert SpacedWord(m, a0, z0);
    assert IsWord(s[4 + a0]) by {
      assert m[a0] == s[4 + a0];
    }
    assert a0 == 1 ==> IsSpace(s[4]) by {
      assert m[0] == s[4];
    }
    assert z0 == 1 ==> IsSpace(s[e - 4]) by {
      assert m[|m| - 1] == s[e - 4];
    }
    assert forall k | 4 + a0 <= k < e - 3 - z0 :: IsWord(s[k]) by {
      forall k | 4 + a0 <= k < e - 3 - z0 ensures IsWord(s[k]) {
        assert IsWord(m[k - 4]);
      }
    }
    ScanComment(s, e, a0, z0);
  }

  /** The scanner's steps over a comment laid out in `s` itself: `<!--`, `a0` white space
      characters, word characters, `z0` white space characters, `-->` ending at `e`. */
  lemma ScanComment(s: string, e: nat, a0: nat, z0: nat)
    requires e <= |s| && a0 <= 1 && z0 <= 1 && 4 + a0 < e - 3 - z0
    requires StartsWith(s, "<!--") && s[e - 3..e] == "-->"
    requires a0 == 1 ==> IsSpace(s[4])
    requires z0 == 1 ==> IsSpace(s[e - 4])
    requires forall k | 4 + a0 <= k < e - 3 - z0 :: IsWord(s[k])
    ensures CommentAt(s) == Some(e)
  {
    assert s[e - 3] == '-' by {
      assert s[e - 3] == s[e - 3..e][0];
    }
    var a := SkipSpace(s, 4);
    assert a == 4 + a0 by {
      if a0 == 0 {
        assert IsWord(s[4]);
      }
    }
    var w := WordEnd(s, a);
    assert !IsWord(s[e - 3 - z0]);
    assert w == e - 3 - z0;
    var c := SkipSpace(s, w);
    assert c == e - 3;
  }

  /** `s.replace(/<!--\s?\w+\s?-->/g, '')`: scanning left to right, each match is deleted and
      the scan resumes after it. */
  function StripComments(s: string): (r: string)
    ensures IsSubsequence(r, s)
    decreases |s|
  {
    if |s| == 0 then ""
    else
      match CommentAt(s)
      case Some(e) =>
        var rest := StripComments(s[e..]);
        SubsequenceSkip(rest, s, e);
        rest
      case None =>
        var rest := StripComments(s[1..]);
        assert s == [s[0]] + s[1..];
        SubsequenceCons(s[0], rest, s[1..]);
        [s[0]] + rest
  }

  /** Text without a comment opener is left as it is. */
  lemma {:induction false} StripCommentsPlain(s: string)
    requires !Contains(s, "<!--")
    ensures StripComments(s) == s
    decreases |s|
  {
    if |s| > 0 {
      assert CommentAt(s).None? by {
        if CommentAt(s).Some? {
          assert OccursAt(s, "<!--", 0);
        }
      }
      if Contains(s[1..], "<!--") {
        ContainsSuffix(s, 1, "<!--");
      }
      StripCommentsPlain(s[1..]);
      assert s == [s[0]] + s[1..];
    }
  }

  /** One step of the scan. */
  lemma StripStep(s: string)
    requires |s| > 0
    ensures CommentAt(s).Some? ==> StripComments(s) == StripComments(s[CommentAt(s).value..])
    ensures CommentAt(s).None? ==> StripComments(s) == [s[0]] + StripComments(s[1..])
  {
  }

  /** A first character other than `<` is kept. */
  lemma StripKeeps(s: string)
    requires |s| > 0 && s[0] != '<'
    ensures StripComments(s) == [s[0]] + StripComments(s[1..])
  {
    assert |s| < 4 || s[..4][0] == s[0];
    StripStep(s);
  }

  /** A comment at the start is deleted. */
  lemma StripCommentFirst(c: string, b: string)
    requires IsComment(c)
    ensures StripComments(c + b) == StripComments(b)
  {
    var s := c + b;
    assert CommentAt(s) == Some(|c|) by {
      assert s[..|c|] == c;
      CommentAtMatches(s, |c|);
    }
    StripStep(s);
    assert s[|c|..] == b;
  }

  /** Text before a comment that holds no `<` is kept, and the comment is deleted. */
  lemma StripCommentAfter(a: string, c: string, b: string)
    requires '<' !in a && IsComment(c)
    ensures StripComments(a + c + b) == a + StripComments(b)
  {
    StripKeepsText(a, c + b);
    StripCommentFirst(c, b);
    assert a + c + b == a + (c + b);
  }

  /** Past its first character a comment holds no `<`: after `<!--` come only white space,
      word characters and `-->`. */
  lemma CommentNoOpener(t: string, k: nat)
    requires IsComment(t) && 1 <= k < |t|
    ensures t[k] != '<'
  {
    if k < 4 {
      assert t[k] == t[..4][k];
    } else if k >= |t| - 3 {
      assert t[k] == t[|t| - 3..][k - (|t| - 3)];
    } else {
      var m := t[4..|t| - 3];
      assert t[k] == m[k - 4];
      assert IsSpace(m[k - 4]) || IsWord(m[k - 4]);
    }
  }

  /** A match at the start of `x` cannot run on into text that starts with `<`, so the scan
      at the start of `x + y` sees only `x`. */
  lemma CommentAtLocal(x: string, y: string)
    requires |x| > 0 && (|y| == 0 || y[0] == '<')
    ensures CommentAt(x + y) == CommentAt(x)
  {
    var s := x + y;
    match CommentAt(x)
    case Some(e) =>
      assert s[..e] == x[..e];
      CommentAtMatches(x, e);
      CommentAtMatches(s, e);
    case None =>
      if CommentAt(s).Some? {
        var e := CommentAt(s).value;
        CommentAtMatches(s, e);
        if e > |x| {
          assert s[..e][|x|] == '<';
          CommentNoOpener(s[..e], |x|);
          assert false;
        }
        assert s[..e] == x[..e];
        CommentAtMatches(x, e);
        assert false;
      }
  }

  /** The scan never runs past a `<` that starts the rest of the text: the text before it
      and the text from it on are scanned each on its own. */
  lemma {:induction false} StripSplit(a: string, t: string)
    requires |t| == 0 || t[0] == '<'
    ensures StripComments(a + t) == StripComments(a) + StripComments(t)
    decreases |a|
  {
    if |a| == 0 {
      assert a + t == t;
    } else {
      var s := a + t;
      CommentAtLocal(a, t);
      StripStep(s);
      StripStep(a);
      match CommentAt(a)
      case Some(e) =>
        DropAppend(a, t, e);
        StripSplit(a[e..], t);
      case None =>
        DropAppend(a, t, 1);
        StripSplit(a[1..], t);
        PrependAppend(a[0], StripComments(a[1..]), StripComments(t));
    }
  }

  /** A comment anywhere in the text is deleted, and the text on either side of it is
      scanned as if the other side were not there. */
  lemma StripCommentsAround(a: string, c: string, b: string)
    requires IsComment(c)
    ensures StripComments(a + c + b) == StripComments(a) + StripComments(b)
  {
    assert (c + b)[0] == '<' by {
      assert c[0] == c[..4][0];
    }
    StripSplit(a, c + b);
    StripCommentFirst(c, b);
    assert a + c + b == a + (c + b);
  }

  /** Text without `<` is kept as it is, and the rest is scanned on its own. */
  lemma {:induction false} StripKeepsText(a: string, t: string)
    requires '<' !in a
    ensures StripComments(a + t) == a + StripComments(t)
    decreases |a|
  {
    if |a| > 0 {
      var s := a + t;
      assert s[0] == a[0];
      StripKeeps(s);
      assert s[1..] == a[1..] + t;
      StripKeepsText(a[1..], t);
      assert a == [a[0]] + a[1..];
      assert [a[0]] + (a[1..] + StripComments(t)) == a + StripComments(t);
    } else {
      assert a + t == t;
    }
  }

  // ---------------------------------------------------------------------------------------
  // .replace(/>(\n)+</g, '><')

  /** The end of the run of newlines starting at `j`. */
  function NewlineEnd(s: string, j: nat): (e: nat)
    requires j <= |s|
    ensures j <= e <= |s|
    ensures forall k | j <= k < e :: s[k] == '\n'
    ensures e < |s| ==> s[e] != '\n'
    decreases |s| - j
  {
    if j < |s| && s[j] == '\n' then NewlineEnd(s, j + 1) else j
  }

  /** The length of the match of `>(\n)+<` at the start of `s`, if it matches there. */
  function GapAt(s: string): (e: Option<nat>)
    ensures e.Some? ==> 3 <= e.value <= |s| && s[0] == '>' && s[e.value - 1] == '<'
    ensures e.Some? ==> forall k | 1 <= k < e.value - 1 :: s[k] == '\n'
  {
    if |s| == 0 || s[0] != '>' then None
    else
      var n := NewlineEnd(s, 1);
      if n > 1 && n < |s| && s[n] == '<' then Some(n + 1) else None
  }

  /** `s.replace(/>(\n)+</g, '><')`: scanning left to right, each match is replaced by `><`
      and the scan resumes after it. Only newlines are deleted, nothing else changes. */
  function CollapseNewlines(s: string): (r: string)
    ensures IsSubsequence(r, s)
    ensures RemoveAll(r, '\n') == RemoveAll(s, '\n')
    decreases |s|
  {
    if |s| == 0 then ""
    else
      match GapAt(s)
      case Some(e) =>
        var rest := CollapseNewlines(s[e..]);
        GapShape(s, e, rest);
        "><" + rest
      case None =>
        var rest := CollapseNewlines(s[1..]);
        assert s == [s[0]] + s[1..];
        SubsequenceCons(s[0], rest, s[1..]);
        assert ([s[0]] + rest)[1..] == rest;
        [s[0]] + rest
  }

  /** Text in which no `>` is followed by a newline is left as it is. */
  lemma {:induction false} CollapsePlain(s: string)
    requires !Contains(s, ">\n")
    ensures CollapseNewlines(s) == s
    decreases |s|
  {
    if |s| > 0 {
      assert GapAt(s).None? by {
        if GapAt(s).Some? {
          assert s[0..2] == ">\n";
          assert OccursAt(s, ">\n", 0);
        }
      }
      if Contains(s[1..], ">\n") {
        ContainsSuffix(s, 1, ">\n");
      }
      CollapsePlain(s[1..]);
      assert s == [s[0]] + s[1..];
    }
  }

  /** One step of the scan. */
  lemma CollapseStep(s: string)
    requires |s| > 0
    ensures GapAt(s).Some? ==> CollapseNewlines(s) == "><" + CollapseNewlines(s[GapAt(s).value..])
    ensures GapAt(s).None? ==> CollapseNewlines(s) == [s[0]] + CollapseNewlines(s[1..])
  {
  }

  /** Text without `>` is left as it is, and the rest is scanned on its own. */
  lemma {:induction false} CollapsePrefix(a: string, t: string)
    requires '>' !in a
    ensures CollapseNewlines(a + t) == a + CollapseNewlines(t)
    decreases |a|
  {
    if |a| == 0 {
      assert a + t == t;
    } else {
      var s := a + t;
      DropAppend(a, t, 1);
      assert GapAt(s).None?;
      CollapseStep(s);
      CollapsePrefix(a[1..], t);
      PrependAppend(a[0], a[1..], CollapseNewlines(t));
      assert a == [a[0]] + a[1..];
    }
  }

  /** The run of newlines from `j` ends where the first other character is, whatever
      follows it. */
  lemma {:induction false} NewlineEndAt(s: string, j: nat, n: nat)
    requires j <= n < |s| && s[n] != '\n'
    requires forall k | j <= k < n :: s[k] == '\n'
    ensures NewlineEnd(s, j) == n
    decreases n - j
  {
    if j < n {
      NewlineEndAt(s, j + 1, n);
    }
  }

  /** A gap at the start is replaced by `><` whatever follows it, and the rest is scanned on
      its own. */
  lemma CollapseGap(g: string, t: string)
    requires GapAt(g) == Some(|g|)
    ensures CollapseNewlines(g + t) == "><" + CollapseNewlines(t)
  {
    var s := g + t;
    var n := |g| - 1;
    assert forall k | 0 <= k < |g| :: s[k] == g[k];
    NewlineEndAt(s, 1, n);
    assert GapAt(s) == Some(|g|);
    CollapseStep(s);
    DropAppend(g, t, |g|);
    assert g[|g|..] == [];
  }

  /** Replacing a match by `><` deletes only the newlines of the match. */
  lemma GapShape(s: string, e: nat, rest: string)
    requires GapAt(s) == Some(e)
    requires IsSubsequence(rest, s[e..]) && RemoveAll(rest, '\n') == RemoveAll(s[e..], '\n')
    ensures IsSubsequence("><" + rest, s)
    ensures RemoveAll("><" + rest, '\n') == RemoveAll(s, '\n')
  {
    GapKeepsOrder(s, e, rest);
    GapKeepsText(s, e, rest);
  }

  /** What replacing a match by `><` leaves is a subsequence of the original. */
  lemma GapKeepsOrder(s: string, e: nat, rest: string)
    requires GapAt(s) == Some(e)
    requires IsSubsequence(rest, s[e..])
    ensures IsSubsequence("><" + rest, s)
  {
    var lt := s[e - 1..];
    assert lt == ['<'] + s[e..];
    SubsequenceCons('<', rest, s[e..]);
    assert ['<'] + rest == "<" + rest;
    assert s[1..][e - 2..] == lt;
    SubsequenceSkip("<" + rest, s[1..], e - 2);
    SubsequenceCons('>', "<" + rest, s[1..]);
    assert s == ['>'] + s[1..];
    assert ['>'] + ("<" + rest) == "><" + rest;
  }

  /** Replacing a match by `><` keeps every character other than a newline. */
  lemma GapKeepsText(s: string, e: nat, rest: string)
    requires GapAt(s) == Some(e)
    requires RemoveAll(rest, '\n') == RemoveAll(s[e..], '\n')
    ensures RemoveAll("><" + rest, '\n') == RemoveAll(s, '\n')
  {
    var lt := s[e - 1..];
    assert s[1..][e - 2..] == lt;
    NonNewlineSkip(s[1..], e - 2);
    assert RemoveAll("<" + rest, '\n') == "<" + RemoveAll(rest, '\n') by {
      assert ("<" + rest)[1..] == rest;
    }
    assert RemoveAll("><" + rest, '\n') == ">" + RemoveAll("<" + rest, '\n') by {
      assert ("><" + rest)[1..] == "<" + rest;
    }
    assert RemoveAll(lt, '\n') == "<" + RemoveAll(s[e..], '\n') by {
      assert lt[1..] == s[e..];
    }
  }

  /** Leading newlines do not show once newlines are removed. */
  lemma {:induction false} NonNewlineSkip(s: string, n: nat)
    requires n <= |s| && forall k | 0 <= k < n :: s[k] == '\n'
    ensures RemoveAll(s, '\n') == RemoveAll(s[n..], '\n')
    decreases n
  {
    if n > 0 {
      assert s[1..][n - 1..] == s[n..];
      NonNewlineSkip(s[1..], n - 1);
    }
  }

  /** Dropping a prefix keeps a subsequence one. */
  lemma {:induction false} SubsequenceSkip(a: string, s: string, n: nat)
    requires n <= |s| && IsSubsequence(a, s[n..])
    ensures IsSubsequence(a, s)
    decreases n
  {
    if n > 0 {
      assert s[1..][n - 1..] == s[n..];
      SubsequenceSkip(a, s[1..], n - 1);
      assert s == [s[0]] + s[1..];
      SubsequenceDrop(s[0], a, s[1..]);
    }
  }

  /** What a suffix contains, the whole contains. */
  lemma ContainsSuffix(s: string, n: nat, pat: string)
    requires n <= |s| && Contains(s[n..], pat)
    ensures Contains(s, pat)
  {
    var i :| 0 <= i <= |s[n..]| && OccursAt(s[n..], pat, i);
    assert s[n + i..n + i + |pat|] == s[n..][i..i + |pat|];
    assert OccursAt(s, pat, n + i);
  }

  /** What an infix contains, the whole contains. */
  lemma ContainsInfix(s: string, t: string, i: nat, pat: string)
    requires OccursAt(s, t, i) && Contains(t, pat)
    ensures Contains(s, pat)
  {
    var j :| 0 <= j <= |t| && OccursAt(t, pat, j);
    assert forall k | 0 <= k < |t| :: t[k] == s[i + k];
    assert s[i + j..i + j + |pat|] == t[j..j + |pat|];
    assert OccursAt(s, pat, i + j);
  }

  /** No `>`, newlines, `<` gap is left anywhere in `s`. */
  predicate GapFree(s: string)
    decreases |s|
  {
    |s| == 0 || (GapAt(s).None? && GapFree(s[1..]))
  }

  /** A string starting with newlines keeps them, and the rest is collapsed on its own. */
  lemma {:induction false} CollapseAfterNewlines(s: string, n: nat)
    requires n <= |s| && forall k | 0 <= k < n :: s[k] == '\n'
    ensures CollapseNewlines(s) == s[..n] + CollapseNewlines(s[n..])
    decreases n
  {
    if n > 0 {
      var x, y := s[1..][..n - 1], CollapseNewlines(s[n..]);
      assert CollapseNewlines(s) == [s[0]] + CollapseNewlines(s[1..]) by {
        assert GapAt(s).None?;
      }
      assert CollapseNewlines(s[1..]) == x + y by {
        assert s[1..][n - 1..] == s[n..];
        assert forall k | 0 <= k < n - 1 :: s[1..][k] == s[k + 1];
        CollapseAfterNewlines(s[1..], n - 1);
      }
      TakeCons(s, n);
      assert [s[0]] + (x + y) == ([s[0]] + x) + y;
    }
  }

  /** Collapsing keeps the first character. */
  lemma CollapseFirst(s: string)
    requires |s| > 0
    ensures |CollapseNewlines(s)| > 0 && CollapseNewlines(s)[0] == s[0]
  {
  }

  /** After collapsing, no gap is left: no `>` is followed by newlines and then `<`. */
  lemma {:induction false} CollapseGapFree(s: string)
    ensures GapFree(CollapseNewlines(s))
    decreases |s|
  {
    if |s| > 0 {
      var r := CollapseNewlines(s);
      match GapAt(s)
      case Some(e) =>
        var rest := CollapseNewlines(s[e..]);
        CollapseGapFree(s[e..]);
        assert r[1..] == "<" + rest;
        assert ("<" + rest)[1..] == rest;
        assert GapAt(r).None?;
        assert GapAt(r[1..]).None?;
      case None =>
        CollapseGapFree(s[1..]);
        var rest := CollapseNewlines(s[1..]);
        assert r[1..] == rest;
        if s[0] == '>' {
          NoGapAfterTag(s);
        }
    }
  }

  /** Where no gap starts at a `>`, collapsing does not create one there. */
  lemma NoGapAfterTag(s: string)
    requires |s| > 0 && s[0] == '>' && GapAt(s).None?
    ensures GapAt(CollapseNewlines(s)).None?
  {
    var r := CollapseNewlines(s);
    var n := NewlineEnd(s, 1) - 1;
    var t := s[1..];
    assert r == [s[0]] + CollapseNewlines(t);
    assert forall k | 0 <= k < n :: t[k] == '\n';
    CollapseAfterNewlines(t, n);
    if n < |t| {
      assert t[n] != '\n' && (n == 0 || t[n] != '<');
      CollapseFirst(t[n..]);
      assert r[n + 1] == t[n];
    }
    var m := NewlineEnd(r, 1);
    assert m == n + 1 by {
      assert forall k | 1 <= k < n + 1 :: r[k] == t[k - 1];
    }
  }

  /** A string without gaps is left as it is. */
  lemma {:induction false} CollapseGapFreeFixed(s: string)
    requires GapFree(s)
    ensures CollapseNewlines(s) == s
    decreases |s|
  {
    if |s| > 0 {
      CollapseGapFreeFixed(s[1..]);
      assert s == [s[0]] + s[1..];
    }
  }

  /** Collapsing twice collapses once. */
  lemma CollapseIdempotent(s: string)
    ensures CollapseNewlines(CollapseNewlines(s)) == CollapseNewlines(s)
  {
    CollapseGapFree(s);
    CollapseGapFreeFixed(CollapseNewlines(s));
  }

  // ---------------------------------------------------------------------------------------
  // cleanHTML and toJSON

  /** `cleanHTML(html)`: trim, delete the word comments, then join tags separated only by
      newlines. It only deletes characters. */
  function CleanHtml(html: string): (r: string)
    ensures IsSubsequence(r, html)
    ensures |r| <= |html|
    ensures GapFree(r)
  {
    var t := Trim(html);
    var u := StripComments(t);
    var r := CollapseNewlines(u);
    InfixSubsequence(html, LeadingSpace(html), LeadingSpace(html) + |t|);
    assert html[LeadingSpace(html)..LeadingSpace(html) + |t|] == t;
    SubsequenceTrans(u, t, html);
    SubsequenceTrans(r, u, html);
    SubsequenceLength(r, html);
    CollapseGapFree(u);
    r
  }

  /** HTML with no comment opener and no `>` before a newline comes back just trimmed. */
  lemma CleanPlain(html: string)
    requires !Contains(html, "<!--") && !Contains(html, ">\n")
    ensures CleanHtml(html) == Trim(html)
  {
    var t := Trim(html);
    if Contains(t, "<!--") {
      ContainsInfix(html, t, LeadingSpace(html), "<!--");
    }
    if Contains(t, ">\n") {
      ContainsInfix(html, t, LeadingSpace(html), ">\n");
    }
    StripCommentsPlain(t);
    CollapsePlain(t);
  }

  /** What gray-matter returns for a file: the frontmatter object, the content after it and
      the excerpt before `<!--more-->` (absent when the file has none). */
  datatype Matter = Matter(data: Value, content: Option<string>, excerpt: Option<string>)

  /** `text || ''` for a string that may be absent. */
  function OrEmpty(text: Option<string>): (s: string)
    ensures text.Some? ==> s == text.value
    ensures text.None? ==> s == ""
  {
    if text.Some? then text.value else ""
  }

  /** `toJSON(file)` after frontmatter extraction, where `render` is markdown-it's `render`:
      `{ excerpt, body, ...data }`. */
  function ToJson(render: string -> string, m: Matter): (r: Value)
    ensures r.Obj? && |Keys(r.fields)| >= 2
    ensures Keys(r.fields)[0] == "excerpt" && Keys(r.fields)[1] == "body"
    ensures forall k | k in Keys(r.fields) :: k == "excerpt" || k == "body" || k in Keys(OwnEntries(m.data))
    ensures DistinctKeys(r.fields)
  {
    var body := CleanHtml(render(OrEmpty(m.content)));
    var excerpt := CleanHtml(render(OrEmpty(m.excerpt)));
    var head := [Field("excerpt", Str(excerpt)), Field("body", Str(body))];
    var fs := Spread(head, OwnEntries(m.data));
    assert Keys(head) == ["excerpt", "body"];
    assert DistinctKeys(head);
    Obj(fs)
  }

  /** The record's fields: the frontmatter's own, then `excerpt` and `body` from the rendered
      and cleaned excerpt and content (the empty string's rendering when either is absent)
      unless the frontmatter names them too. */
  lemma ToJsonFields(render: string -> string, m: Matter)
    requires DistinctKeys(OwnEntries(m.data))
    ensures var r := ToJson(render, m);
      var data := OwnEntries(m.data);
      (forall k | k in Keys(data) :: Lookup(r.fields, k) == Lookup(data, k)) &&
      ("excerpt" !in Keys(data) ==> Lookup(r.fields, "excerpt") == Str(CleanHtml(render(OrEmpty(m.excerpt))))) &&
      ("body" !in Keys(data) ==> Lookup(r.fields, "body") == Str(CleanHtml(render(OrEmpty(m.content)))))
  {
    var body := CleanHtml(render(OrEmpty(m.content)));
    var excerpt := CleanHtml(render(OrEmpty(m.excerpt)));
    var head := [Field("excerpt", Str(excerpt)), Field("body", Str(body))];
    assert Lookup(head, "excerpt") == Str(excerpt);
    assert Lookup(head, "body") == Str(body) by {
      assert head[1..] == [Field("body", Str(body))];
    }
  }
}

=== FILE: paths.dfy ===
/** Path handling of the database builder: Node's POSIX `path.extname`, `normalizePath`,
    which turns a file path into the record path it is served under, and the test `walk`
    uses to skip hidden entries and `node_modules`. */
module Paths {

  import opened Results
  import opened Text

  /** The parser extensions built into the builder. */
  const BuiltinExtensions: seq<string> := [".md", ".json", ".json5", ".yaml", ".yml", ".csv", ".xml"]

  /** `EXTENSIONS.concat(Object.keys(extendParser))`: the built-in extensions followed by
      the keys of the custom parsers. */
  function Extensions(custom: seq<string>): (exts: seq<string>)
    ensures forall e | e in BuiltinExtensions :: e in exts
    ensures forall e | e in custom :: e in exts
    ensures forall e | e in exts :: e in BuiltinExtensions || e in custom
  {
    BuiltinExtensions + custom
  }

  /** The index of the last occurrence of `c` in `s`. */
  function LastIndexOf(s: string, c: char): (r: Option<nat>)
    ensures r.Some? ==> r.value < |s| && s[r.value] == c && c !in s[r.value + 1..]
    ensures r.None? <==> c !in s
  {
    if |s| == 0 then None
    else if s[|s| - 1] == c then Some(|s| - 1)
    else
      var r := LastIndexOf(s[..|s| - 1], c);
      assert s == s[..|s| - 1] + [s[|s| - 1]];
      r
  }

  /** `s` without its trailing slashes. */
  function TrimTrailingSlashes(s: string): (r: string)
    ensures |r| <= |s| && r == s[..|r|]
    ensures |r| == 0 || r[|r| - 1] != '/'
    ensures forall i | |r| <= i < |s| :: s[i] == '/'
  {
    if |s| > 0 && s[|s| - 1] == '/' then TrimTrailingSlashes(s[..|s| - 1]) else s
  }

  /** The last component of a path, trailing slashes ignored. */
  function Basename(path: string): (base: string)
    ensures '/' !in base
    ensures EndsWith(TrimTrailingSlashes(path), base)
    ensures var t := TrimTrailingSlashes(path); |base| < |t| ==> t[|t| - |base| - 1] == '/'
  {
    var t := TrimTrailingSlashes(path);
    match LastIndexOf(t, '/')
    case None => t
    case Some(i) => t[i + 1..]
  }

  /** The extension of a last path component: from its last dot to its end, except that a
      name without a dot, a name whose only dot is its first character, and `..` have none. */
  function ExtOfBase(base: string): (e: string)
    ensures e != "" ==> e[0] == '.' && '.' !in e[1..] && EndsWith(base, e) && |e| < |base|
    ensures e == "" <==> '.' !in base || base == ".." || (base[0] == '.' && '.' !in base[1..])
  {
    match LastIndexOf(base, '.')
    case None => ""
    case Some(i) =>
      if i == 0 || base == ".." then ""
      else
        assert base[|base| - |base[i..]|..] == base[i..];
        base[i..]
  }

  /** `path.extname(p)` on POSIX: the last component's suffix from its last dot, unless that
      dot is the component's first character, the component has no dot, or it is `..`. */
  function Extname(path: string): (e: string)
    ensures '/' !in e
    ensures var base := Basename(path);
      e != "" ==> e[0] == '.' && '.' !in e[1..] && EndsWith(base, e) && |e| < |base|
    ensures var base := Basename(path);
      e == "" <==> '.' !in base || base == ".." || (base[0] == '.' && '.' !in base[1..])
  {
    var base := Basename(path);
    var e := ExtOfBase(base);
    assert e != "" ==> forall k | 0 <= k < |e| :: e[k] == base[|base| - |e| + k];
    e
  }

  /** The last occurrence is the one after which the character no longer occurs. */
  lemma {:induction false} LastIndexOfIs(s: string, c: char, i: nat)
    requires i < |s| && s[i] == c && c !in s[i + 1..]
    ensures LastIndexOf(s, c) == Some(i)
    decreases |s|
  {
    if i < |s| - 1 {
      assert s[|s| - 1] in s[i + 1..];
      assert s[..|s| - 1][i + 1..] == s[i + 1..|s| - 1];
      LastIndexOfIs(s[..|s| - 1], c, i);
    }
  }

  /** The last component of a path that does not end in a slash is what follows its last
      slash. */
  lemma BasenameAfterSlash(p: string, i: nat)
    requires i + 1 < |p| && p[i] == '/' && '/' !in p[i + 1..]
    ensures Basename(p) == p[i + 1..]
  {
    assert p[|p| - 1] in p[i + 1..];
    assert TrimTrailingSlashes(p) == p;
    LastIndexOfIs(p, '/', i);
  }

  /** The extension of a name is what follows its last dot, when that dot is not its first
      character. */
  lemma ExtOfName(name: string, ext: string)
    requires |name| > 0 && '.' !in ext && |ext| > 0
    ensures ExtOfBase(name + ("." + ext)) == "." + ext
  {
    var e := "." + ext;
    var base := name + e;
    assert base[|name|] == '.';
    assert base[|name| + 1..] == ext;
    LastIndexOfIs(base, '.', |name|);
    assert base[|name|..] == e;
  }

  /** A name without slashes, appended after a slash, is the last component. */
  lemma BasenameOfFile(dir: string, base: string)
    requires |base| > 0 && '/' !in base
    ensures Basename(dir + "/" + base) == base
  {
    var p := dir + "/" + base;
    assert p[|dir|] == '/';
    assert p[|dir| + 1..] == base;
    BasenameAfterSlash(p, |dir|);
  }

  /** The extension of `dir/name.ext` is `.ext`, the part after the last dot, whatever dots
      the name itself holds. */
  lemma ExtnameOfFile(dir: string, name: string, ext: string)
    requires |name| > 0 && '/' !in name
    requires '.' !in ext && '/' !in ext && |ext| > 0
    ensures Extname(dir + "/" + name + "." + ext) == "." + ext
  {
    var base := name + ("." + ext);
    assert dir + "/" + name + "." + ext == dir + "/" + base;
    BasenameOfFile(dir, base);
    ExtOfName(name, ext);
  }

  /** `s.replace(/(?:\.([^.]+))?$/, '')`: removes the last dot and what follows it when at
      least one character follows and none of them is a dot (slashes included). */
  function StripLastExtension(s: string): (r: string)
    ensures |r| <= |s| && r == s[..|r|]
    ensures r != s ==> |r| + 1 < |s| && s[|r|] == '.' && '.' !in s[|r| + 1..]
    ensures r == s <==> '.' !in s || s[|s| - 1] == '.'
  {
    match LastIndexOf(s, '.')
    case None => s
    case Some(i) => if i + 1 < |s| then s[..i] else s
  }

  /** `normalizePath(path)`: the first occurrence of the root directory is removed, then the
      last extension when the remaining path's extension is registered or the remaining path
      starts with a dot, and backslashes become slashes. */
  function NormalizePath(root: string, extensions: seq<string>, path: string): (np: string)
    ensures '\\' !in np
    ensures |np| <= |path|
  {
    var extract := RemoveFirst(path, root);
    assert |extract| <= |path| by {
      if Contains(path, root) {} else {}
    }
    var stripped :=
      if Extname(extract) in extensions || StartsWith(extract, ".") then StripLastExtension(extract)
      else extract;
    ReplaceAll(stripped, '\\', '/')
  }

  /** Replacing a character that does not occur changes nothing. */
  lemma ReplaceAbsent(s: string, a: char, b: char)
    requires a !in s
    ensures ReplaceAll(s, a, b) == s
  {
  }

  /** The path relative to the root, before the extension is considered. */
  lemma NormalizeUnderRoot(root: string, extensions: seq<string>, rest: string)
    ensures NormalizePath(root, extensions, root + rest) ==
      ReplaceAll(if Extname(rest) in extensions || StartsWith(rest, ".") then StripLastExtension(rest) else rest, '\\', '/')
  {
    RemoveFirstPrefix(root, rest);
  }

  /** The extension of `dir/name.ext` is what the expression removes, whatever dots the
      name itself holds. */
  lemma StripOfFile(dir: string, name: string, ext: string)
    requires '.' !in ext && |ext| > 0
    ensures StripLastExtension(dir + "/" + name + "." + ext) == dir + "/" + name
  {
    var rest := dir + "/" + name + "." + ext;
    var i := |dir| + 1 + |name|;
    assert rest[i] == '.';
    assert rest[i + 1..] == ext;
    LastIndexOfIs(rest, '.', i);
    assert rest[..i] == dir + "/" + name;
  }

  /** A file under the root with a registered extension is served under its path relative
      to the root, without the extension. */
  lemma NormalizeRegistered(root: string, extensions: seq<string>, dir: string, name: string, ext: string)
    requires |name| > 0 && '/' !in name && '\\' !in name
    requires '.' !in ext && '/' !in ext && '\\' !in ext && |ext| > 0
    requires '\\' !in dir
    requires "." + ext in extensions
    ensures NormalizePath(root, extensions, root + dir + "/" + name + "." + ext) == dir + "/" + name
  {
    var rest := dir + "/" + name + "." + ext;
    var stem := dir + "/" + name;
    assert root + dir + "/" + name + "." + ext == root + rest;
    ExtnameOfFile(dir, name, ext);
    StripOfFile(dir, name, ext);
    NormalizeStripped(root, extensions, rest, stem);
  }

  /** A path under the root whose extension is registered, and which has no backslash once
      the extension is removed, is served under that stem. */
  lemma NormalizeStripped(root: string, extensions: seq<string>, rest: string, stem: string)
    requires Extname(rest) in extensions && StripLastExtension(rest) == stem && '\\' !in stem
    ensures NormalizePath(root, extensions, root + rest) == stem
  {
    NormalizeUnderRoot(root, extensions, rest);
    ReplaceAbsent(stem, '\\', '/');
  }

  /** `post.en.md` has the extension `.md`, and only that is removed. */
  lemma MultiDotExample(p: string)
    requires p == "/blog/post.en.md"
    ensures Extname(p) == ".md"
    ensures StripLastExtension(p) == "/blog/post.en"
  {
    assert "/blog" + "/" + "post.en" + "." + "md" == p;
    assert "/blog" + "/" + "post.en" == "/blog/post.en";
    ExtnameOfFile("/blog", "post.en", "md");
    StripOfFile("/blog", "post.en", "md");
  }

  /** `/c/blog/post.en.md`, under the root `/c` with `.md` registered, is served under
      `/blog/post.en`. */
  lemma NormalizeMultiDotExample(root: string, exts: seq<string>, p: string)
    requires root == "/c" && exts == [".md"] && p == "/c/blog/post.en.md"
    ensures NormalizePath(root, exts, p) == "/blog/post.en"
  {
    assert root + "/blog" + "/" + "post.en" + "." + "md" == p;
    assert "/blog" + "/" + "post.en" == "/blog/post.en";
    assert "." + "md" == exts[0];
    NormalizeRegistered(root, exts, "/blog", "post.en", "md");
  }

  /** A file whose extension is not registered keeps it, unless its relative path starts
      with a dot; of its characters only backslashes change. */
  lemma NormalizeUnregistered(root: string, extensions: seq<string>, rest: string)
    requires Extname(rest) !in extensions && !StartsWith(rest, ".")
    ensures NormalizePath(root, extensions, root + rest) == ReplaceAll(rest, '\\', '/')
    ensures '\\' !in rest ==> NormalizePath(root, extensions, root + rest) == rest
  {
    NormalizeUnderRoot(root, extensions, rest);
    if '\\' !in rest {
      ReplaceAbsent(rest, '\\', '/');
    }
  }

  // ---------------------------------------------------------------------------------------
  // The skip test of walk

  /** The regular expression `/(^|\/)\.[^/.]/` matches with its dot at position `p`. */
  predicate DotAt(s: string, p: int) {
    0 <= p && p + 1 < |s| && (p == 0 || s[p - 1] == '/') && s[p] == '.' && s[p + 1] != '/' && s[p + 1] != '.'
  }

  /** The regular expression matches starting at position `p`: by its start-of-input
      alternative, or by its slash alternative. */
  predicate MatchAt(s: string, p: int) {
    (p == 0 && DotAt(s, 0)) || (0 <= p < |s| && s[p] == '/' && DotAt(s, p + 1))
  }

  /** The regular expression's search, from position `i` on, left to right: at each
      position it tries the start-of-input alternative, then the slash alternative. */
  function SearchDot(s: string, i: nat): (found: bool)
    requires i <= |s|
    ensures found <==> exists p | i <= p < |s| :: MatchAt(s, p)
    decreases |s| - i
  {
    if i == |s| then false
    else if i == 0 && i + 1 < |s| && s[i] == '.' && s[i + 1] != '/' && s[i + 1] != '.' then
      assert MatchAt(s, i);
      true
    else if s[i] == '/' && i + 2 < |s| && s[i + 1] == '.' && s[i + 2] != '/' && s[i + 2] != '.' then
      assert MatchAt(s, i);
      true
    else SearchDot(s, i + 1)
  }

  /** Some component of the name starts with a dot followed by a character other than `/`
      and `.`. */
  predicate HasDotComponent(s: string) {
    exists p | 0 <= p < |s| :: DotAt(s, p)
  }

  /** The search finds a match exactly when some component starts with such a dot. */
  lemma SearchDotCorrect(s: string)
    ensures SearchDot(s, 0) <==> HasDotComponent(s)
  {
    if SearchDot(s, 0) {
      var p :| 0 <= p < |s| && MatchAt(s, p);
      if !DotAt(s, p) {
        assert DotAt(s, p + 1);
      }
    }
    if HasDotComponent(s) {
      var p :| 0 <= p < |s| && DotAt(s, p);
      assert MatchAt(s, if p == 0 then 0 else p - 1);
    }
  }

  /** `walk` skips an entry whose name contains `node_modules` or matches the dot
      expression. */
  function Skipped(name: string): (skip: bool)
    ensures skip <==> Contains(name, "node_modules") || HasDotComponent(name)
  {
    SearchDotCorrect(name);
    Contains(name, "node_modules") || SearchDot(name, 0)
  }

  /** `.git`, `.env` and `a/.cache` are skipped; `..`, `./a`, `a.b` and a plain name are not. */
  lemma SkippedExamples()
    ensures Skipped(".git") && Skipped(".env") && Skipped("a/.cache")
    ensures !HasDotComponent("..") && !HasDotComponent("./a") && !HasDotComponent("a.b")
  {
    assert DotAt(".git", 0);
    assert DotAt(".env", 0);
    assert DotAt("a/.cache", 2);
  }
}

=== FILE: query.dfy ===
/** The `Query` class of the client-side composable: the builder state a chain of calls
    accumulates, and `resolve`, which runs that state over the fetched records as a fixed
    pipeline (filter, search, sort, skip, limit, projection, then one record or many). The
    builder methods, which mutate and return `this`, are modelled as functions from the old
    state to the new one. */
module Queries {

  import opened Results
  import opened Seqs
  import opened Json
  import opened Filter

  /** The builder state `this.query`. */
  datatype Query = Query(
    only: seq<Value>,
    without: seq<Value>,
    where: seq<Field>,
    order: seq<string>,
    limit: Value,
    skip: Value,
    search: Value,
    config: Value)

  /** The state of `new Query()`. */
  const Empty := Query([], [], [], [], Null, Null, Null, Null)

  /** The values `push(...keys || [])` adds: nothing for a falsy argument, the elements of an
      array, the characters of a string; spreading any other truthy value throws. */
  function SpreadArgs(keys: Value): (r: Result<seq<Value>>)
    ensures !Truthy(keys) ==> r == Ok([])
    ensures keys.Arr? ==> r == Ok(keys.items)
    ensures keys.Str? && |keys.s| > 0 ==> r == Ok(Chars(keys.s))
    ensures r.Err? <==> Truthy(keys) && !keys.Arr? && !keys.Str?
  {
    if !Truthy(keys) then Ok([])
    else
      match keys
      case Arr(xs) => Ok(xs)
      case Str(s) => Ok(Chars(s))
      case _ => Err(TypeError)
  }

  /** The one-character strings a string iterates over. */
  function Chars(s: string): (r: seq<Value>)
    ensures |r| == |s|
    ensures forall i | 0 <= i < |s| :: r[i] == Str([s[i]])
  {
    if |s| == 0 then [] else [Str([s[0]])] + Chars(s[1..])
  }

  /** `only(keys)`: appends the keys to the projection list and changes nothing else. */
  function Only(q: Query, keys: Value): (r: Result<Query>)
    ensures r.Ok? ==> |q.only| <= |r.value.only| && r.value.only[..|q.only|] == q.only
    ensures r.Ok? ==> r.value.(only := q.only) == q
    ensures keys.Arr? ==> r == Ok(q.(only := q.only + keys.items))
    ensures !Truthy(keys) ==> r == Ok(q)
  {
    match SpreadArgs(keys)
    case Err(err) => Err(err)
    case Ok(ks) =>
      assert ks == [] ==> q.only + ks == q.only;
      Ok(q.(only := q.only + ks))
  }

  /** `without(keys)`: appends the keys to the exclusion list and changes nothing else. */
  function Without(q: Query, keys: Value): (r: Result<Query>)
    ensures r.Ok? ==> |q.without| <= |r.value.without| && r.value.without[..|q.without|] == q.without
    ensures r.Ok? ==> r.value.(without := q.without) == q
    ensures keys.Arr? ==> r == Ok(q.(without := q.without + keys.items))
    ensures !Truthy(keys) ==> r == Ok(q)
  {
    match SpreadArgs(keys)
    case Err(err) => Err(err)
    case Ok(ks) =>
      assert ks == [] ==> q.without + ks == q.without;
      Ok(q.(without := q.without + ks))
  }

  /** `where(filter)`: a shallow merge into the filter, in which the new keys win, the old
      keys keep their positions and nothing else changes. */
  function Where(q: Query, filter: Value): (r: Query)
    ensures r.(where := q.where) == q
    ensures Keys(q.where) <= Keys(r.where)
    ensures forall k :: k in Keys(r.where) <==> k in Keys(q.where) || k in Keys(OwnEntries(filter))
    ensures DistinctKeys(OwnEntries(filter)) ==>
      forall k :: Lookup(r.where, k) ==
        if k in Keys(OwnEntries(filter)) then Lookup(OwnEntries(filter), k) else Lookup(q.where, k)
  {
    q.(where := Spread(q.where, OwnEntries(filter)))
  }

  /** `sortBy(key, dir)`: records `-key` when `dir == 'desc'` and `key` otherwise. The loose
      comparison of an array, object or Date with a string converts it with ToPrimitive, which
      the model does not define. */
  function SortBy(q: Query, key: string, dir: Value): (r: Result<Query>)
    ensures dir == Str("desc") ==> r == Ok(q.(order := q.order + ["-" + key]))
    ensures (dir.Str? && dir.s != "desc") || dir.Undefined? ==> r == Ok(q.(order := q.order + [key]))
    ensures r.Ok? ==> r.value.(order := q.order) == q && |r.value.order| == |q.order| + 1
    ensures r.Err? <==> dir.Arr? || dir.Obj? || dir.Date?
  {
    if dir.Arr? || dir.Obj? || dir.Date? then Err(Coercion)
    else
      var descending := dir.Str? && dir.s == "desc";
      Ok(q.(order := q.order + [if descending then "-" + key else key]))
  }

  /** `limit(n)` */
  function Limit(q: Query, n: Value): (r: Query)
    ensures r.limit == n && r.(limit := q.limit) == q
  {
    q.(limit := n)
  }

  /** `skip(n)` */
  function Skip(q: Query, n: Value): (r: Query)
    ensures r.skip == n && r.(skip := q.skip) == q
  {
    q.(skip := n)
  }

  /** The fuzzy-search keys used unless the caller's options name others. */
  const DefaultSearchKeys := Arr([Str("slug"), Str("name"), Str("title")])

  /** `search(term, options)`: stores the term, and options in which the caller's fields are
      spread over the default `keys`. */
  function Search(q: Query, term: Value, options: Value): (r: Query)
    ensures r.search == term && r.(search := q.search, config := q.config) == q
    ensures r.config.Obj?
    ensures "keys" in Keys(r.config.fields)
    ensures DistinctKeys(OwnEntries(options)) ==>
      Lookup(r.config.fields, "keys") ==
        if "keys" in Keys(OwnEntries(options)) then Lookup(OwnEntries(options), "keys")
        else DefaultSearchKeys
  {
    q.(search := term, config := Obj(Spread([Field("keys", DefaultSearchKeys)], OwnEntries(options))))
  }

  // ---------------------------------------------------------------------------------------
  // resolve

  /** `kept` is what `data.filter` keeps for a test that holds or fails on every element:
      a subsequence of `data` holding each element the test holds of, as often as `data`
      does, and nothing else. */
  ghost predicate Filtered<T(!new)>(test: T -> Result<bool>, kept: seq<T>, data: seq<T>) {
    IsSubsequence(kept, data) &&
    (forall x | x in kept :: test(x) == Ok(true)) &&
    (forall i | 0 <= i < |data| && test(data[i]) == Ok(true) :: data[i] in kept) &&
    (forall x :: multiset(kept)[x] == (if test(x) == Ok(true) then multiset(data)[x] else 0))
  }

  /** `data.filter(test)` for a callback that may throw: the elements the test holds of, in
      input order; the first element on which the test throws ends the whole call with that
      error. */
  function FilterWith<T(!new)>(test: T -> Result<bool>, data: seq<T>): (r: Result<seq<T>>)
    ensures r.Ok? <==> forall i | 0 <= i < |data| :: test(data[i]).Ok?
    ensures r.Err? ==> exists i | 0 <= i < |data| ::
      test(data[i]) == Err(r.error) && forall j | 0 <= j < i :: test(data[j]).Ok?
    decreases |data|
  {
    if |data| == 0 then Ok([])
    else
      match test(data[0])
      case Err(err) => Err(err)
      case Ok(keep) =>
        match FilterWith(test, data[1..])
        case Err(err) =>
          var i :| 0 <= i < |data[1..]| && test(data[1..][i]) == Err(err) &&
            forall j | 0 <= j < i :: test(data[1..][j]).Ok?;
          assert test(data[i + 1]) == Err(err) && forall j | 0 <= j < i + 1 :: test(data[j]).Ok?;
          Err(err)
        case Ok(rest) =>
          assert forall i | 1 <= i < |data| :: data[i] == data[1..][i - 1];
          Ok(if keep then [data[0]] + rest else rest)
  }

  /** What `filter` returns when no call of the test throws is what `Filtered` describes. */
  lemma {:induction false} FilterWithKeeps<T(!new)>(test: T -> Result<bool>, data: seq<T>)
    requires FilterWith(test, data).Ok?
    ensures Filtered(test, FilterWith(test, data).value, data)
    decreases |data|
  {
    if |data| == 0 {
      assert IsSubsequence<T>([], []);
    } else {
      var keep := test(data[0]).value;
      FilterWithKeeps(test, data[1..]);
      var rest := FilterWith(test, data[1..]).value;
      FilterStep(test, data[0], data[1..], rest, keep);
      assert data == [data[0]] + data[1..];
    }
  }

  /** Keeping or dropping one more first element, as the test says, filters the longer input. */
  lemma FilterStep<T(!new)>(test: T -> Result<bool>, d: T, tail: seq<T>, rest: seq<T>, keep: bool)
    requires test(d) == Ok(keep) && Filtered(test, rest, tail)
    ensures Filtered(test, if keep then [d] + rest else rest, [d] + tail)
  {
    if keep {
      SubsequenceCons(d, rest, tail);
    } else {
      SubsequenceDrop(d, rest, tail);
    }
    KeptPass(test, d, rest, keep);
    KeptCover(test, d, tail, rest, keep);
    CountStep(d, tail, rest, keep, x => test(x) == Ok(true));
  }

  /** Every element kept after one more step still passes the test. */
  lemma KeptPass<T>(test: T -> Result<bool>, d: T, rest: seq<T>, keep: bool)
    requires test(d) == Ok(keep) && forall x | x in rest :: test(x) == Ok(true)
    ensures forall x | x in (if keep then [d] + rest else rest) :: test(x) == Ok(true)
  {
    forall x | x in (if keep then [d] + rest else rest)
      ensures test(x) == Ok(true)
    {
      if x != d {
        assert x in rest;
      }
    }
  }

  /** Every element of the longer input that passes is kept after one more step. */
  lemma KeptCover<T>(test: T -> Result<bool>, d: T, tail: seq<T>, rest: seq<T>, keep: bool)
    requires test(d) == Ok(keep)
    requires forall i | 0 <= i < |tail| && test(tail[i]) == Ok(true) :: tail[i] in rest
    ensures forall i | 0 <= i < |[d] + tail| && test(([d] + tail)[i]) == Ok(true) ::
      ([d] + tail)[i] in (if keep then [d] + rest else rest)
  {
    var data := [d] + tail;
    forall i | 0 <= i < |data| && test(data[i]) == Ok(true)
      ensures data[i] in (if keep then [d] + rest else rest)
    {
      if i > 0 {
        assert data[i] == tail[i - 1];
      }
    }
  }

  /** `data.filter(compile(where))`: the records the filter holds of, in input order and as
      often as the input holds them; the first record on which the filter throws ends the
      whole call with that error. */
  function FilterRecords(where: seq<Field>, data: seq<Value>): (r: Result<seq<Value>>)
    ensures r.Ok? <==> forall i | 0 <= i < |data| :: Eval(Obj(where), None, data[i]).Ok?
    ensures r.Ok? ==> IsSubsequence(r.value, data)
    ensures r.Ok? ==> forall x | x in r.value :: Eval(Obj(where), None, x) == Ok(true)
    ensures r.Ok? ==>
      forall i | 0 <= i < |data| && Eval(Obj(where), None, data[i]) == Ok(true) :: data[i] in r.value
    ensures r.Ok? ==> forall x ::
      multiset(r.value)[x] == (if Eval(Obj(where), None, x) == Ok(true) then multiset(data)[x] else 0)
    ensures r.Err? ==> exists i | 0 <= i < |data| ::
      Eval(Obj(where), None, data[i]) == Err(r.error) &&
      forall j | 0 <= j < i :: Eval(Obj(where), None, data[j]).Ok?
    ensures r.Err? ==> !r.error.NotFound?
  {
    var test := x => Eval(Obj(where), None, x);
    assert FilterWith(test, data).Ok? ==> Filtered(test, FilterWith(test, data).value, data) by {
      if FilterWith(test, data).Ok? {
        FilterWithKeeps(test, data);
      }
    }
    FilterWith(test, data)
  }

  /** ToIntegerOrInfinity of a skip or limit value: numbers truncate toward zero, booleans
      and Date objects convert; strings, arrays and objects need a conversion the model does
      not define. */
  function ToInteger(v: Value): (r: Result<int>)
    ensures v.Num? && v.n >= 0.0 ==> r.Ok? && r.value >= 0 && r.value as real <= v.n < r.value as real + 1.0
    ensures v.Num? && v.n < 0.0 ==> r.Ok? && r.value <= 0 && r.value as real - 1.0 < v.n <= r.value as real
    ensures r.Err? <==> v.Str? || v.Arr? || v.Obj?
    ensures r.Err? ==> !r.error.NotFound?
  {
    match v
    case Num(n) => Ok(if n >= 0.0 then n.Floor else -((-n).Floor))
    case Bool(b) => Ok(if b then 1 else 0)
    case Date(t) => Ok(t)
    case Str(_) => Err(Coercion)
    case Arr(_) => Err(Coercion)
    case Obj(_) => Err(Coercion)
    case _ => Ok(0)
  }

  /** A relative index of `slice`: a negative one counts from the end, and both are clamped
      to the bounds of the array. */
  function RelativeIndex(rel: int, len: nat): (k: nat)
    ensures k <= len
    ensures 0 <= rel ==> k == if rel <= len then rel else len
    ensures rel < 0 ==> k == if len + rel >= 0 then len + rel else 0
  {
    if rel < 0 then (if len + rel >= 0 then len + rel else 0)
    else if rel <= len then rel else len
  }

  /** `if (skip) records = records.slice(skip)`: drops records from the front. */
  function SkipRecords(xs: seq<Value>, skip: Value): (r: Result<seq<Value>>)
    ensures r.Ok? ==> |r.value| <= |xs| && r.value == xs[|xs| - |r.value|..]
    ensures !Truthy(skip) ==> r == Ok(xs)
    ensures skip.Num? && skip.n >= 0.0 ==>
      r.Ok? && |r.value| == if skip.n.Floor <= |xs| then |xs| - skip.n.Floor else 0
    ensures r.Err? <==> Truthy(skip) && (skip.Str? || skip.Arr? || skip.Obj?)
    ensures r.Err? ==> !r.error.NotFound?
  {
    if !Truthy(skip) then Ok(xs)
    else
      match ToInteger(skip)
      case Err(err) => Err(err)
      case Ok(k) => Ok(xs[RelativeIndex(k, |xs|)..])
  }

  /** `if (limit) records = records.slice(0, limit)`: keeps records at the front. */
  function LimitRecords(xs: seq<Value>, limit: Value): (r: Result<seq<Value>>)
    ensures r.Ok? ==> |r.value| <= |xs| && r.value == xs[..|r.value|]
    ensures !Truthy(limit) ==> r == Ok(xs)
    ensures limit.Num? && limit.n > 0.0 ==>
      r.Ok? && |r.value| == if limit.n.Floor <= |xs| then limit.n.Floor else |xs|
    ensures limit.Num? && limit.n > 0.0 && r.Ok? ==> |r.value| as real <= limit.n
    ensures r.Err? <==> Truthy(limit) && (limit.Str? || limit.Arr? || limit.Obj?)
    ensures r.Err? ==> !r.error.NotFound?
  {
    if !Truthy(limit) then Ok(xs)
    else
      match ToInteger(limit)
      case Err(err) => Err(err)
      case Ok(k) => Ok(xs[..RelativeIndex(k, |xs|)])
  }

  /** Skip, then limit: a run of consecutive records. */
  function Window(xs: seq<Value>, skip: Value, limit: Value): (r: Result<seq<Value>>)
    ensures r.Ok? ==> IsSubsequence(r.value, xs)
    ensures !Truthy(skip) && !Truthy(limit) ==> r == Ok(xs)
    ensures limit.Num? && limit.n > 0.0 && r.Ok? ==> |r.value| as real <= limit.n
    ensures r.Err? ==> !r.error.NotFound?
  {
    match SkipRecords(xs, skip)
    case Err(err) => Err(err)
    case Ok(ys) =>
      match LimitRecords(ys, limit)
      case Err(err) => Err(err)
      case Ok(zs) =>
        var i := |xs| - |ys|;
        assert zs == xs[i..i + |zs|];
        InfixSubsequence(xs, i, i + |zs|);
        Ok(zs)
  }

  /** Skip is applied before limit: with natural numbers `s` and `l > 0`, the window holds
      the records from position `s` on, at most `l` of them; a zero limit keeps them all. */
  lemma SkipBeforeLimit(xs: seq<Value>, s: nat, l: nat)
    ensures l > 0 && s <= |xs| ==>
      Window(xs, Num(s as real), Num(l as real)) == Ok(xs[s..][..if l <= |xs| - s then l else |xs| - s])
    ensures l > 0 && s > |xs| ==> Window(xs, Num(s as real), Num(l as real)) == Ok([])
    ensures l == 0 ==>
      Window(xs, Num(s as real), Num(l as real)) == Ok(xs[if s <= |xs| then s else |xs|..])
  {
    var k := if s <= |xs| then s else |xs|;
    SkipNat(xs, s);
    var ys := xs[k..];
    LimitNat(ys, l);
    if s > |xs| {
      assert ys == [];
    }
  }

  /** Skipping a natural number `s` of records drops the first `s`, or all of them. */
  lemma SkipNat(xs: seq<Value>, s: nat)
    ensures SkipRecords(xs, Num(s as real)) == Ok(xs[if s <= |xs| then s else |xs|..])
  {
    if s > 0 {
      assert (s as real).Floor == s;
      assert ToInteger(Num(s as real)) == Ok(s);
    }
  }

  /** Limiting to a natural number `l > 0` of records keeps the first `l`, or all of them;
      a zero limit keeps them all. */
  lemma LimitNat(ys: seq<Value>, l: nat)
    ensures l > 0 ==> LimitRecords(ys, Num(l as real)) == Ok(ys[..if l <= |ys| then l else |ys|])
    ensures l == 0 ==> LimitRecords(ys, Num(l as real)) == Ok(ys)
  {
    if l > 0 {
      assert (l as real).Floor == l;
      assert ToInteger(Num(l as real)) == Ok(l);
    }
  }

  /** The key test of the projection: `(only is empty || only.includes(k)) &&
      !(without is non-empty && without.includes(k))`. */
  predicate Kept(only: seq<Value>, without: seq<Value>, k: string) {
    (|only| == 0 || Includes(only, Str(k))) && !(|without| > 0 && Includes(without, Str(k)))
  }

  /** `Object.keys(item).filter(key => keep(key) && !omit(key))` */
  function KeptKeys(only: seq<Value>, without: seq<Value>, ks: seq<string>): (r: seq<string>)
    ensures forall k :: k in r <==> k in ks && Kept(only, without, k)
    ensures IsSubsequence(r, ks)
  {
    if |ks| == 0 then []
    else
      var rest := KeptKeys(only, without, ks[1..]);
      assert ks == [ks[0]] + ks[1..];
      if Kept(only, without, ks[0]) then
        SubsequenceCons(ks[0], rest, ks[1..]);
        [ks[0]] + rest
      else
        SubsequenceDrop(ks[0], rest, ks[1..]);
        rest
  }

  /** `.reduce((obj, key) => ({ ...obj, [key]: item[key] }), acc)` */
  function Assign(acc: seq<Field>, item: Value, ks: seq<string>): (r: seq<Field>)
    requires !item.Undefined? && !item.Null?
    ensures forall k :: k in Keys(r) <==> k in Keys(acc) || k in ks
    decreases |ks|
  {
    if |ks| == 0 then acc
    else Assign(Put(acc, ks[0], Index(item, ks[0])), item, ks[1..])
  }

  /** One record of the projection. `Object.keys` of `null` or `undefined` throws. */
  function Project(only: seq<Value>, without: seq<Value>, item: Value): (r: Result<Value>)
    ensures r.Err? <==> item.Undefined? || item.Null?
    ensures r.Ok? ==> (r.value.Obj? &&
      forall k :: k in Keys(r.value.fields) <==> k in Keys(OwnEntries(item)) && Kept(only, without, k))
    ensures r.Err? ==> !r.error.NotFound?
  {
    if item.Undefined? || item.Null? then Err(TypeError)
    else Ok(Obj(Assign([], item, KeptKeys(only, without, Keys(OwnEntries(item))))))
  }

  /** The projection of each record, in order. */
  function ProjectEach(only: seq<Value>, without: seq<Value>, items: seq<Value>): (rs: seq<Result<Value>>)
    ensures |rs| == |items|
    ensures forall i | 0 <= i < |items| :: rs[i] == Project(only, without, items[i])
  {
    seq(|items|, i requires 0 <= i < |items| => Project(only, without, items[i]))
  }

  /** `records.map(project)`, ending with the first error. */
  function ProjectAll(only: seq<Value>, without: seq<Value>, items: seq<Value>): (r: Result<seq<Value>>)
    ensures r.Ok? <==> forall i | 0 <= i < |items| :: !items[i].Undefined? && !items[i].Null?
    ensures r.Ok? ==> (|r.value| == |items| &&
      forall i | 0 <= i < |items| :: Project(only, without, items[i]) == Ok(r.value[i]))
    ensures r.Err? ==> !r.error.NotFound?
  {
    Collect(ProjectEach(only, without, items))
  }

  /** The fields of an object the projection keeps, in their order: the reference the
      projection is proved against. */
  function KeptFields(only: seq<Value>, without: seq<Value>, fs: seq<Field>): (r: seq<Field>)
    ensures IsSubsequence(r, fs)
    ensures forall f :: f in r <==> f in fs && Kept(only, without, f.key)
  {
    if |fs| == 0 then []
    else
      var rest := KeptFields(only, without, fs[1..]);
      assert fs == [fs[0]] + fs[1..];
      if Kept(only, without, fs[0].key) then
        SubsequenceCons(fs[0], rest, fs[1..]);
        [fs[0]] + rest
      else
        SubsequenceDrop(fs[0], rest, fs[1..]);
        rest
  }

  /** Assigning a new key appends its field. */
  lemma PutNew(fs: seq<Field>, k: string, v: Value)
    requires k !in Keys(fs)
    ensures Put(fs, k, v) == fs + [Field(k, v)]
    decreases |fs|
  {
    if |fs| > 0 {
      assert Keys(fs) == [fs[0].key] + Keys(fs[1..]);
      assert fs[0].key != k && k !in Keys(fs[1..]);
      PutNew(fs[1..], k, v);
      assert Put(fs, k, v) == [fs[0]] + Put(fs[1..], k, v);
      ConsAppend(fs, [Field(k, v)]);
    }
  }

  /** One step of the reduce: the first kept field is assigned with its own value. */
  lemma AssignStep(acc: seq<Field>, fs: seq<Field>, kept: seq<Field>)
    requires DistinctKeys(fs) && IsSubsequence(kept, fs) && |kept| > 0
    requires kept[0].key !in Keys(acc)
    ensures Assign(acc, Obj(fs), Keys(kept)) == Assign(acc + [kept[0]], Obj(fs), Keys(kept[1..]))
  {
    var f := kept[0];
    var ks := Keys(kept);
    assert ks[0] == f.key && ks[1..] == Keys(kept[1..]);
    assert Index(Obj(fs), f.key) == f.value by {
      SubsequenceMember(kept, fs, 0);
      var i :| 0 <= i < |fs| && fs[i] == f;
      LookupAt(fs, i);
    }
    assert Put(acc, f.key, f.value) == acc + [f] by {
      PutNew(acc, f.key, f.value);
    }
    assert Assign(acc, Obj(fs), ks) == Assign(Put(acc, ks[0], Index(Obj(fs), ks[0])), Obj(fs), ks[1..]);
  }

  /** Assigning the fields of an object one by one, in their order, onto an object without
      any of their keys appends those fields. */
  lemma {:induction false} AssignFields(acc: seq<Field>, fs: seq<Field>, kept: seq<Field>)
    requires DistinctKeys(fs) && IsSubsequence(kept, fs)
    requires forall k | k in Keys(kept) :: k !in Keys(acc)
    ensures Assign(acc, Obj(fs), Keys(kept)) == acc + kept
    decreases |kept|
  {
    if |kept| == 0 {
      assert acc + kept == acc;
    } else {
      calc {
        Assign(acc, Obj(fs), Keys(kept));
      == { AssignStep(acc, fs, kept); }
        Assign(acc + [kept[0]], Obj(fs), Keys(kept[1..]));
      == { AssignRest(acc, fs, kept); AssignFields(acc + [kept[0]], fs, kept[1..]); }
        (acc + [kept[0]]) + kept[1..];
      == { assert kept == [kept[0]] + kept[1..]; }
        acc + kept;
      }
    }
  }

  /** After the first step of the reduce, the rest of the kept fields still qualify. */
  lemma AssignRest(acc: seq<Field>, fs: seq<Field>, kept: seq<Field>)
    requires DistinctKeys(fs) && IsSubsequence(kept, fs) && |kept| > 0
    requires forall k | k in Keys(kept) :: k !in Keys(acc)
    ensures IsSubsequence(kept[1..], fs)
    ensures forall k | k in Keys(kept[1..]) :: k !in Keys(acc + [kept[0]])
  {
    var f := kept[0];
    KeysAppend(acc, f);
    DistinctSubsequence(kept, fs);
    assert Keys(kept) == [f.key] + Keys(kept[1..]);
    SubsequenceTail(kept, fs);
  }

  lemma KeysAppend(fs: seq<Field>, f: Field)
    ensures Keys(fs + [f]) == Keys(fs) + [f.key]
  {
  }

  /** A subsequence of an object with distinct keys has distinct keys, and its first key does
      not occur again. */
  lemma {:induction false} DistinctSubsequence(a: seq<Field>, b: seq<Field>)
    requires DistinctKeys(b) && IsSubsequence(a, b)
    ensures DistinctKeys(a)
    decreases |b|
  {
    if |a| > 0 {
      if a[0] == b[0] {
        DistinctSubsequence(a[1..], b[1..]);
        forall k | k in Keys(a[1..]) ensures k in Keys(b[1..]) {
          var j :| 0 <= j < |a[1..]| && Keys(a[1..])[j] == k;
          SubsequenceMember(a[1..], b[1..], j);
        }
      } else {
        DistinctSubsequence(a, b[1..]);
      }
    }
  }

  /** Projecting an object keeps exactly its fields whose keys pass the test, in their order
      and with their values. */
  lemma ProjectObject(only: seq<Value>, without: seq<Value>, fs: seq<Field>)
    requires DistinctKeys(fs)
    ensures Project(only, without, Obj(fs)) == Ok(Obj(KeptFields(only, without, fs)))
  {
    var kept := KeptFields(only, without, fs);
    KeptKeysOfFields(only, without, fs);
    assert OwnEntries(Obj(fs)) == fs;
    assert Project(only, without, Obj(fs)) == Ok(Obj(Assign([], Obj(fs), Keys(kept))));
    AssignFields([], fs, kept);
    assert [] + kept == kept;
  }

  lemma {:induction false} KeptKeysOfFields(only: seq<Value>, without: seq<Value>, fs: seq<Field>)
    ensures Keys(KeptFields(only, without, fs)) == KeptKeys(only, without, Keys(fs))
    decreases |fs|
  {
    if |fs| > 0 {
      KeptKeysOfFields(only, without, fs[1..]);
      assert Keys(fs)[1..] == Keys(fs[1..]);
    }
  }

  /** The result of `resolve`: the array of records, or with `find` its first element. */
  datatype Answer = Many(records: seq<Value>) | One(record: Value)

  /** The two library functions `resolve` calls: `fuzzysort.go(search, records, config)`
      mapped to the matched records, and `sortOn(records, order)`. Their behaviour is not part
      of this model. */
  datatype Host = Host(
    fuzzy: (Value, seq<Value>, Value) -> seq<Value>,
    sortOn: (seq<Value>, seq<string>) -> seq<Value>)

  /** Search then sort, each step skipped when it has nothing to do. */
  function Arrange(host: Host, q: Query, matched: seq<Value>): seq<Value>
  {
    var searched := if Truthy(q.search) && |matched| > 0 then host.fuzzy(q.search, matched, q.config) else matched;
    if |q.order| > 0 then host.sortOn(searched, q.order) else searched
  }

  /** The records of the pipeline before the single-or-many step: filter, search, sort, skip,
      limit, projection. */
  function Select(host: Host, data: seq<Value>, q: Query, limit: Value): (r: Result<seq<Value>>)
    ensures limit.Num? && limit.n > 0.0 && r.Ok? ==> |r.value| as real <= limit.n
    ensures r.Err? ==> !r.error.NotFound?
  {
    match FilterRecords(q.where, data)
    case Err(err) => Err(err)
    case Ok(matched) =>
      match Window(Arrange(host, q, matched), q.skip, limit)
      case Err(err) => Err(err)
      case Ok(page) =>
        if |q.only| > 0 || |q.without| > 0 then ProjectAll(q.only, q.without, page) else Ok(page)
  }

  /** The `"<path> not found"` message. */
  function NotFoundMessage(path: Value): (r: Result<string>)
    ensures r.Err? ==> !r.error.NotFound?
    ensures path.Str? ==> r == Ok(path.s + " not found")
  {
    match StringOf(path)
    case Err(err) => Err(err)
    case Ok(s) => Ok(s + " not found")
  }

  /** `resolve(data, options)`. With a truthy `options.find` the limit is 1 and the answer is
      the first record (`undefined` when there is none); the not-found error is raised only
      then, when that record is falsy and `options.raise` is truthy. */
  function Resolve(host: Host, data: seq<Value>, q: Query, options: seq<Field>): (r: Result<Answer>)
    ensures var find := Truthy(Lookup(options, "find"));
      r.Ok? ==> (find <==> r.value.One?)
    ensures r.Err? && r.error.NotFound? ==>
      Truthy(Lookup(options, "find")) && Truthy(Lookup(options, "raise")) &&
      NotFoundMessage(Lookup(options, "path")) == Ok(r.error.message)
    ensures q.limit.Num? && q.limit.n > 0.0 && r.Ok? && r.value.Many? ==>
      |r.value.records| as real <= q.limit.n
  {
    var find := Truthy(Lookup(options, "find"));
    match Select(host, data, q, if find then Num(1.0) else q.limit)
    case Err(err) => Err(err)
    case Ok(records) =>
      if !find then Ok(Many(records))
      else
        var first := if |records| > 0 then records[0] else Undefined;
        if !Truthy(first) && Truthy(Lookup(options, "raise")) then
          match NotFoundMessage(Lookup(options, "path"))
          case Err(err) => Err(err)
          case Ok(msg) => Err(NotFound(msg))
        else Ok(One(first))
  }

  // ---------------------------------------------------------------------------------------
  // Properties of resolve

  /** Without search, sort or projection, `resolve` returns matching records in their input
      order, skip applied before limit; a `null` or `0` skip and limit leave all of them. */
  lemma ResolveKeepsInputOrder(host: Host, data: seq<Value>, q: Query, options: seq<Field>)
    requires !Truthy(q.search) && |q.order| == 0 && |q.only| == 0 && |q.without| == 0
    requires !Truthy(Lookup(options, "find"))
    ensures var r := Resolve(host, data, q, options);
      r.Ok? ==>
        FilterRecords(q.where, data).Ok? &&
        Window(FilterRecords(q.where, data).value, q.skip, q.limit) == Ok(r.value.records)
    ensures var r := Resolve(host, data, q, options);
      r.Ok? ==> (IsSubsequence(r.value.records, data) &&
        forall x | x in r.value.records :: Eval(Obj(q.where), None, x) == Ok(true))
    ensures !Truthy(q.skip) && !Truthy(q.limit) && FilterRecords(q.where, data).Ok? ==>
      Resolve(host, data, q, options) == Ok(Many(FilterRecords(q.where, data).value))
  {
    var r := Resolve(host, data, q, options);
    if r.Ok? {
      var matched := FilterRecords(q.where, data).value;
      var page := r.value.records;
      SubsequenceTrans(page, matched, data);
      forall x | x in page ensures Eval(Obj(q.where), None, x) == Ok(true) {
        SubsequenceIn(page, matched, x);
      }
    }
  }

  /** `Select` takes its limit as an argument and ignores the stored one. */
  lemma SelectIgnoresStoredLimit(host: Host, data: seq<Value>, q: Query, limit: Value, stored: Value)
    ensures Select(host, data, q.(limit := stored), limit) == Select(host, data, q, limit)
  {
    var q' := q.(limit := stored);
    assert q'.where == q.where && q'.skip == q.skip && q'.only == q.only && q'.without == q.without;
    forall m: seq<Value> ensures Arrange(host, q', m) == Arrange(host, q, m) {
    }
  }

  /** With `find`, `resolve` answers the first record of the same query run with limit 1
      and without `find`, or raises `"<path> not found"` when that record is falsy and
      `raise` is set. */
  lemma FindIsFirstOfMany(host: Host, data: seq<Value>, q: Query, options: seq<Field>)
    requires Truthy(Lookup(options, "find"))
    ensures var many := Resolve(host, data, q.(limit := Num(1.0)), Put(options, "find", Bool(false)));
      var one := Resolve(host, data, q, options);
      many.Err? ==> one == Err(many.error)
    ensures var many := Resolve(host, data, q.(limit := Num(1.0)), Put(options, "find", Bool(false)));
      many.Ok? ==> many.value.Many? && |many.value.records| <= 1
    ensures var many := Resolve(host, data, q.(limit := Num(1.0)), Put(options, "find", Bool(false)));
      var one := Resolve(host, data, q, options);
      many.Ok? && |many.value.records| == 1 &&
      (Truthy(many.value.records[0]) || !Truthy(Lookup(options, "raise"))) ==>
        one == Ok(One(many.value.records[0]))
    ensures var many := Resolve(host, data, q.(limit := Num(1.0)), Put(options, "find", Bool(false)));
      var one := Resolve(host, data, q, options);
      many == Ok(Many([])) && !Truthy(Lookup(options, "raise")) ==> one == Ok(One(Undefined))
    ensures var many := Resolve(host, data, q.(limit := Num(1.0)), Put(options, "find", Bool(false)));
      var one := Resolve(host, data, q, options);
      many.Ok? && (|many.value.records| == 0 || !Truthy(many.value.records[0])) &&
      Truthy(Lookup(options, "raise")) && Lookup(options, "path").Str? ==>
        one == Err(NotFound(Lookup(options, "path").s + " not found"))
  {
    var options' := Put(options, "find", Bool(false));
    assert Lookup(options', "find") == Bool(false);
    SelectIgnoresStoredLimit(host, data, q, Num(1.0), Num(1.0));
    assert Resolve(host, data, q.(limit := Num(1.0)), options') ==
      (match Select(host, data, q, Num(1.0))
       case Err(err) => Err(err)
       case Ok(records) => Ok(Many(records)));
  }

  /** Without `find`, `resolve` never raises the not-found error. */
  lemma ManyNeverRaises(host: Host, data: seq<Value>, q: Query, options: seq<Field>)
    requires !Truthy(Lookup(options, "find"))
    ensures var r := Resolve(host, data, q, options);
      r.Ok? ==> r.value.Many?
    ensures var r := Resolve(host, data, q, options);
      r.Err? ==> !r.error.NotFound?
  {
  }

  /** A projected result holds, for each record, the projection of the record at the same
      position of the filtered, sorted and windowed page: exactly its kept fields, in their
      order. */
  lemma ResolveProjects(host: Host, data: seq<Value>, q: Query, options: seq<Field>, i: nat)
    requires |q.only| > 0 || |q.without| > 0
    requires !Truthy(Lookup(options, "find"))
    requires Resolve(host, data, q, options).Ok?
    requires i < |Resolve(host, data, q, options).value.records|
    ensures
      var matched := FilterRecords(q.where, data);
      matched.Ok? &&
      var page := Window(Arrange(host, q, matched.value), q.skip, q.limit);
      page.Ok? && i < |page.value| &&
      Project(q.only, q.without, page.value[i]) == Ok(Resolve(host, data, q, options).value.records[i]) &&
      (page.value[i].Obj? && DistinctKeys(page.value[i].fields) ==>
        Resolve(host, data, q, options).value.records[i] ==
          Obj(KeptFields(q.only, q.without, page.value[i].fields)))
    ensures forall fs | DistinctKeys(fs) &&
        Project(q.only, q.without, Obj(fs)) == Ok(Resolve(host, data, q, options).value.records[i]) ::
      Resolve(host, data, q, options).value.records[i] == Obj(KeptFields(q.only, q.without, fs))
  {
    var matched := FilterRecords(q.where, data).value;
    var page := Window(Arrange(host, q, matched), q.skip, q.limit).value;
    assert Project(q.only, q.without, page[i]) == Ok(Resolve(host, data, q, options).value.records[i]);
    if page[i].Obj? && DistinctKeys(page[i].fields) {
      ProjectObject(q.only, q.without, page[i].fields);
    }
    forall fs | DistinctKeys(fs) &&
        Project(q.only, q.without, Obj(fs)) == Ok(Resolve(host, data, q, options).value.records[i])
      ensures Resolve(host, data, q, options).value.records[i] == Obj(KeptFields(q.only, q.without, fs))
    {
      ProjectObject(q.only, q.without, fs);
    }
  }
}

=== FILE: records.dfy ===
/** How `parseFile` shapes the values a parser returns into database records: the record
    path and directory derived from the file's normalized path, the optional `slug` suffix of
    list files, the dates, and the order in which computed and parsed fields are merged.
    Reading the file, its stat and running the parser are I/O; their outcomes are inputs. */
module Records {

  import opened Results
  import opened Text
  import opened Json
  import opened Paths

  /** The two timestamps of `fs.stat` that records fall back on, in milliseconds. */
  datatype Stat = Stat(birthtime: int, mtime: int)

  /** The outcome of running the parser on the file's text: it threw, or it returned a value. */
  datatype Parsed = Threw | Returned(value: Value)

  /** What the database builder is configured with: its content directory (`this.dir`), the
      extensions of the custom parsers, and `new Date(v)` for a truthy `v`, which yields a
      time or an invalid date (`None`). */
  datatype Builder = Builder(root: string, custom: seq<string>, newDate: Value -> Option<int>)

  /** `this.extensions` */
  function BuilderExtensions(b: Builder): seq<string> {
    Extensions(b.custom)
  }

  /** `this.normalizePath(path)` */
  function Normalize(b: Builder, path: string): string {
    NormalizePath(b.root, BuilderExtensions(b), path)
  }

  /** Where a record lives: its `dir`, its `path`, the last part of the path, and the `slug`
      computed for it (which the parsed value's own `slug` may still override). */
  datatype Location = Location(dir: string, path: string, name: string, slug: Value)

  /** The last part of a non-empty list. */
  function Last<T>(xs: seq<T>): T
    requires |xs| > 0
  {
    xs[|xs| - 1]
  }

  /** The location of one parsed value. The normalized path is split on `/`; in a file that
      produced more than one value, a truthy `slug` of the value is appended as one more
      part. The directory is all parts but the last joined by `/`, or `/` when that is empty;
      the slug is the last part and the path all parts joined. Joining converts an appended
      slug to a string, which the model defines for primitives only. */
  function Locate(np: string, item: Value, listed: bool): (r: Result<Location>)
    requires !item.Undefined? && !item.Null?
    ensures r.Err? <==> listed && Truthy(Index(item, "slug")) && StringOf(Index(item, "slug")).Err?
    ensures r.Err? ==> r.error == Coercion
    ensures r.Ok? ==> r.value.dir != ""
  {
    var parts := Split(np, '/');
    var slug := Index(item, "slug");
    if listed && Truthy(slug) then
      match StringOf(slug)
      case Err(e) => Err(e)
      case Ok(text) =>
        var dir := Join(parts, "/");
        Ok(Location(if dir == "" then "/" else dir, Join(parts + [text], "/"), text, slug))
    else
      var dir := Join(parts[..|parts| - 1], "/");
      Ok(Location(if dir == "" then "/" else dir, Join(parts, "/"), Last(parts), Str(Last(parts))))
  }

  /** `isValidDate(ts) ? ts : fallback` with `ts = v && new Date(v)`. */
  function DateOr(b: Builder, v: Value, fallback: int): (t: int)
    ensures !Truthy(v) ==> t == fallback
    ensures Truthy(v) && b.newDate(v).Some? ==> t == b.newDate(v).value
    ensures Truthy(v) && b.newDate(v).None? ==> t == fallback
  {
    if Truthy(v) then
      match b.newDate(v)
      case Some(t) => t
      case None => fallback
    else fallback
  }

  /** The keys `parseFile` computes after spreading the parsed value, so they win over it. */
  const ComputedKeys: seq<string> := ["dir", "path", "extension", "createdAt", "updatedAt"]

  /** The five fields `parseFile` computes, in the order the object literal lists them. */
  function ComputedFields(dir: string, path: string, ext: string, created: int, updated: int): (cf: seq<Field>)
    ensures Keys(cf) == ComputedKeys && DistinctKeys(cf)
    ensures Lookup(cf, "dir") == Str(dir) && Lookup(cf, "path") == Str(path) && Lookup(cf, "extension") == Str(ext)
    ensures Lookup(cf, "createdAt") == Date(created) && Lookup(cf, "updatedAt") == Date(updated)
  {
    var cf := [Field("dir", Str(dir)), Field("path", Str(path)), Field("extension", Str(ext)),
               Field("createdAt", Date(created)), Field("updatedAt", Date(updated))];
    ComputedKeysDistinct(cf);
    ComputedLookups(cf);
    cf
  }

  /** Five fields named as the computed keys form an object with those keys. */
  lemma ComputedKeysDistinct(cf: seq<Field>)
    requires |cf| == 5 && cf[0].key == "dir" && cf[1].key == "path" && cf[2].key == "extension"
    requires cf[3].key == "createdAt" && cf[4].key == "updatedAt"
    ensures Keys(cf) == ComputedKeys && DistinctKeys(cf)
  {
    DistinctByIndex(cf);
  }

  /** Reading each computed key of those five fields gives the field stored under it. */
  lemma ComputedLookups(cf: seq<Field>)
    requires |cf| == 5 && Keys(cf) == ComputedKeys && DistinctKeys(cf)
    ensures Lookup(cf, "dir") == cf[0].value && Lookup(cf, "path") == cf[1].value
    ensures Lookup(cf, "extension") == cf[2].value
    ensures Lookup(cf, "createdAt") == cf[3].value && Lookup(cf, "updatedAt") == cf[4].value
  {
    LookupAt(cf, 0);
    LookupAt(cf, 1);
    LookupAt(cf, 2);
    LookupAt(cf, 3);
    LookupAt(cf, 4);
  }

  /** The object literal `{ slug, ...item, dir, path, extension, createdAt, updatedAt }`:
      the slug comes first and the parsed value's fields may replace it; the five computed
      fields come last and replace any field of the parsed value of the same name. */
  function Merge(slug: Value, entries: seq<Field>, computed: seq<Field>): (fs: seq<Field>)
    requires Keys(computed) == ComputedKeys && DistinctKeys(computed)
    ensures |fs| > 0 && Keys(fs)[0] == "slug" && DistinctKeys(fs)
    ensures forall k | k in ComputedKeys :: Lookup(fs, k) == Lookup(computed, k)
    ensures DistinctKeys(entries) ==>
      Lookup(fs, "slug") == if "slug" in Keys(entries) then Lookup(entries, "slug") else slug
    ensures DistinctKeys(entries) ==>
      forall k | k !in ComputedKeys && k != "slug" :: Lookup(fs, k) == Lookup(entries, k)
    ensures forall k | k in Keys(fs) :: k in ComputedKeys || k == "slug" || k in Keys(entries)
  {
    var first := [Field("slug", slug)];
    assert Keys(first) == ["slug"] && DistinctKeys(first);
    var merged := Spread(first, entries);
    assert Keys(first) <= Keys(merged);
    assert Keys(merged)[0] == "slug";
    assert "slug" !in ComputedKeys;
    var fs := Spread(merged, computed);
    assert Keys(merged) <= Keys(fs);
    fs
  }

  /** `{ slug, ...item, dir, path, extension, createdAt, updatedAt }` for one parsed value.
      Reading a property of `null` or `undefined` throws a TypeError. */
  function BuildRecord(b: Builder, np: string, ext: string, stat: Stat, item: Value, listed: bool): (r: Result<Value>)
    ensures item.Undefined? || item.Null? ==> r == Err(TypeError)
    ensures !item.Undefined? && !item.Null? ==> (r.Err? <==> Locate(np, item, listed).Err?)
    ensures r.Err? ==> r.error == TypeError || r.error == Coercion
    ensures r.Ok? ==> r.value.Obj?
  {
    if item.Undefined? || item.Null? then Err(TypeError)
    else
      match Locate(np, item, listed)
      case Err(e) => Err(e)
      case Ok(loc) =>
        var created := DateOr(b, Index(item, "createdAt"), stat.birthtime);
        var updated := DateOr(b, Index(item, "updatedAt"), stat.mtime);
        Ok(Obj(Merge(loc.slug, OwnEntries(item), ComputedFields(loc.dir, loc.path, ext, created, updated))))
  }

  /** The outcome of building each parsed value, in order. */
  function BuildEach(b: Builder, np: string, ext: string, stat: Stat, items: seq<Value>, listed: bool): (rs: seq<Result<Value>>)
    ensures |rs| == |items|
    ensures forall i | 0 <= i < |items| :: rs[i] == BuildRecord(b, np, ext, stat, items[i], listed)
  {
    seq(|items|, i requires 0 <= i < |items| => BuildRecord(b, np, ext, stat, items[i], listed))
  }

  /** `value.map(...)`: the records of all parsed values, or the error of the first value
      that throws. */
  function BuildRecords(b: Builder, np: string, ext: string, stat: Stat, items: seq<Value>, listed: bool): (r: Result<seq<Value>>)
    ensures r.Ok? <==> forall i | 0 <= i < |items| :: BuildRecord(b, np, ext, stat, items[i], listed).Ok?
    ensures r.Ok? ==> |r.value| == |items|
    ensures r.Ok? ==> forall i | 0 <= i < |items| :: Ok(r.value[i]) == BuildRecord(b, np, ext, stat, items[i], listed)
    ensures r.Err? ==> exists i | 0 <= i < |items| :: BuildRecord(b, np, ext, stat, items[i], listed) == Err(r.error)
    ensures r.Err? ==> r.error == TypeError || r.error == Coercion
  {
    Collect(BuildEach(b, np, ext, stat, items, listed))
  }

  /** When every value builds, the list builds, one record per value in order. */
  lemma BuildRecordsAllOk(b: Builder, np: string, ext: string, stat: Stat, items: seq<Value>, listed: bool)
    requires forall i | 0 <= i < |items| :: BuildRecord(b, np, ext, stat, items[i], listed).Ok?
    ensures var r := BuildRecords(b, np, ext, stat, items, listed);
      r.Ok? && |r.value| == |items| &&
      forall i | 0 <= i < |items| :: r.value[i] == BuildRecord(b, np, ext, stat, items[i], listed).value
  {
  }

  /** Two values that build give two records, in order. */
  lemma BuildRecordsTwo(b: Builder, np: string, ext: string, stat: Stat, first: Value, second: Value, listed: bool)
    requires BuildRecord(b, np, ext, stat, first, listed).Ok?
    requires BuildRecord(b, np, ext, stat, second, listed).Ok?
    ensures var r := BuildRecords(b, np, ext, stat, [first, second], listed);
      r.Ok? && |r.value| == 2 &&
      Ok(r.value[0]) == BuildRecord(b, np, ext, stat, first, listed) &&
      Ok(r.value[1]) == BuildRecord(b, np, ext, stat, second, listed)
  {
    var values := [first, second];
    var rs := BuildEach(b, np, ext, stat, values, listed);
    assert rs[0] == BuildRecord(b, np, ext, stat, first, listed);
    assert rs[1] == BuildRecord(b, np, ext, stat, second, listed);
    CollectTwo(rs);
  }

  /** `Array.isArray(value) ? value : [value]` */
  function AsList(v: Value): (items: seq<Value>)
    ensures v.Arr? ==> items == v.items
    ensures !v.Arr? ==> items == [v]
  {
    if v.Arr? then v.items else [v]
  }

  /** `parseFile(path)`: no records for a file whose extension has no parser or whose parser
      throws; otherwise one record per parsed value. */
  function ParseFile(b: Builder, path: string, stat: Stat, parsed: Parsed): (r: Result<seq<Value>>)
    ensures Extname(path) !in BuilderExtensions(b) ==> r == Ok([])
    ensures parsed.Threw? ==> r == Ok([])
    ensures Extname(path) in BuilderExtensions(b) && parsed.Returned? ==>
      var items := AsList(parsed.value);
      r == BuildRecords(b, Normalize(b, path), Extname(path), stat, items, |items| > 1)
    ensures r.Err? ==> r.error == TypeError || r.error == Coercion
  {
    var ext := Extname(path);
    if ext !in BuilderExtensions(b) then Ok([])
    else
      match parsed
      case Threw => Ok([])
      case Returned(value) =>
        var items := AsList(value);
        BuildRecords(b, Normalize(b, path), ext, stat, items, |items| > 1)
  }

  // ---------------------------------------------------------------------------------------
  // Properties

  /** Splitting at a separator splits both sides. */
  lemma {:induction false} SplitConcat(a: string, c: string, sep: char)
    ensures Split(a + [sep] + c, sep) == Split(a, sep) + Split(c, sep)
    decreases |a|
  {
    var s := a + [sep] + c;
    if |a| == 0 {
      assert s == [sep] + c;
      assert s[1..] == c;
    } else {
      SplitConcat(a[1..], c, sep);
      assert s[1..] == a[1..] + [sep] + c;
      assert s[0] == a[0];
      if a[0] != sep {
        PartAppend(a[0], Split(a[1..], sep), Split(c, sep));
      }
    }
  }

  /** Prefixing a character to the first of two lists of parts, then appending the
      second, is appending after the prefixing. */
  lemma PartAppend(ch: char, rest: seq<string>, tail: seq<string>)
    requires |rest| >= 1
    ensures [[ch] + (rest + tail)[0]] + (rest + tail)[1..] == ([[ch] + rest[0]] + rest[1..]) + tail
  {
    assert (rest + tail)[1..] == rest[1..] + tail;
  }

  /** A string without the separator is one part. */
  lemma {:induction false} SplitWithout(c: string, sep: char)
    requires sep !in c
    ensures Split(c, sep) == [c]
    decreases |c|
  {
    if |c| > 0 {
      assert sep !in c[1..] by {
        assert forall x | x in c[1..] :: x in c;
      }
      SplitWithout(c[1..], sep);
      assert c == [c[0]] + c[1..];
    }
  }

  /** The parts of `dir/name` are those of `dir` and then the name. */
  lemma PartsOfFile(dir: string, name: string)
    requires '/' !in name
    ensures Split(dir + "/" + name, '/') == Split(dir, '/') + [name]
  {
    SplitConcat(dir, name, '/');
    SplitWithout(name, '/');
  }

  /** A value that is not appended to the path (a file with one value, or a value without a
      truthy `slug`) lives at the file's normalized path `dir/name`, in `dir` (`/` for the
      top level), with slug `name`. */
  lemma LocateFile(dir: string, name: string, item: Value, listed: bool)
    requires '/' !in name && !item.Undefined? && !item.Null?
    requires !listed || !Truthy(Index(item, "slug"))
    ensures Locate(dir + "/" + name, item, listed) ==
      Ok(Location(if dir == "" then "/" else dir, dir + "/" + name, name, Str(name)))
  {
    var np := dir + "/" + name;
    var parts := Split(np, '/');
    PartsOfFile(dir, name);
    assert parts[..|parts| - 1] == Split(dir, '/');
    JoinSplit(dir, '/');
    JoinSplit(np, '/');
  }

  /** A value of a list file with a truthy string `slug` lives under the file's normalized
      path, which becomes its directory, at `np/slug`. */
  lemma LocateListItem(np: string, item: Value, slug: string)
    requires !item.Undefined? && !item.Null? && Index(item, "slug") == Str(slug) && |slug| > 0
    ensures Locate(np, item, true) ==
      Ok(Location(if np == "" then "/" else np, np + "/" + slug, slug, Str(slug)))
  {
    var parts := Split(np, '/');
    JoinSplit(np, '/');
    JoinSnoc(parts, slug, "/");
  }

  /** The record path is the directory, a slash and the last part, or a slash and the last
      part at the top level, for a normalized path `dir/name` (other than `/` and `//name`). */
  lemma PathIsDirSlashName(dir: string, name: string, item: Value, listed: bool)
    requires '/' !in name && dir != "/" && (dir != "" || name != "")
    requires !item.Undefined? && !item.Null? && Locate(dir + "/" + name, item, listed).Ok?
    ensures var loc := Locate(dir + "/" + name, item, listed).value;
      loc.path == (if loc.dir == "/" then "" else loc.dir) + "/" + loc.name
  {
    var np := dir + "/" + name;
    var slug := Index(item, "slug");
    if listed && Truthy(slug) {
      var text := StringOf(slug).value;
      var parts := Split(np, '/');
      JoinSplit(np, '/');
      JoinSnoc(parts, text, "/");
      assert np != "/" by {
        if dir == "" { assert np == "/" + name; assert |np| > 1; } else { assert |np| > 1; }
      }
    } else {
      LocateFile(dir, name, item, listed);
    }
  }

  /** A record carries the computed location and dates, the parsed value's own `slug` when
      it has one, and every other field of the parsed value. */
  lemma RecordOfValue(b: Builder, np: string, ext: string, stat: Stat, item: Value, listed: bool)
    requires !item.Undefined? && !item.Null? && DistinctKeys(OwnEntries(item))
    requires Locate(np, item, listed).Ok?
    ensures var loc := Locate(np, item, listed).value;
      var rec := BuildRecord(b, np, ext, stat, item, listed);
      rec.Ok? && rec.value.Obj? &&
      Lookup(rec.value.fields, "dir") == Str(loc.dir) &&
      Lookup(rec.value.fields, "path") == Str(loc.path) &&
      Lookup(rec.value.fields, "extension") == Str(ext) &&
      Lookup(rec.value.fields, "createdAt") == Date(DateOr(b, Index(item, "createdAt"), stat.birthtime)) &&
      Lookup(rec.value.fields, "updatedAt") == Date(DateOr(b, Index(item, "updatedAt"), stat.mtime)) &&
      Lookup(rec.value.fields, "slug") ==
        (if "slug" in Keys(OwnEntries(item)) then Lookup(OwnEntries(item), "slug") else loc.slug) &&
      forall k | k !in ComputedKeys && k != "slug" :: Lookup(rec.value.fields, k) == Lookup(OwnEntries(item), k)
  {
    var loc := Locate(np, item, listed).value;
    var created := DateOr(b, Index(item, "createdAt"), stat.birthtime);
    var updated := DateOr(b, Index(item, "updatedAt"), stat.mtime);
    var cf := ComputedFields(loc.dir, loc.path, ext, created, updated);
    assert BuildRecord(b, np, ext, stat, item, listed) == Ok(Obj(Merge(loc.slug, OwnEntries(item), cf)));
  }

  /** A list file `dir/name` with a value whose `slug` is `x` and a value without a slug:
      the first record lives at `dir/name/x` in directory `dir/name`, the second at
      `dir/name` itself, in directory `dir`. A value without a slug gets no positional
      suffix. */
  lemma ListFileLocations(dir: string, name: string, first: Value, second: Value, x: string)
    requires '/' !in name && |x| > 0
    requires !first.Undefined? && !first.Null? && Index(first, "slug") == Str(x)
    requires !second.Undefined? && !second.Null? && !Truthy(Index(second, "slug"))
    ensures Locate(dir + "/" + name, first, true).value.path == dir + "/" + name + "/" + x
    ensures Locate(dir + "/" + name, first, true).value.dir == dir + "/" + name
    ensures Locate(dir + "/" + name, second, true).value.path == dir + "/" + name
    ensures Locate(dir + "/" + name, second, true).value.dir == if dir == "" then "/" else dir
  {
    LocateListItem(dir + "/" + name, first, x);
    LocateFile(dir, name, second, true);
  }
}

=== FILE: results.dfy ===
/** Optional values and the ways an evaluation in the modelled JavaScript code can end
    without a value. */
module Results {

  datatype Option<T> = None | Some(value: T)

  /** Why an evaluation produced no value. */
  datatype Error =
      /** the code reads a property of `null`/`undefined` or calls a method the value lacks */
    | TypeError
      /** the outcome hinges on a JavaScript ToNumber/ToString conversion of a number, array
          or object, which this model does not define */
    | Coercion
      /** the query engine's `"<path> not found"` error */
    | NotFound(message: string)

  datatype Result<T> = Ok(value: T) | Err(error: Error)

  /** The values of a list of outcomes, or the first error among them, as mapping with a
      callback that may throw does. */
  function Collect<T>(rs: seq<Result<T>>): (r: Result<seq<T>>)
    ensures r.Ok? <==> forall i | 0 <= i < |rs| :: rs[i].Ok?
    ensures r.Ok? ==> |r.value| == |rs| && forall i | 0 <= i < |rs| :: rs[i] == Ok(r.value[i])
    ensures r.Err? ==> exists i | 0 <= i < |rs| :: rs[i] == Err(r.error) && forall j | 0 <= j < i :: rs[j].Ok?
  {
    if |rs| == 0 then Ok([])
    else
      match rs[0]
      case Err(e) => Err(e)
      case Ok(v) =>
        match Collect(rs[1..])
        case Err(e) =>
          var i :| 0 <= i < |rs[1..]| && rs[1..][i] == Err(e) && forall j | 0 <= j < i :: rs[1..][j].Ok?;
          assert rs[i + 1] == Err(e) && forall j | 0 <= j < i + 1 :: rs[j].Ok?;
          Err(e)
        case Ok(vs) =>
          assert forall i | 1 <= i < |rs| :: rs[i] == rs[1..][i - 1];
          Ok([v] + vs)
  }

  /** Two values collect to the pair of them. */
  lemma CollectTwo<T>(rs: seq<Result<T>>)
    requires |rs| == 2 && rs[0].Ok? && rs[1].Ok?
    ensures Collect(rs) == Ok([rs[0].value, rs[1].value])
  {
    var r := Collect(rs);
    assert rs[0] == Ok(r.value[0]) && rs[1] == Ok(r.value[1]);
    assert r.value == [rs[0].value, rs[1].value];
  }
}

=== FILE: seqs.dfy ===
/** Generic facts about sequences: the subsequence relation (deleting elements while keeping
    the order of the rest). */
module Seqs {

  /** `a` is obtained from `b` by deleting elements. */
  predicate IsSubsequence<T(==)>(a: seq<T>, b: seq<T>)
    decreases |b|
  {
    if |a| == 0 then true
    else if |b| == 0 then false
    else if a[0] == b[0] then IsSubsequence(a[1..], b[1..])
    else IsSubsequence(a, b[1..])
  }

  lemma {:induction false} SubsequenceRefl<T>(a: seq<T>)
    ensures IsSubsequence(a, a)
    decreases |a|
  {
    if |a| > 0 {
      SubsequenceRefl(a[1..]);
    }
  }

  lemma {:induction false} SubsequenceLength<T>(a: seq<T>, b: seq<T>)
    requires IsSubsequence(a, b)
    ensures |a| <= |b|
    decreases |b|
  {
    if |a| > 0 {
      if a[0] == b[0] {
        SubsequenceLength(a[1..], b[1..]);
      } else {
        SubsequenceLength(a, b[1..]);
      }
    }
  }

  /** Keeping a common first element preserves the subsequence relation. */
  lemma SubsequenceCons<T>(c: T, a: seq<T>, b: seq<T>)
    requires IsSubsequence(a, b)
    ensures IsSubsequence([c] + a, [c] + b)
  {
    assert ([c] + a)[1..] == a;
    assert ([c] + b)[1..] == b;
  }

  /** Dropping the first element of the larger seq<T> preserves the relation. */
  lemma {:induction false} SubsequenceDrop<T>(c: T, a: seq<T>, b: seq<T>)
    requires IsSubsequence(a, b)
    ensures IsSubsequence(a, [c] + b)
    decreases |b|, 1
  {
    assert ([c] + b)[1..] == b;
    if |a| > 0 && a[0] == c {
      // IsSubsequence(a, b) gives IsSubsequence(a[1..], b[1..]) or a later match; either way
      // a[1..] is a subsequence of b.
      SubsequenceTail(a, b);
    }
  }

  /** Dropping the first element of the smaller seq<T> preserves the relation. */
  lemma {:induction false} SubsequenceTail<T>(a: seq<T>, b: seq<T>)
    requires |a| > 0 && IsSubsequence(a, b)
    ensures IsSubsequence(a[1..], b)
    decreases |b|, 0
  {
    if a[0] == b[0] {
      SubsequenceDrop(b[0], a[1..], b[1..]);
      assert [b[0]] + b[1..] == b;
    } else {
      SubsequenceTail(a, b[1..]);
      SubsequenceDrop(b[0], a[1..], b[1..]);
      assert [b[0]] + b[1..] == b;
    }
  }

  lemma {:induction false} SubsequenceTrans<T>(a: seq<T>, b: seq<T>, c: seq<T>)
    requires IsSubsequence(a, b) && IsSubsequence(b, c)
    ensures IsSubsequence(a, c)
    decreases |c|
  {
    if |a| == 0 {
    } else if |b| == 0 {
    } else if b[0] == c[0] {
      if a[0] == b[0] {
        SubsequenceTrans(a[1..], b[1..], c[1..]);
      } else {
        SubsequenceTrans(a, b[1..], c[1..]);
      }
    } else {
      SubsequenceTrans(a, b, c[1..]);
      if a[0] == c[0] {
        SubsequenceTail(a, c[1..]);
      }
    }
  }

  /** One step of filtering: keeping or dropping the first element keeps every selected
      element as often as the input holds it, and no other. */
  lemma CountStep<T>(d: T, tail: seq<T>, rest: seq<T>, keep: bool, sel: T -> bool)
    requires sel(d) == keep
    requires forall x :: multiset(rest)[x] == (if sel(x) then multiset(tail)[x] else 0)
    ensures forall x ::
      multiset(if keep then [d] + rest else rest)[x] == (if sel(x) then multiset([d] + tail)[x] else 0)
  {
    assert multiset([d] + tail) == multiset{d} + multiset(tail);
    assert multiset([d] + rest) == multiset{d} + multiset(rest);
  }

  /** An infix is a subsequence. */
  lemma {:induction false} InfixSubsequence<T>(s: seq<T>, i: nat, j: nat)
    requires i <= j <= |s|
    ensures IsSubsequence(s[i..j], s)
    decreases |s|
  {
    if i == j {
    } else if i == 0 {
      SubsequencePrefix(s, j);
    } else {
      InfixSubsequence(s[1..], i - 1, j - 1);
      assert s[1..][i - 1..j - 1] == s[i..j];
      SubsequenceDrop(s[0], s[i..j], s[1..]);
      assert [s[0]] + s[1..] == s;
    }
  }

  lemma {:induction false} SubsequencePrefix<T>(s: seq<T>, j: nat)
    requires j <= |s|
    ensures IsSubsequence(s[..j], s)
    decreases |s|
  {
    if j > 0 {
      SubsequencePrefix(s[1..], j - 1);
      assert s[..j][1..] == s[1..][..j - 1];
    }
  }

  /** An element of a subsequence is an element of the sequence. */
  lemma {:induction false} SubsequenceMember<T>(a: seq<T>, b: seq<T>, i: nat)
    requires IsSubsequence(a, b) && i < |a|
    ensures a[i] in b
    decreases |b|
  {
    if a[0] == b[0] {
      if i > 0 {
        SubsequenceMember(a[1..], b[1..], i - 1);
      }
    } else {
      SubsequenceMember(a, b[1..], i);
    }
  }

  /** A value in a subsequence is in the sequence. */
  lemma SubsequenceIn<T>(a: seq<T>, b: seq<T>, x: T)
    requires IsSubsequence(a, b) && x in a
    ensures x in b
  {
    var i :| 0 <= i < |a| && a[i] == x;
    SubsequenceMember(a, b, i);
  }

  /** Appending after the first element is appending to the whole. */
  lemma ConsAppend<T>(s: seq<T>, t: seq<T>)
    requires |s| > 0
    ensures s + t == [s[0]] + (s[1..] + t)
  {
    assert s == [s[0]] + s[1..];
  }

  /** Putting an element in front of a concatenation is putting it in front of the first part. */
  lemma PrependAppend<T>(h: T, x: seq<T>, y: seq<T>)
    ensures [h] + (x + y) == [h] + x + y
  {
    assert ([h] + x + y)[1..] == x + y;
  }

  /** Dropping a prefix of the first part of a concatenation. */
  lemma DropAppend<T>(a: seq<T>, t: seq<T>, e: nat)
    requires e <= |a|
    ensures (a + t)[e..] == a[e..] + t
    ensures e > 0 ==> (a + t)[0] == a[0]
  {
    assert forall k | 0 <= k < |t| :: (a + t)[e..][|a| - e + k] == t[k];
  }

  /** The members of a two-element sequence are its two elements. */
  lemma PairMembers<T>(s: seq<T>)
    requires |s| == 2
    ensures forall x | x in s :: x == s[0] || x == s[1]
  {
    assert s == [s[0], s[1]];
  }

  /** Splicing `mid` in place of the element at `i` of the tail, then putting the head back,
      splices it in place of the element at `i + 1`. */
  lemma ConsSplice<T>(s: seq<T>, i: nat, mid: seq<T>, r: seq<T>, rest: seq<T>)
    requires i + 1 < |s|
    requires rest == s[1..][..i] + mid + s[1..][i + 1..] && r == [s[0]] + rest
    ensures r == s[..i + 1] + mid + s[i + 2..]
  {
    assert [s[0]] + s[1..][..i] == s[..i + 1];
    assert s[1..][i + 1..] == s[i + 2..];
  }

  /** Deleting the element at `i` of the tail, then putting the head back, deletes the
      element at `i + 1`. */
  lemma ConsDelete<T>(s: seq<T>, i: nat)
    requires i + 1 < |s|
    ensures [s[0]] + (s[1..][..i] + s[1..][i + 1..]) == s[..i + 1] + s[i + 2..]
  {
    assert [s[0]] + s[1..][..i] == s[..i + 1];
    assert s[1..][i + 1..] == s[i + 2..];
  }

  /** A prefix is its first element followed by a prefix of the tail. */
  lemma TakeCons<T>(s: seq<T>, n: nat)
    requires 0 < n <= |s|
    ensures s[..n] == [s[0]] + s[1..][..n - 1]
  {
    assert s[..n][1..] == s[1..][..n - 1];
  }
}

=== FILE: store.dfy ===
/** The builder's record store and how a changed file reaches it: `insertFile`, `updateFile`,
    `removeFile` and the watcher's `refresh` dispatch. The embedded document store is a
    sequence of records in insertion order; a query `{ k: v }` selects the records whose
    property `k` is `v`, `updateOne` replaces the first of them and `deleteOne` removes it. */
module Store {

  import opened Results
  import opened Seqs
  import opened Json
  import opened Records

  /** A property of a stored record, as a query `{ k: v }` reads it. */
  function Prop(r: Value, k: string): Value {
    if r.Obj? then Lookup(r.fields, k) else Undefined
  }

  function PathOf(r: Value): Value {
    Prop(r, "path")
  }

  function DirOf(r: Value): Value {
    Prop(r, "dir")
  }

  /** The store's records, and `this.dirs`: the record paths that name a directory. */
  datatype Db = Db(records: seq<Value>, dirs: seq<string>)

  /** `count({ k: v })` */
  function CountWith(rs: seq<Value>, k: string, v: Value): (n: nat)
    ensures n <= |rs|
    ensures n == 0 <==> forall x | x in rs :: Prop(x, k) != v
  {
    if |rs| == 0 then 0
    else (if Prop(rs[0], k) == v then 1 else 0) + CountWith(rs[1..], k, v)
  }

  /** No two records share a path: the store's key, as the builder keeps it. */
  ghost predicate UniquePaths(rs: seq<Value>) {
    forall p :: CountWith(rs, "path", p) <= 1
  }

  /** Two different records with the same property value are counted twice. */
  lemma {:induction false} CountTwo(rs: seq<Value>, k: string, x: Value, y: Value)
    requires x in rs && y in rs && x != y && Prop(x, k) == Prop(y, k)
    ensures CountWith(rs, k, Prop(x, k)) >= 2
  {
    if rs[0] == x || rs[0] == y {
      assert CountWith(rs[1..], k, Prop(x, k)) > 0 by {
        assert (if rs[0] == x then y else x) in rs[1..];
      }
    } else {
      CountTwo(rs[1..], k, x, y);
    }
  }

  /** Counting over an appended record. */
  lemma {:induction false} CountAppend(rs: seq<Value>, x: Value, k: string, v: Value)
    ensures CountWith(rs + [x], k, v) == CountWith(rs, k, v) + (if Prop(x, k) == v then 1 else 0)
    decreases |rs|
  {
    if |rs| > 0 {
      assert (rs + [x])[1..] == rs[1..] + [x];
      CountAppend(rs[1..], x, k, v);
    } else {
      assert [x][1..] == [];
    }
  }

  /** Deleting records never raises a count. */
  lemma {:induction false} SubsequenceCount(a: seq<Value>, b: seq<Value>, k: string, v: Value)
    requires IsSubsequence(a, b)
    ensures CountWith(a, k, v) <= CountWith(b, k, v)
    decreases |b|
  {
    if |a| > 0 {
      if a[0] == b[0] {
        SubsequenceCount(a[1..], b[1..], k, v);
      } else {
        SubsequenceCount(a, b[1..], k, v);
      }
    }
  }

  /** A sequence without its first element is a subsequence of it. */
  lemma DropFirst<T>(s: seq<T>)
    requires |s| > 0
    ensures IsSubsequence(s[1..], s)
  {
    SubsequenceRefl(s[1..]);
    SubsequenceDrop(s[0], s[1..], s[1..]);
    assert [s[0]] + s[1..] == s;
  }

  /** `find({ k: v })`: the records whose property `k` is `v`, in store order. */
  function WithProp(rs: seq<Value>, k: string, v: Value): (r: seq<Value>)
    ensures forall x :: x in r <==> x in rs && Prop(x, k) == v
    ensures IsSubsequence(r, rs)
    ensures forall x :: multiset(r)[x] == if Prop(x, k) == v then multiset(rs)[x] else 0
  {
    if |rs| == 0 then []
    else
      var rest := WithProp(rs[1..], k, v);
      var r := if Prop(rs[0], k) == v then [rs[0]] + rest else rest;
      WithPropStep(rs[0], rs[1..], rest, r, k, v);
      assert [rs[0]] + rs[1..] == rs;
      r
  }

  /** One step of `find({ k: v })`: keeping the first record iff it matches extends a
      selection of the rest to one of the whole store. */
  lemma WithPropStep(d: Value, tail: seq<Value>, rest: seq<Value>, r: seq<Value>, k: string, v: Value)
    requires r == if Prop(d, k) == v then [d] + rest else rest
    requires IsSubsequence(rest, tail)
    requires forall x :: multiset(rest)[x] == if Prop(x, k) == v then multiset(tail)[x] else 0
    ensures IsSubsequence(r, [d] + tail)
    ensures forall x :: multiset(r)[x] == if Prop(x, k) == v then multiset([d] + tail)[x] else 0
  {
    if Prop(d, k) == v {
      SubsequenceCons(d, rest, tail);
    } else {
      SubsequenceDrop(d, rest, tail);
    }
    assert multiset([d] + tail) == multiset{d} + multiset(tail);
    assert multiset([d] + rest) == multiset{d} + multiset(rest);
  }

  /** The record at index `i` is the first whose property `k` is `v`. */
  predicate FirstWith(rs: seq<Value>, k: string, v: Value, i: int) {
    0 <= i < |rs| && Prop(rs[i], k) == v && forall j | 0 <= j < i :: Prop(rs[j], k) != v
  }

  /** The index of the first record whose property `k` is `v`. */
  function FirstIndexWith(rs: seq<Value>, k: string, v: Value): (i: nat)
    requires CountWith(rs, k, v) > 0
    ensures FirstWith(rs, k, v, i)
  {
    if Prop(rs[0], k) == v then 0
    else
      var i := FirstIndexWith(rs[1..], k, v);
      FirstWithCons(rs, k, v, i);
      i + 1
  }

  /** The first match in the tail is the first match of the whole when the head does not
      match. */
  lemma FirstWithCons(rs: seq<Value>, k: string, v: Value, i: int)
    requires |rs| > 0 && Prop(rs[0], k) != v && FirstWith(rs[1..], k, v, i)
    ensures FirstWith(rs, k, v, i + 1)
  {
    forall j | 0 < j < i + 1 ensures Prop(rs[j], k) != v {
      assert rs[j] == rs[1..][j - 1];
    }
  }

  /** `deleteOne({ k: v })`: the first record whose property `k` is `v` is removed. */
  function DeleteOne(rs: seq<Value>, k: string, v: Value): (r: seq<Value>)
    ensures IsSubsequence(r, rs)
    ensures CountWith(r, k, v) == if CountWith(rs, k, v) > 0 then CountWith(rs, k, v) - 1 else 0
    ensures |r| == if CountWith(rs, k, v) > 0 then |rs| - 1 else |rs|
    ensures forall x | x in rs && Prop(x, k) != v :: x in r
    ensures CountWith(rs, k, v) == 0 ==> r == rs
  {
    if |rs| == 0 then []
    else if Prop(rs[0], k) == v then
      DropFirst(rs);
      rs[1..]
    else
      var rest := DeleteOne(rs[1..], k, v);
      SubsequenceCons(rs[0], rest, rs[1..]);
      assert [rs[0]] + rs[1..] == rs;
      assert ([rs[0]] + rest)[1..] == rest;
      [rs[0]] + rest
  }

  /** `deleteMany({ k: v })`: every record whose property `k` is `v` is removed. */
  function DeleteMany(rs: seq<Value>, k: string, v: Value): (r: seq<Value>)
    ensures IsSubsequence(r, rs)
    ensures forall x :: x in r <==> x in rs && Prop(x, k) != v
    ensures |r| == |rs| - CountWith(rs, k, v)
  {
    if |rs| == 0 then []
    else if Prop(rs[0], k) == v then
      var rest := DeleteMany(rs[1..], k, v);
      DropFirst(rs);
      SubsequenceTrans(rest, rs[1..], rs);
      rest
    else
      var rest := DeleteMany(rs[1..], k, v);
      SubsequenceCons(rs[0], rest, rs[1..]);
      assert [rs[0]] + rs[1..] == rs;
      assert ([rs[0]] + rest)[1..] == rest;
      [rs[0]] + rest
  }

  /** `updateOne({ k: v }, item)`, taken to replace the first record whose property `k` is
      `v` by `item`. */
  function ReplaceFirst(rs: seq<Value>, k: string, v: Value, item: Value): (r: seq<Value>)
    ensures |r| == |rs|
    ensures CountWith(rs, k, v) == 0 ==> r == rs
    ensures CountWith(rs, k, v) > 0 ==> item in r
    ensures forall x | x in rs && Prop(x, k) != v :: x in r
    ensures forall x | x in r :: x == item || x in rs
    ensures Prop(item, k) == v ==> forall w :: CountWith(r, k, w) == CountWith(rs, k, w)
  {
    if |rs| == 0 then []
    else if Prop(rs[0], k) == v then
      assert ([item] + rs[1..])[1..] == rs[1..];
      [item] + rs[1..]
    else
      var rest := ReplaceFirst(rs[1..], k, v, item);
      assert ([rs[0]] + rest)[1..] == rest;
      [rs[0]] + rest
  }

  /** `deleteOne` removes exactly the first match: what is left is the records before it,
      then those after it. */
  lemma {:induction false} DeletesFirstMatch(rs: seq<Value>, k: string, v: Value)
    requires CountWith(rs, k, v) > 0
    ensures var i := FirstIndexWith(rs, k, v);
      DeleteOne(rs, k, v) == rs[..i] + rs[i + 1..]
  {
    if Prop(rs[0], k) == v {
      assert rs[..0] + rs[1..] == rs[1..];
    } else {
      var i := FirstIndexWith(rs[1..], k, v);
      var rest := DeleteOne(rs[1..], k, v);
      assert DeleteOne(rs, k, v) == [rs[0]] + rest;
      DeletesFirstMatch(rs[1..], k, v);
      ConsDelete(rs, i);
    }
  }

  /** `updateOne` replaces exactly the first match: the records before it, the new record,
      then those after it. */
  lemma {:induction false} ReplacesFirstMatch(rs: seq<Value>, k: string, v: Value, item: Value)
    requires CountWith(rs, k, v) > 0
    ensures var i := FirstIndexWith(rs, k, v);
      ReplaceFirst(rs, k, v, item) == rs[..i] + [item] + rs[i + 1..]
  {
    if Prop(rs[0], k) == v {
      ReplacesHead(rs, k, v, item);
    } else {
      var i := FirstIndexWith(rs[1..], k, v);
      ReplacesFirstMatch(rs[1..], k, v, item);
      ConsSplice(rs, i, [item], ReplaceFirst(rs, k, v, item), ReplaceFirst(rs[1..], k, v, item));
    }
  }

  /** When the first record matches, it is the one replaced. */
  lemma ReplacesHead(rs: seq<Value>, k: string, v: Value, item: Value)
    requires |rs| > 0 && Prop(rs[0], k) == v
    ensures ReplaceFirst(rs, k, v, item) == rs[..0] + [item] + rs[1..]
    ensures FirstIndexWith(rs, k, v) == 0
  {
    assert rs[..0] + [item] + rs[1..] == [item] + rs[1..];
  }

  /** Some parsed record has path `p` (`items.some(item => item.path == p)`). */
  predicate HasPath(items: seq<Value>, p: Value) {
    exists it | it in items :: PathOf(it) == p
  }

  /** No two parsed records share a path. */
  predicate DistinctPaths(items: seq<Value>) {
    forall i, j | 0 <= i < j < |items| :: PathOf(items[i]) != PathOf(items[j])
  }

  /** One step of the `updateFile` loop: the record at the item's path is replaced by it, or
      the item is inserted when no record has that path. */
  function Upsert(rs: seq<Value>, item: Value): (r: seq<Value>)
    ensures item in r
    ensures forall x | x in rs && PathOf(x) != PathOf(item) :: x in r
    ensures forall x | x in r :: x == item || x in rs
    ensures UniquePaths(rs) ==> UniquePaths(r)
  {
    var p := PathOf(item);
    if CountWith(rs, "path", p) > 0 then ReplaceFirst(rs, "path", p, item)
    else
      assert forall w :: CountWith(rs + [item], "path", w) == CountWith(rs, "path", w) + (if p == w then 1 else 0) by {
        forall w { CountAppend(rs, item, "path", w); }
      }
      rs + [item]
  }

  /** The upsert loop of `updateFile`, one parsed record after the other. */
  function UpsertAll(rs: seq<Value>, items: seq<Value>): (r: seq<Value>)
    ensures forall x | x in r :: x in rs || x in items
    ensures forall x | x in rs && !HasPath(items, PathOf(x)) :: x in r
    ensures DistinctPaths(items) ==> forall it | it in items :: it in r
    ensures UniquePaths(rs) ==> UniquePaths(r)
    decreases |items|
  {
    if |items| == 0 then rs
    else
      var next := Upsert(rs, items[0]);
      var r := UpsertAll(next, items[1..]);
      assert forall it | it in items[1..] :: it in items;
      assert forall x | x in rs && !HasPath(items, PathOf(x)) :: !HasPath(items[1..], PathOf(x)) && x in next;
      assert DistinctPaths(items) ==> !HasPath(items[1..], PathOf(items[0])) && DistinctPaths(items[1..]) by {
        if DistinctPaths(items) {
          forall i, j | 0 <= i < j < |items[1..]| ensures PathOf(items[1..][i]) != PathOf(items[1..][j]) {
            assert items[1..][i] == items[i + 1] && items[1..][j] == items[j + 1];
          }
        }
      }
      assert forall it | it in items :: it == items[0] || it in items[1..];
      r
  }

  /** The path `p` belongs to a record found before the update that no parsed record has. */
  predicate Stale(saved: seq<Value>, items: seq<Value>, p: Value) {
    (exists e | e in saved :: PathOf(e) == p) && !HasPath(items, p)
  }

  /** The pruning loop of `updateFile`: for each record found before the update whose path no
      parsed record has, the first record at that path is deleted. Only records at such
      paths are deleted. */
  function Prune(rs: seq<Value>, saved: seq<Value>, items: seq<Value>): (r: seq<Value>)
    ensures IsSubsequence(r, rs)
    ensures forall x | x in rs && !Stale(saved, items, PathOf(x)) :: x in r
    decreases |saved|
  {
    if |saved| == 0 then
      SubsequenceRefl(rs);
      rs
    else
      var next := PruneStep(rs, saved[0], items);
      var r := Prune(next, saved[1..], items);
      SubsequenceTrans(r, next, rs);
      assert forall x | x in rs && !Stale(saved, items, PathOf(x)) :: x in next && !Stale(saved[1..], items, PathOf(x)) by {
        forall x | x in rs && !Stale(saved, items, PathOf(x))
          ensures x in next && !Stale(saved[1..], items, PathOf(x))
        {
          assert forall e | e in saved[1..] :: e in saved;
        }
      }
      r
  }

  /** One iteration of the pruning loop, for the record `entry` found before the update. */
  function PruneStep(rs: seq<Value>, entry: Value, items: seq<Value>): (next: seq<Value>)
    ensures IsSubsequence(next, rs)
    ensures forall x | x in rs && (PathOf(x) != PathOf(entry) || HasPath(items, PathOf(x))) :: x in next
    ensures UniquePaths(rs) ==> UniquePaths(next)
    ensures UniquePaths(rs) && !HasPath(items, PathOf(entry)) ==> CountWith(next, "path", PathOf(entry)) == 0
  {
    var p := PathOf(entry);
    if HasPath(items, p) then
      SubsequenceRefl(rs);
      rs
    else
      var next := DeleteOne(rs, "path", p);
      assert UniquePaths(rs) ==> UniquePaths(next) by {
        if UniquePaths(rs) {
          forall w ensures CountWith(next, "path", w) <= 1 {
            SubsequenceCount(next, rs, "path", w);
          }
        }
      }
      next
  }

  /** With paths unique in the store, pruning leaves no record at a stale path, and paths stay
      unique. */
  lemma {:induction false} PruneRemovesStale(rs: seq<Value>, saved: seq<Value>, items: seq<Value>)
    requires UniquePaths(rs)
    ensures UniquePaths(Prune(rs, saved, items))
    ensures forall x | x in Prune(rs, saved, items) :: !Stale(saved, items, PathOf(x))
    decreases |saved|
  {
    if |saved| > 0 {
      var p := PathOf(saved[0]);
      var next := PruneStep(rs, saved[0], items);
      var r := Prune(next, saved[1..], items);
      assert r == Prune(rs, saved, items);
      PruneRemovesStale(next, saved[1..], items);
      if !HasPath(items, p) {
        SubsequenceCount(r, next, "path", p);
      }
      assert forall e | e in saved :: e == saved[0] || e in saved[1..];
    }
  }

  /** The body of `updateFile` for the parsed records, with the directory whose records are
      pruned when the file produced more than one. */
  function Refit(rs: seq<Value>, scope: Value, items: seq<Value>): (r: seq<Value>)
    ensures forall x | x in r :: x in rs || x in items
    ensures DistinctPaths(items) ==> forall it | it in items :: it in r
    ensures |items| <= 1 ==> forall x | x in rs && !HasPath(items, PathOf(x)) :: x in r
  {
    var saved := WithProp(rs, "dir", scope);
    var pruned := if |items| > 1 then Prune(rs, saved, items) else rs;
    assert forall x | x in pruned :: x in rs by {
      if |items| > 1 {
        forall x | x in pruned ensures x in rs { SubsequenceIn(pruned, rs, x); }
      }
    }
    UpsertAll(pruned, items)
  }

  /** With paths unique in the store, `updateFile` keeps them unique, and when the file
      produced more than one record no record in the pruned directory survives unless the
      file still produces a record at its path. */
  lemma RefitScoped(rs: seq<Value>, scope: Value, items: seq<Value>)
    requires UniquePaths(rs)
    ensures UniquePaths(Refit(rs, scope, items))
    ensures |items| > 1 ==> forall x | x in Refit(rs, scope, items) && DirOf(x) == scope :: HasPath(items, PathOf(x))
    ensures forall x | x in rs && !HasPath(items, PathOf(x)) && DirOf(x) != scope :: x in Refit(rs, scope, items)
  {
    var saved := WithProp(rs, "dir", scope);
    var pruned := if |items| > 1 then Prune(rs, saved, items) else rs;
    assert Refit(rs, scope, items) == UpsertAll(pruned, items);
    if |items| > 1 {
      PruneRemovesStale(rs, saved, items);
      var r := UpsertAll(pruned, items);
      forall x | x in rs && !HasPath(items, PathOf(x)) && DirOf(x) != scope ensures x in r {
        if Stale(saved, items, PathOf(x)) {
          var e :| e in saved && PathOf(e) == PathOf(x);
          CountTwo(rs, "path", x, e);
        }
      }
      forall x | x in r && DirOf(x) == scope ensures HasPath(items, PathOf(x)) {
        if x !in items {
          assert x in pruned;
          SubsequenceIn(pruned, rs, x);
          assert x in saved;
          assert !Stale(saved, items, PathOf(x));
        }
      }
    }
  }

  /** `insertFile`: the parsed records are added in order; a file that produced more than one
      record becomes a directory. */
  function InsertFile(db: Db, np: string, items: seq<Value>): (r: Db)
    ensures |r.records| == |db.records| + |items|
    ensures r.records[..|db.records|] == db.records && r.records[|db.records|..] == items
    ensures forall d :: d in r.dirs <==> d in db.dirs || (d == np && |items| > 1)
  {
    Db(db.records + items, db.dirs + if |items| > 1 then [np] else [])
  }

  /** `updateFile` as written: the records pruned are those in the directory of the first
      parsed record. */
  function UpdateFileAsWritten(db: Db, items: seq<Value>): (r: Db)
    ensures r.dirs == db.dirs
    ensures DistinctPaths(items) ==> forall it | it in items :: it in r.records
    ensures forall x | x in r.records :: x in db.records || x in items
    ensures |items| <= 1 ==> forall x | x in db.records && !HasPath(items, PathOf(x)) :: x in r.records
    ensures UniquePaths(db.records) ==> UniquePaths(r.records)
    ensures UniquePaths(db.records) && |items| > 0 ==>
      forall x | x in db.records && !HasPath(items, PathOf(x)) && DirOf(x) != DirOf(items[0]) :: x in r.records
  {
    var scope := if |items| > 0 then DirOf(items[0]) else Undefined;
    var r := Refit(db.records, scope, items);
    assert UniquePaths(db.records) ==> (UniquePaths(r) &&
      forall x | x in db.records && !HasPath(items, PathOf(x)) && DirOf(x) != scope :: x in r) by {
      if UniquePaths(db.records) { RefitScoped(db.records, scope, items); }
    }
    Db(r, db.dirs)
  }

  /** `updateFile`, pruning the records in the directory named by the file's own normalized
      path, which is where the records of a list file live. Every parsed record ends up in
      the store; a record the file no longer produces is removed; no other record changes. */
  function UpdateFile(db: Db, np: string, items: seq<Value>): (r: Db)
    ensures r.dirs == db.dirs
    ensures forall x | x in r.records :: x in db.records || x in items
    ensures DistinctPaths(items) ==> forall it | it in items :: it in r.records
    ensures |items| <= 1 ==> forall x | x in db.records && !HasPath(items, PathOf(x)) :: x in r.records
    ensures UniquePaths(db.records) ==>
      forall x | x in db.records && !HasPath(items, PathOf(x)) && DirOf(x) != Str(np) :: x in r.records
    ensures UniquePaths(db.records) ==> UniquePaths(r.records)
    ensures UniquePaths(db.records) && |items| > 1 ==>
      forall x | x in r.records && DirOf(x) == Str(np) :: HasPath(items, PathOf(x))
  {
    var r := Refit(db.records, Str(np), items);
    assert UniquePaths(db.records) ==> (UniquePaths(r) &&
      (|items| > 1 ==> forall x | x in r && DirOf(x) == Str(np) :: HasPath(items, PathOf(x))) &&
      (forall x | x in db.records && !HasPath(items, PathOf(x)) && DirOf(x) != Str(np) :: x in r)) by {
      if UniquePaths(db.records) { RefitScoped(db.records, Str(np), items); }
    }
    Db(r, db.dirs)
  }

  /** `removeFile`: the record at the file's path is deleted; when there is none, the file
      was a list file and every record in the directory of that name is deleted. */
  function RemoveFile(db: Db, np: string): (r: Db)
    ensures r.dirs == db.dirs
    ensures IsSubsequence(r.records, db.records)
    ensures CountWith(db.records, "path", Str(np)) > 0 ==>
      |r.records| == |db.records| - 1 &&
      forall x | x in db.records && PathOf(x) != Str(np) :: x in r.records
    ensures UniquePaths(db.records) ==> forall x | x in r.records :: PathOf(x) != Str(np)
    ensures CountWith(db.records, "path", Str(np)) == 0 ==>
      forall x :: x in r.records <==> x in db.records && DirOf(x) != Str(np)
  {
    var rs := db.records;
    if CountWith(rs, "path", Str(np)) > 0 then Db(DeleteOne(rs, "path", Str(np)), db.dirs)
    else Db(DeleteMany(rs, "dir", Str(np)), db.dirs)
  }

  /** A store holding one record is keyed by path. */
  lemma SingleUnique(x: Value)
    ensures UniquePaths([x])
  {
    forall p ensures CountWith([x], "path", p) <= 1 {
      assert [x][1..] == [];
    }
  }

  /** Updating a list file whose first parsed record lies in the directory of a stored record
      of another file: as written, that record is deleted; pruning by the file's own path
      keeps it. */
  lemma SiblingPruned(sibling: Value, items: seq<Value>, np: string, dirs: seq<string>)
    requires |items| == 2 && DirOf(items[0]) == DirOf(sibling) && DirOf(sibling) != Str(np)
    requires PathOf(sibling) != PathOf(items[0]) && PathOf(sibling) != PathOf(items[1])
    ensures sibling !in UpdateFileAsWritten(Db([sibling], dirs), items).records
    ensures sibling in UpdateFile(Db([sibling], dirs), np, items).records
  {
    SingleUnique(sibling);
    assert !HasPath(items, PathOf(sibling)) by {
      PairMembers(items);
    }
    assert sibling in [sibling];
    var written := Refit([sibling], DirOf(items[0]), items);
    assert UpdateFileAsWritten(Db([sibling], dirs), items).records == written;
    assert sibling !in written by {
      RefitScoped([sibling], DirOf(items[0]), items);
    }
  }

  /** The records of a list file `dir/name` whose first value has no `slug` and whose second
      value has slug `x`: the first lies at `dir/name` in `dir`, the second at `dir/name/x`. */
  lemma ListRecords(b: Builder, dir: string, name: string, ext: string, stat: Stat,
                    first: Value, second: Value, x: string)
    requires '/' !in name && |x| > 0 && dir != ""
    requires !first.Undefined? && !first.Null? && DistinctKeys(OwnEntries(first)) && !Truthy(Index(first, "slug"))
    requires !second.Undefined? && !second.Null? && DistinctKeys(OwnEntries(second)) && Index(second, "slug") == Str(x)
    ensures var items := BuildRecords(b, dir + "/" + name, ext, stat, [first, second], true);
      items.Ok? && |items.value| == 2 &&
      PathOf(items.value[0]) == Str(dir + "/" + name) && DirOf(items.value[0]) == Str(dir) &&
      PathOf(items.value[1]) == Str(dir + "/" + name + "/" + x) && DirOf(items.value[1]) == Str(dir + "/" + name)
  {
    var np := dir + "/" + name;
    var r0 := BuildRecord(b, np, ext, stat, first, true);
    var r1 := BuildRecord(b, np, ext, stat, second, true);
    FileRecordPlace(b, dir, name, ext, stat, first, true);
    ListItemRecordPlace(b, np, ext, stat, second, x);
    BuildRecordsTwo(b, np, ext, stat, first, second, true);
    assert np + "/" + x == dir + "/" + name + "/" + x;
  }

  /** A built record is stored under the path and directory its location names. */
  lemma RecordPlace(b: Builder, np: string, ext: string, stat: Stat, item: Value, listed: bool)
    requires !item.Undefined? && !item.Null? && DistinctKeys(OwnEntries(item))
    requires Locate(np, item, listed).Ok?
    ensures var rec := BuildRecord(b, np, ext, stat, item, listed);
      rec.Ok? &&
      PathOf(rec.value) == Str(Locate(np, item, listed).value.path) &&
      DirOf(rec.value) == Str(Locate(np, item, listed).value.dir)
  {
    RecordOfValue(b, np, ext, stat, item, listed);
  }

  /** The record of a file `dir/name`, or of a list value without a slug, lies at `dir/name`
      in `dir`. */
  lemma FileRecordPlace(b: Builder, dir: string, name: string, ext: string, stat: Stat, item: Value, listed: bool)
    requires '/' !in name && dir != ""
    requires !item.Undefined? && !item.Null? && DistinctKeys(OwnEntries(item))
    requires !listed || !Truthy(Index(item, "slug"))
    ensures var rec := BuildRecord(b, dir + "/" + name, ext, stat, item, listed);
      rec.Ok? && PathOf(rec.value) == Str(dir + "/" + name) && DirOf(rec.value) == Str(dir)
  {
    LocateFile(dir, name, item, listed);
    RecordPlace(b, dir + "/" + name, ext, stat, item, listed);
  }

  /** The record of a list value with slug `slug` lies at `np/slug` in `np`. */
  lemma ListItemRecordPlace(b: Builder, np: string, ext: string, stat: Stat, item: Value, slug: string)
    requires np != "" && |slug| > 0
    requires !item.Undefined? && !item.Null? && DistinctKeys(OwnEntries(item))
    requires Index(item, "slug") == Str(slug)
    ensures var rec := BuildRecord(b, np, ext, stat, item, true);
      rec.Ok? && PathOf(rec.value) == Str(np + "/" + slug) && DirOf(rec.value) == Str(np)
  {
    LocateListItem(np, item, slug);
    RecordPlace(b, np, ext, stat, item, true);
  }

  /** Updating such a list file while the store holds a record of another file in `dir`: as
      written, that record is deleted, because the first parsed record lives in `dir`;
      pruning by the file's own path keeps it. */
  lemma UpdateDeletesSibling(b: Builder, dir: string, name: string, ext: string, stat: Stat,
                             first: Value, second: Value, x: string, sibling: Value, dirs: seq<string>)
    requires '/' !in name && |x| > 0 && dir != ""
    requires !first.Undefined? && !first.Null? && DistinctKeys(OwnEntries(first)) && !Truthy(Index(first, "slug"))
    requires !second.Undefined? && !second.Null? && DistinctKeys(OwnEntries(second)) && Index(second, "slug") == Str(x)
    requires DirOf(sibling) == Str(dir)
    requires PathOf(sibling) != Str(dir + "/" + name) && PathOf(sibling) != Str(dir + "/" + name + "/" + x)
    ensures var np := dir + "/" + name;
      var items := BuildRecords(b, np, ext, stat, [first, second], true);
      items.Ok? && |items.value| == 2 &&
      sibling !in UpdateFileAsWritten(Db([sibling], dirs), items.value).records &&
      sibling in UpdateFile(Db([sibling], dirs), np, items.value).records
  {
    var np := dir + "/" + name;
    ListRecords(b, dir, name, ext, stat, first, second, x);
    var items := BuildRecords(b, np, ext, stat, [first, second], true);
    assert DirOf(sibling) != Str(np) by {
      assert |np| > |dir|;
    }
    SiblingPruned(sibling, items.value, np, dirs);
  }

  /** The smallest instance: `/posts/list.json` holding `[{}, {slug: "b"}]`, written while a
      record with path `/posts/a` is stored. The code as written deletes that record; the
      corrected update keeps it. */
  lemma UpdateDeletesSiblingExample(b: Builder, ext: string, stat: Stat, dirs: seq<string>)
    ensures var sibling := Obj([Field("dir", Str("/posts")), Field("path", Str("/posts/a"))]);
      var items := BuildRecords(b, "/posts/list", ext, stat, [Obj([]), Obj([Field("slug", Str("b"))])], true);
      items.Ok? &&
      sibling !in UpdateFileAsWritten(Db([sibling], dirs), items.value).records &&
      sibling in UpdateFile(Db([sibling], dirs), "/posts/list", items.value).records
  {
    var sibling := Obj([Field("dir", Str("/posts")), Field("path", Str("/posts/a"))]);
    var second := Obj([Field("slug", Str("b"))]);
    ExampleInputs(sibling, second);
    assert "/posts" + "/" + "list" == "/posts/list";
    UpdateDeletesSibling(b, "/posts", "list", ext, stat, Obj([]), second, "b", sibling, dirs);
  }

  /** The example's two list items and stored record, as the general lemma needs them. */
  lemma ExampleInputs(sibling: Value, second: Value)
    requires sibling == Obj([Field("dir", Str("/posts")), Field("path", Str("/posts/a"))])
    requires second == Obj([Field("slug", Str("b"))])
    ensures DistinctKeys(OwnEntries(Obj([]))) && !Truthy(Index(Obj([]), "slug"))
    ensures DistinctKeys(OwnEntries(second)) && Index(second, "slug") == Str("b")
    ensures DirOf(sibling) == Str("/posts")
    ensures PathOf(sibling) != Str("/posts" + "/" + "list")
    ensures PathOf(sibling) != Str("/posts" + "/" + "list" + "/" + "b")
  {
    assert Lookup(second.fields, "slug") == Str("b");
    assert OwnEntries(second)[1..] == [];
    assert PathOf(sibling) == Str("/posts/a");
    assert "/posts" + "/" + "list" == "/posts/list";
    assert "/posts" + "/" + "list" + "/" + "b" == "/posts/list/b";
  }

  /** The event `refresh` reports through the `file:updated` hook, and the store after it. */
  datatype Refreshed = Refreshed(db: Db, notice: Value)

  /** `refresh(event, path)` for a path relative to the content directory: `add` inserts the
      file's records, `change` updates them with `updateFile` as written, `unlink` removes
      them, and any other event leaves the store as it is; then the event is reported.
      Joining the directory and the path is taken to be plain concatenation with a slash. */
  function Refresh(b: Builder, db: Db, event: string, path: string, stat: Stat, parsed: Parsed): (r: Result<Refreshed>)
    ensures r.Ok? ==> r.value.notice == Obj([Field("event", Str(event)), Field("path", Str(path))])
    ensures r.Err? <==> (event == "add" || event == "change") && ParseFile(b, b.root + "/" + path, stat, parsed).Err?
    ensures r.Err? ==> r.error == ParseFile(b, b.root + "/" + path, stat, parsed).error
    ensures event != "add" && event != "change" && event != "unlink" ==> r.Ok? && r.value.db == db
    ensures r.Ok? && event != "add" ==> r.value.db.dirs == db.dirs
    // add: the parsed records follow the stored ones; a list file becomes a directory
    ensures event == "add" && r.Ok? ==>
      var items := ParseFile(b, b.root + "/" + path, stat, parsed).value;
      var np := Normalize(b, b.root + "/" + path);
      r.value.db.records == db.records + items &&
      forall d :: d in r.value.db.dirs <==> d in db.dirs || (d == np && |items| > 1)
    // change: every parsed record is stored, and only stored or parsed records remain
    ensures event == "change" && r.Ok? ==>
      var items := ParseFile(b, b.root + "/" + path, stat, parsed).value;
      (forall x | x in r.value.db.records :: x in db.records || x in items) &&
      (DistinctPaths(items) ==> forall it | it in items :: it in r.value.db.records) &&
      (|items| <= 1 ==> forall x | x in db.records && !HasPath(items, PathOf(x)) :: x in r.value.db.records) &&
      (UniquePaths(db.records) ==> UniquePaths(r.value.db.records))
    // unlink: the record at the path goes, or else the directory of that name
    ensures event == "unlink" ==>
      var np := Normalize(b, b.root + "/" + path);
      r.Ok? && IsSubsequence(r.value.db.records, db.records) &&
      (CountWith(db.records, "path", Str(np)) > 0 ==>
        |r.value.db.records| == |db.records| - 1 &&
        forall x | x in db.records && PathOf(x) != Str(np) :: x in r.value.db.records) &&
      (CountWith(db.records, "path", Str(np)) == 0 ==>
        forall x :: x in r.value.db.records <==> x in db.records && DirOf(x) != Str(np)) &&
      (UniquePaths(db.records) ==> forall x | x in r.value.db.records :: PathOf(x) != Str(np))
  {
    var file := b.root + "/" + path;
    var np := Normalize(b, file);
    var notice := Obj([Field("event", Str(event)), Field("path", Str(path))]);
    if event == "add" then
      match ParseFile(b, file, stat, parsed)
      case Err(e) => Err(e)
      case Ok(items) => Ok(Refreshed(InsertFile(db, np, items), notice))
    else if event == "change" then
      match ParseFile(b, file, stat, parsed)
      case Err(e) => Err(e)
      case Ok(items) => Ok(Refreshed(UpdateFileAsWritten(db, items), notice))
    else if event == "unlink" then Ok(Refreshed(RemoveFile(db, np), notice))
    else Ok(Refreshed(db, notice))
  }

  /** `refresh` with the corrected `updateFile`: every event but `change` does what `refresh`
      does; on `change` the records pruned are those in the directory named by the file's own
      path, so a store keyed by path stays keyed by path and no record of another file goes. */
  function RefreshCorrected(b: Builder, db: Db, event: string, path: string, stat: Stat, parsed: Parsed): (r: Result<Refreshed>)
    ensures event != "change" ==> r == Refresh(b, db, event, path, stat, parsed)
    ensures event == "change" ==> (r.Ok? <==> Refresh(b, db, event, path, stat, parsed).Ok?)
    ensures r.Ok? ==> r.value.notice == Obj([Field("event", Str(event)), Field("path", Str(path))])
    ensures event == "change" && r.Ok? ==>
      var np := Normalize(b, b.root + "/" + path);
      var items := ParseFile(b, b.root + "/" + path, stat, parsed).value;
      r.value.db.dirs == db.dirs &&
      (forall x | x in r.value.db.records :: x in db.records || x in items) &&
      (DistinctPaths(items) ==> forall it | it in items :: it in r.value.db.records) &&
      (UniquePaths(db.records) ==> UniquePaths(r.value.db.records)) &&
      (UniquePaths(db.records) ==>
        forall x | x in db.records && !HasPath(items, PathOf(x)) && DirOf(x) != Str(np) :: x in r.value.db.records)
  {
    if event == "change" then
      var file := b.root + "/" + path;
      match ParseFile(b, file, stat, parsed)
      case Err(e) => Err(e)
      case Ok(items) =>
        Ok(Refreshed(UpdateFile(db, Normalize(b, file), items),
          Obj([Field("event", Str(event)), Field("path", Str(path))])))
    else Refresh(b, db, event, path, stat, parsed)
  }
}

=== FILE: text.dfy ===
/** String operations of the JavaScript standard library that the modelled code relies on,
    written out over `seq<char>`. */
module Text {

  import opened Results

  predicate StartsWith(s: string, prefix: string) {
    |prefix| <= |s| && s[..|prefix|] == prefix
  }

  predicate EndsWith(s: string, suffix: string) {
    |suffix| <= |s| && s[|s| - |suffix|..] == suffix
  }

  predicate OccursAt(s: string, pat: string, i: int) {
    0 <= i && i + |pat| <= |s| && s[i..i + |pat|] == pat
  }

  /** `s.includes(pat)` */
  predicate Contains(s: string, pat: string) {
    exists i | 0 <= i <= |s| :: OccursAt(s, pat, i)
  }

  /** Index of the first occurrence of `pat` in `s` at or after `from`, scanning left to right. */
  function IndexOfFrom(s: string, pat: string, from: nat): (r: Option<nat>)
    requires from <= |s|
    ensures r.Some? ==> from <= r.value && OccursAt(s, pat, r.value)
    ensures r.Some? ==> forall j | from <= j < r.value :: !OccursAt(s, pat, j)
    ensures r.None? ==> forall j | from <= j <= |s| :: !OccursAt(s, pat, j)
    decreases |s| - from
  {
    if OccursAt(s, pat, from) then Some(from)
    else if from == |s| then None
    else IndexOfFrom(s, pat, from + 1)
  }

  /** `s.replace(pat, '')` with a string pattern: only the first occurrence is removed. */
  function RemoveFirst(s: string, pat: string): (r: string)
    ensures Contains(s, pat) ==> |r| == |s| - |pat|
    ensures Contains(s, pat) ==>
      exists i | OccursAt(s, pat, i) && (forall j | 0 <= j < i :: !OccursAt(s, pat, j)) ::
        r == s[..i] + s[i + |pat|..]
    ensures !Contains(s, pat) ==> r == s
  {
    match IndexOfFrom(s, pat, 0)
    case None =>
      assert !Contains(s, pat);
      s
    case Some(i) =>
      var r := s[..i] + s[i + |pat|..];
      assert OccursAt(s, pat, i) && (forall j | 0 <= j < i :: !OccursAt(s, pat, j));
      r
  }

  /** Removing a prefix: its first occurrence is the prefix itself. */
  lemma RemoveFirstPrefix(prefix: string, rest: string)
    ensures RemoveFirst(prefix + rest, prefix) == rest
  {
    var s := prefix + rest;
    assert OccursAt(s, prefix, 0);
    assert IndexOfFrom(s, prefix, 0) == Some(0);
  }

  /** `s.replace(/a/g, b)` for single characters. */
  function ReplaceAll(s: string, a: char, b: char): (r: string)
    ensures |r| == |s|
    ensures forall i | 0 <= i < |s| :: r[i] == if s[i] == a then b else s[i]
    ensures a != b ==> a !in r
  {
    seq(|s|, i requires 0 <= i < |s| => if s[i] == a then b else s[i])
  }

  /** The characters of `s` other than `c`, in order. */
  function RemoveAll(s: string, c: char): (r: string)
    ensures c !in r
  {
    if |s| == 0 then ""
    else if s[0] == c then RemoveAll(s[1..], c)
    else [s[0]] + RemoveAll(s[1..], c)
  }

  /** `s.split(sep)` for a one-character separator. */
  function Split(s: string, sep: char): (parts: seq<string>)
    ensures |parts| >= 1
    decreases |s|
  {
    if |s| == 0 then [""]
    else
      var rest := Split(s[1..], sep);
      if s[0] == sep then [""] + rest
      else [[s[0]] + rest[0]] + rest[1..]
  }

  /** `parts.join(sep)` */
  function Join(parts: seq<string>, sep: string): string
  {
    if |parts| == 0 then ""
    else if |parts| == 1 then parts[0]
    else parts[0] + sep + Join(parts[1..], sep)
  }

  /** Splitting on a character and joining with it again gives back the string. */
  lemma {:induction false} JoinSplit(s: string, sep: char)
    ensures Join(Split(s, sep), [sep]) == s
    decreases |s|
  {
    if |s| == 0 {
    } else {
      var rest := Split(s[1..], sep);
      JoinSplit(s[1..], sep);
      if s[0] == sep {
        assert Split(s, sep) == [""] + rest;
        assert ([""] + rest)[1..] == rest;
        assert s == [s[0]] + s[1..];
      } else {
        var parts := [[s[0]] + rest[0]] + rest[1..];
        assert Split(s, sep) == parts;
        if |rest| == 1 {
          assert Join(rest, [sep]) == rest[0];
          assert s == [s[0]] + s[1..];
        } else {
          assert parts[1..] == rest[1..];
          assert Join(rest, [sep]) == rest[0] + [sep] + Join(rest[1..], [sep]);
          assert s == [s[0]] + s[1..];
        }
      }
    }
  }

  /** No part produced by `Split` contains the separator. */
  lemma {:induction false} SplitPartsFree(s: string, sep: char)
    ensures forall k | 0 <= k < |Split(s, sep)| :: sep !in Split(s, sep)[k]
    decreases |s|
  {
    if |s| > 0 {
      SplitPartsFree(s[1..], sep);
    }
  }

  /** Appending one more part to a non-empty list adds the separator and the part. */
  lemma JoinSnoc(parts: seq<string>, last: string, sep: string)
    requires |parts| >= 1
    ensures Join(parts + [last], sep) == Join(parts, sep) + sep + last
    decreases |parts|
  {
    if |parts| == 1 {
      assert (parts + [last])[1..] == [last];
    } else {
      assert (parts + [last])[1..] == parts[1..] + [last];
      JoinSnoc(parts[1..], last, sep);
    }
  }
}

=== FILE: usedb.dfy ===
/** The `useDB(...args)` composable: it turns its string arguments into a request path,
    narrows the query to that path (or to the directory of that name), and offers three
    ways to run the query against the fetched records. Fetching the database itself is I/O;
    the records are a parameter here. */
module UseDb {

  import opened Results
  import opened Seqs
  import opened Text
  import opened Json
  import opened Queries

  /** No `/` directly follows another `/`. */
  predicate NoDoubleSlash(s: string) {
    forall i | 0 <= i < |s| - 1 :: !(s[i] == '/' && s[i + 1] == '/')
  }

  /** The number of times `c` occurs in `s`. */
  function Occurrences(s: string, c: char): nat
  {
    if |s| == 0 then 0 else (if s[0] == c then 1 else 0) + Occurrences(s[1..], c)
  }

  /** The number of maximal runs of `/` in `s`, when `s` follows a `/` exactly when
      `afterSlash` holds: a run starts at each `/` that does not follow another. */
  function SlashRuns(s: string, afterSlash: bool): nat
  {
    if |s| == 0 then 0
    else (if s[0] == '/' && !afterSlash then 1 else 0) + SlashRuns(s[1..], s[0] == '/')
  }

  /** `s.replace(/\/+/g, '/')`: every run of slashes becomes a single slash. Only slashes
      are removed, one slash is left for each run, and nothing else changes. */
  function CollapseSlashes(s: string): (r: string)
    ensures IsSubsequence(r, s)
    ensures NoDoubleSlash(r)
    ensures RemoveAll(r, '/') == RemoveAll(s, '/')
    ensures Occurrences(r, '/') == SlashRuns(s, false)
    ensures |r| > 0 && r[0] == '/' <==> |s| > 0 && s[0] == '/'
    ensures NoDoubleSlash(s) ==> r == s
    decreases |s|
  {
    if |s| == 0 then ""
    else
      var rest := CollapseSlashes(s[1..]);
      assert s == [s[0]] + s[1..];
      if |s| >= 2 && s[0] == '/' && s[1] == '/' then
        SubsequenceDrop(s[0], rest, s[1..]);
        assert s[1..][1..] == s[2..];
        rest
      else
        SubsequenceCons(s[0], rest, s[1..]);
        var r := [s[0]] + rest;
        assert r[1..] == rest;
        assert SlashRuns(s[1..], s[0] == '/') == SlashRuns(s[1..], false);
        assert RemoveAll(r, '/') == if s[0] == '/' then RemoveAll(rest, '/') else [s[0]] + RemoveAll(rest, '/');
        assert NoDoubleSlash(s) ==> NoDoubleSlash(s[1..]) by {
          if NoDoubleSlash(s) {
            forall i | 0 <= i < |s[1..]| - 1 ensures !(s[1..][i] == '/' && s[1..][i + 1] == '/') {
              assert s[1..][i] == s[i + 1] && s[1..][i + 1] == s[i + 2];
            }
          }
        }
        r
  }

  /** `` `/${paths.join('/')}`.replace(/\/+/g, '/') ``: a slash, then the arguments joined by
      slashes, keeping one slash of each run. */
  function RequestPath(paths: seq<string>): (path: string)
    ensures IsSubsequence(path, "/" + Join(paths, "/"))
    ensures |path| > 0 && path[0] == '/'
    ensures NoDoubleSlash(path)
    ensures RemoveAll(path, '/') == RemoveAll(Join(paths, "/"), '/')
    ensures Occurrences(path, '/') == 1 + SlashRuns(Join(paths, "/"), true)
  {
    var raw := "/" + Join(paths, "/");
    assert raw[1..] == Join(paths, "/");
    assert RemoveAll(raw, '/') == RemoveAll(Join(paths, "/"), '/');
    CollapseSlashes(raw)
  }

  /** A doubled slash collapses to one. */
  lemma CollapseSlashesExample()
    ensures CollapseSlashes("a//b") == "a/b"
  {
    assert NoDoubleSlash("/b");
    assert CollapseSlashes("//b") == CollapseSlashes("/b");
    assert CollapseSlashes("a//b") == "a" + CollapseSlashes("//b");
  }

  /** `useDB('posts', 'a')` requests `/posts/a`. */
  lemma RequestPathExample()
    ensures RequestPath(["posts", "a"]) == "/posts/a"
  {
    assert Join(["posts", "a"], "/") == "posts/a";
    assert "/" + "posts/a" == "/posts/a";
    assert NoDoubleSlash("/posts/a");
  }

  /** The string arguments, in order; `PathsConcat` shows the order is kept. */
  function Paths(args: seq<Value>): (ps: seq<string>)
    ensures |ps| <= |args|
    ensures forall p | p in ps :: Str(p) in args
    ensures (exists i | 0 <= i < |args| :: args[i].Str?) <==> |ps| > 0
  {
    if |args| == 0 then []
    else
      var rest := Paths(args[1..]);
      assert forall i | 1 <= i < |args| :: args[i] == args[1..][i - 1];
      if args[0].Str? then [args[0].s] + rest else rest
  }

  /** The string arguments of two argument lists in a row are those of the first list, then
      those of the second; with the one-argument case of `Paths`, this pins the order. */
  lemma {:induction false} PathsConcat(a: seq<Value>, b: seq<Value>)
    ensures Paths(a + b) == Paths(a) + Paths(b)
    decreases |a|
  {
    if |a| > 0 {
      assert (a + b)[1..] == a[1..] + b;
      PathsConcat(a[1..], b);
    } else {
      assert a + b == b;
    }
  }

  /** `typeof v === 'object'`: `null`, arrays, plain objects and Date objects. */
  predicate IsObjectType(v: Value) {
    v.Null? || v.Arr? || v.Obj? || v.Date?
  }

  /** `args[j]` is the last argument whose type is `object`. */
  predicate LastObjectAt(args: seq<Value>, j: int) {
    0 <= j < |args| && IsObjectType(args[j]) && forall k | j < k < |args| :: !IsObjectType(args[k])
  }

  /** The options argument: the last argument whose type is `object`, or `{}`. */
  function OptionsOf(args: seq<Value>): (options: Value)
    ensures options == Obj([]) || (options in args && IsObjectType(options))
    ensures forall i | 0 <= i < |args| :: IsObjectType(args[i]) ==> IsObjectType(options)
    ensures (exists i | 0 <= i < |args| :: IsObjectType(args[i])) ==>
      exists j | LastObjectAt(args, j) :: options == args[j]
    decreases |args|
  {
    if |args| == 0 then Obj([])
    else if IsObjectType(args[|args| - 1]) then
      assert LastObjectAt(args, |args| - 1);
      args[|args| - 1]
    else
      var prefix := args[..|args| - 1];
      assert forall i | 0 <= i < |args| - 1 :: args[i] == prefix[i];
      var options := OptionsOf(prefix);
      assert (exists i | 0 <= i < |args| :: IsObjectType(args[i])) ==>
        exists j | LastObjectAt(args, j) :: options == args[j] by {
        if exists i | 0 <= i < |args| :: IsObjectType(args[i]) {
          var i :| 0 <= i < |args| && IsObjectType(args[i]);
          assert IsObjectType(prefix[i]);
          var j :| LastObjectAt(prefix, j) && options == prefix[j];
          assert LastObjectAt(args, j);
        }
      }
      options
  }

  /** What `useDB` returns: the query, together with what its fetch methods close over. */
  datatype Handle = Handle(query: Query, path: string, many: bool, options: Value)

  /** `useDB(...args)` with the directories `nuxtDB.dirs` of the database. The path names a
      directory when it is one of `dirs`, and the query then filters on `dir`; otherwise it
      filters on `path`. Without string arguments no filter is added. */
  function UseDB(dirs: seq<string>, args: seq<Value>): (h: Handle)
    ensures h.path == RequestPath(Paths(args))
    ensures h.many <==> h.path in dirs
    ensures h.options == OptionsOf(args)
    ensures |Paths(args)| == 0 ==> h.query == Empty
    ensures |Paths(args)| > 0 && h.many ==> h.query == Empty.(where := [Field("dir", Str(h.path))])
    ensures |Paths(args)| > 0 && !h.many ==> h.query == Empty.(where := [Field("path", Str(h.path))])
  {
    var paths := Paths(args);
    var path := RequestPath(paths);
    var many := path in dirs;
    var key := if many then "dir" else "path";
    var query := if |paths| == 0 then Empty else Where(Empty, Obj([Field(key, Str(path))]));
    assert Spread([], [Field(key, Str(path))]) == [Field(key, Str(path))] by {
      assert Put([], key, Str(path)) == [Field(key, Str(path))];
    }
    Handle(query, path, many, OptionsOf(args))
  }

  /** `{ ...options, ...config, path }`, the options `doFetch` passes to `resolve`. */
  function FetchOptions(h: Handle, config: seq<Field>): (opts: seq<Field>)
    ensures Lookup(opts, "path") == Str(h.path)
    ensures DistinctKeys(config) ==>
      forall k | k in Keys(config) && k != "path" :: Lookup(opts, k) == Lookup(config, k)
  {
    Put(Spread(OwnEntries(h.options), config), "path", Str(h.path))
  }

  /** `fetchOne(raise = true)`: the first matching record, raising `"<path> not found"`
      when there is none and `raise` is truthy. */
  function FetchOne(host: Host, data: seq<Value>, h: Handle, raise: Value): (r: Result<Answer>)
    ensures r.Ok? ==> r.value.One?
    ensures r.Err? && r.error.NotFound? ==>
      r.error.message == h.path + " not found" && (raise.Undefined? || Truthy(raise))
  {
    var raiseValue := if raise.Undefined? then Bool(true) else raise;
    var opts := FetchOptions(h, [Field("find", Bool(true)), Field("raise", raiseValue)]);
    OneOptions(h, raiseValue);
    Resolve(host, data, h.query, opts)
  }

  /** The options `fetchOne` passes ask for one record and carry its `raise`. */
  lemma OneOptions(h: Handle, raiseValue: Value)
    ensures var opts := FetchOptions(h, [Field("find", Bool(true)), Field("raise", raiseValue)]);
      Lookup(opts, "find") == Bool(true) && Lookup(opts, "raise") == raiseValue
  {
    var config := [Field("find", Bool(true)), Field("raise", raiseValue)];
    assert DistinctKeys(config);
    assert Keys(config) == ["find", "raise"];
    assert Lookup(config, "raise") == raiseValue;
  }

  /** The options `fetchMany` passes do not ask for one record. */
  lemma ManyOptions(h: Handle)
    ensures Lookup(FetchOptions(h, [Field("find", Bool(false))]), "find") == Bool(false)
  {
    var config := [Field("find", Bool(false))];
    assert DistinctKeys(config);
    assert Keys(config) == ["find"];
  }

  /** `fetch()`: one record for a path, all records for a directory. */
  function Fetch(host: Host, data: seq<Value>, h: Handle): (r: Result<Answer>)
    ensures r.Ok? ==> (r.value.One? <==> !h.many)
    ensures r.Err? && r.error.NotFound? ==> !h.many && r.error.message == h.path + " not found"
  {
    var config := [Field("find", Bool(!h.many)), Field("raise", Bool(true))];
    assert DistinctKeys(config);
    Resolve(host, data, h.query, FetchOptions(h, config))
  }

  /** `fetchMany()`: all records, never the not-found error. */
  function FetchMany(host: Host, data: seq<Value>, h: Handle): (r: Result<Answer>)
    ensures r.Ok? ==> r.value.Many?
    ensures r.Err? ==> !r.error.NotFound?
  {
    var config := [Field("find", Bool(false))];
    Resolve(host, data, h.query, FetchOptions(h, config))
  }

  /** `fetchOne` raises exactly when the query run for at most one record finds none (or a
      falsy one) and `raise` is not falsy; otherwise it answers that record. */
  lemma FetchOneIsFirstMatch(host: Host, data: seq<Value>, h: Handle, raise: Value)
    ensures var many := FetchMany(host, data, h.(query := h.query.(limit := Num(1.0))));
      var one := FetchOne(host, data, h, raise);
      var raises := raise.Undefined? || Truthy(raise);
      (many.Err? ==> one == Err(many.error)) &&
      (many.Ok? ==>
        |many.value.records| <= 1 &&
        if |many.value.records| == 1 && (Truthy(many.value.records[0]) || !raises) then
          one == Ok(One(many.value.records[0]))
        else if |many.value.records| == 0 && !raises then one == Ok(One(Undefined))
        else one == Err(NotFound(h.path + " not found")))
  {
    var raiseValue := if raise.Undefined? then Bool(true) else raise;
    var opts := FetchOptions(h, [Field("find", Bool(true)), Field("raise", raiseValue)]);
    OneOptions(h, raiseValue);
    FindIsFirstOfMany(host, data, h.query, opts);
    var opts' := Put(opts, "find", Bool(false));
    var manyOpts := FetchOptions(h.(query := h.query.(limit := Num(1.0))), [Field("find", Bool(false))]);
    ManyOptions(h.(query := h.query.(limit := Num(1.0))));
    assert Resolve(host, data, h.query.(limit := Num(1.0)), manyOpts) ==
      Resolve(host, data, h.query.(limit := Num(1.0)), opts') by {
      ResolveReadsFind(host, data, h.query.(limit := Num(1.0)), manyOpts, opts');
    }
  }

  /** Without `find`, `resolve` depends on its options only through `find`. */
  lemma ResolveReadsFind(host: Host, data: seq<Value>, q: Query, a: seq<Field>, b: seq<Field>)
    requires !Truthy(Lookup(a, "find")) && !Truthy(Lookup(b, "find"))
    ensures Resolve(host, data, q, a) == Resolve(host, data, q, b)
  {
  }
}
